=== FILE: README.md ===
# java-rag core, modelled in Dafny

This project models the service layer of `java-rag`, a Spring Boot
retrieval-augmented question-answering service with a knowledge graph on
the side, and proves properties of that model. The model covers:

- **Upload** (`UploadController`): a PDF is fingerprinted with SHA-256,
  rejected as a duplicate or saved, classified into a category, cut into
  chunks (`ChunkService`), embedded (`EmbeddingService`), stored
  (`VectorStoreService`), and then a knowledge-graph run is triggered.
- **Question answering** (`QueryService`, `QueryRequest`): a question is
  routed to the graph when `QuestionRouterService` finds a confident
  `relation_count` intent. Otherwise it is embedded, the nearest chunks
  are searched (through a TTL cache), and the chat model is prompted with
  them. The plain and the streamed (server-sent events) paths are both
  modelled, including the parsing of stream chunks.
- **Graph ingestion** (`KgIngestionJob`, `KgExtractionService`,
  `KgRunHistoryRepository`, `KgAdminController`): pending documents are
  claimed, their chunks are sent to the chat model for extraction, and
  entities, aliases, events, participants and relations are written.
  Entity keys are normalised, repeated names are resolved to one entity,
  and relation hashes are deduplicated. Every run is recorded and
  reported.
- **Graph queries** (`KnowledgeGraphService`,
  `EventParticipantRepository`, `RelationRepository`): resolving a name
  or alias to an entity, and the two count queries.
- **Policies and filters**: `CategoryClassifierService`, `ApiKeyFilter`
  and `RateLimitFilter`.

Java strings are `seq<char>` (see "Left out" on UTF-16) and Java `null`
is `Option`. The database
tables are immutable values, with an entity's id being its position in
the table. The exceptions the code raises, a failed cast of an HTTP
status and a database refusal among them, are `Result` failures, or,
in the upload controller, error responses that carry the exception
behind them; the few that are not modelled are named under "Left out".

Everything the code only calls out to is a function parameter: the chat
and embedding endpoints, Jackson decoding, SHA-256, the PDF reader, the
database's nearest-neighbour search and claim order, random UUIDs and the
clock. Properties are proved for every choice of these. The question
path is also assembled from the embedding and vector-store models
themselves (`Query.Stack`, `Query.AnswerAt`), with the search cache
threaded from one question to the next.

In `ChunkService.chunk` the next window starts at
`max(end - overlap, end)`, which is just `end` for any non-negative
overlap, although the comment at ChunkService.java:58-59 speaks of
re-including the tail of the previous chunk. So windows never overlap:
250 space-free characters with size 100 and overlap 20 give windows of
100, 100 and 50 characters (`Chunker.SpaceFreeExample`), and
`Chunker.WindowsTile` proves that the windows tile the text.

The code uses two different canonical keys. Ingestion stores lower-case
keys, while `KnowledgeGraphService` looks keys up in upper case. So the
lookup by key misses for every name that holds a letter, and resolution
falls back to name and alias matching. `KgQuery.KeysAgreeIffNoLetter`,
`KgQuery.KeyLookupMisses` and `KgQuery.ResolveSkipsKey` state this as the
code behaves.

## Model

| member | source | states |
|---|---|---|
| Chars.Trim | src/main/java/com/randy/rag/service/KgIngestionJob.java:257 | `String.trim`: the slice left after dropping characters up to U+0020 from both ends, with none left at its ends, empty exactly when every character is one |
| Chars.ReplaceSpaceRuns | src/main/java/com/randy/rag/service/KgIngestionJob.java:257 | `replaceAll("\\s+", rep)`: never longer, empty exactly when the input is, a leading whitespace run replaced, and with a whitespace replacement no two replacements adjacent |
| Chars.ReplaceSpaceRunsFrom | src/main/java/com/randy/rag/service/KgIngestionJob.java:257 | every character of the result is the replacement or a non-whitespace character of the input |
| Chars.ReplaceSpaceRunsTrimmed | src/main/java/com/randy/rag/service/KgIngestionJob.java:257 | replacing runs in a text with nothing to trim at its ends leaves nothing to trim |
| Chars.PiecesOfJoin | src/main/java/com/randy/rag/service/QueryService.java:167 | splitting lines joined by a separator none contains gives the lines back |
| Bytes.FloatsRoundTrip | src/main/java/com/randy/rag/service/VectorStoreService.java:205-208 | the floats written with `putFloat` read back as the same vector |
| Bytes.HexRoundTrip | src/main/java/com/randy/rag/controller/UploadController.java:136-139 | the two-digit hex rendering of bytes decodes back to them |
| Bytes.HexInjective | src/main/java/com/randy/rag/controller/UploadController.java:136-139 | distinct byte strings never share a hex rendering |
| Chunker.MaskControls | src/main/java/com/randy/rag/service/ChunkService.java:70-71 | every control character, U+0000 included, becomes a space; every other character and the length are kept |
| Chunker.SanitizeNormalForm | src/main/java/com/randy/rag/service/ChunkService.java:66-73 | a null text sanitises to ""; every sanitised text has no control characters, no `\s` whitespace (ASCII space, tab, line feed, vertical tab, form feed, carriage return) but single spaces, and nothing `trim` removes at either end |
| Chunker.SanitizeIdempotent | src/main/java/com/randy/rag/service/ChunkService.java:66-73 | sanitising an already sanitised text changes nothing |
| Chunker.NormalFormFixed | src/main/java/com/randy/rag/service/ChunkService.java:66-73 | a text already in that normal form is its own sanitised form |
| Chunker.WindowEnd | src/main/java/com/randy/rag/service/ChunkService.java:36-46 | a window ends after its start and no later than `start + chunkSize` or the text's end, and reaches the end when the rest of the text fits |
| Chunker.WindowEndCuts | src/main/java/com/randy/rag/service/ChunkService.java:38-46 | a window that stops short of the end is cut at its last space when that space lies past `chunkSize / 2` (no space after it inside the window), and at the full size otherwise |
| Chunker.Windows | src/main/java/com/randy/rag/service/ChunkService.java:33-61 | the loop visits at least one window, the first at the start, every window non-empty and inside the text |
| Chunker.WindowsLast | src/main/java/com/randy/rag/service/ChunkService.java:55-57 | a window that reaches the end of the text, or whose successor would start past it, is the last one |
| Chunker.WindowsMore | src/main/java/com/randy/rag/service/ChunkService.java:55-60 | otherwise the next window starts at `max(end - chunkOverlap, end)` |
| Chunker.TextWindows | src/main/java/com/randy/rag/service/ChunkService.java:27-31 | the empty text has no windows and every other text has some |
| Chunker.ChunkText | src/main/java/com/randy/rag/service/ChunkService.java:24-31 | `chunk` returns no chunks exactly when the sanitised text is empty |
| Chunker.WindowsTile | src/main/java/com/randy/rag/service/ChunkService.java:58-60 | with a non-negative overlap each window starts where the previous one ended, the last reaches the end, and the windows concatenate back to the text |
| Chunker.ShortTextSingleChunk | src/main/java/com/randy/rag/service/ChunkService.java:24-64 | a text whose sanitised form is 1 to `chunkSize` characters gives exactly one chunk, index 0, holding the sanitised text |
| Chunker.SpaceFreeExample | src/main/java/com/randy/rag/service/ChunkService.java:36-60 | 250 characters without spaces, size 100 and overlap 20, give windows of 100, 100 and 50 characters |
| Embedding.ClampBatch | src/main/java/com/randy/rag/service/EmbeddingService.java:38 | a positive batch size is kept; any other becomes 1 |
| Embedding.Submitted | src/main/java/com/randy/rag/service/EmbeddingService.java:58-65 | only texts that are neither null nor blank are sent, in input order |
| Embedding.RankPicksText | src/main/java/com/randy/rag/service/EmbeddingService.java:58-65 | the sent text at a text's rank is that text |
| Embedding.Batches | src/main/java/com/randy/rag/service/EmbeddingService.java:64-76 | the batches concatenate back to the texts sent |
| Embedding.BatchesWellBatched | src/main/java/com/randy/rag/service/EmbeddingService.java:66-76 | every batch but the last holds exactly the batch size; the last holds 1 to the batch size |
| Embedding.CheckReply | src/main/java/com/randy/rag/service/EmbeddingService.java:97-115 | a reply is accepted exactly when its data is present, non-empty and one vector per input; null or empty data is the "empty embedding data" error; an HTTP failure keeps its status and body when the status is one Spring's `HttpStatus` enum names, and otherwise fails as `UncastableStatus`, since the cast to `HttpStatus` throws |
| Embedding.CallAll | src/main/java/com/randy/rag/service/EmbeddingService.java:81-86 | successful batches give one vector per text sent |
| Embedding.CallAllStopsAtFailure | src/main/java/com/randy/rag/service/EmbeddingService.java:119-123 | once a batch fails, later batches change nothing: the exception ends the call |
| Embedding.AssignBatch | src/main/java/com/randy/rag/service/EmbeddingService.java:81-86 | vector `p` of the reply goes to slot `idx[p]` and every other slot is unchanged; a rejected reply is passed on |
| Embedding.FeedText | src/main/java/com/randy/rag/service/EmbeddingService.java:58-72 | one loop turn keeps the invariant: sent batches plus pending texts are what was submitted so far, and every slot is placed or pending; a failing send is the planned batch at that point |
| Embedding.SendFull | src/main/java/com/randy/rag/service/EmbeddingService.java:66-71 | a full pending batch is sent and its vectors land in the pending texts' slots |
| Embedding.FeedAll | src/main/java/com/randy/rag/service/EmbeddingService.java:58-72 | the loop stops at the first failing batch, whose error is that of the whole plan; otherwise every text is placed or pending |
| Embedding.FlushRest | src/main/java/com/randy/rag/service/EmbeddingService.java:74-78 | the pending texts go out as the last batch, after which exactly the planned batches were sent |
| Embedding.EmbedBatch | src/main/java/com/randy/rag/service/EmbeddingService.java:49-79 | on success a null or blank text gets the empty vector and every other text the vector the endpoint returned for it, and exactly the planned batches were sent; on failure the error is that of the first failing batch, sent after the successful ones before it |
| Embedding.EmbedItems | src/main/java/com/randy/rag/service/EmbeddingService.java:50-79 | for the read texts and a clamped batch size, the same outcome as `embedBatch`: per-text vectors from the planned batches on success, the first failing batch's error otherwise |
| Embedding.Embed | src/main/java/com/randy/rag/service/EmbeddingService.java:44-47 | a null text fails (`List.of(null)` throws), a blank text gives the empty vector without a call, any other text is sent alone and its vector returned |
| VectorStore.Upsert | src/main/java/com/randy/rag/service/VectorStoreService.java:60-61 | `ON CONFLICT (id) DO UPDATE` replaces only content and embedding of an existing row, keeps its document and index, inserts a new row otherwise, and touches no other row |
| VectorStore.PersistFrame | src/main/java/com/randy/rag/service/VectorStoreService.java:64-81 | the rows after persisting are the old rows plus the ids written; rows not written are unchanged, and no row changes document or index |
| VectorStore.PersistStep | src/main/java/com/randy/rag/service/VectorStoreService.java:64-81 | chunks are written in order, and a chunk without an embedding is skipped |
| VectorStore.PersistLastWriterWins | src/main/java/com/randy/rag/service/VectorStoreService.java:71-79 | when no later chunk writes the same id, the stored row holds this chunk's content and embedding |
| VectorStore.PersistChunks | src/main/java/com/randy/rag/service/VectorStoreService.java:53-85 | a null list writes nothing and returns 0; otherwise the table is the chunks written in order, and the count is the number of chunks with a non-empty embedding |
| VectorStore.CountIsRowsWritten | src/main/java/com/randy/rag/service/VectorStoreService.java:80-84 | when the chunks write distinct ids, the returned count is the number of rows written |
| VectorStore.PgLiteralShape | src/main/java/com/randy/rag/service/VectorStoreService.java:141-151 | the pgvector literal is bracketed, holds one comma fewer than the vector has elements, and splits back into the rendered elements |
| VectorStore.GetCached | src/main/java/com/randy/rag/service/VectorStoreService.java:216-224 | an entry is served exactly while `expiresAt >= now`; a missing or expired entry is removed and nothing is served |
| VectorStore.CacheRoundTrip | src/main/java/com/randy/rag/service/VectorStoreService.java:216-229 | a stored result is found again until its time-to-live ends, and storing leaves other keys as they were |
| VectorStore.Zeros | src/main/java/com/randy/rag/service/VectorStoreService.java:205 | the unused tail of the key buffer is zero bytes |
| VectorStore.CacheKey | src/main/java/com/randy/rag/service/VectorStoreService.java:204-214 | the key is 4 bytes per element, 4 for `topK` and 64 reserved bytes; a category longer than 64 bytes overflows the buffer |
| VectorStore.CacheKeyDecodesVector | src/main/java/com/randy/rag/service/VectorStoreService.java:205-208 | the key starts with the query vector's big-endian float bits, which decode back to the vector |
| VectorStore.CacheKeyDecodesTopK | src/main/java/com/randy/rag/service/VectorStoreService.java:209-212 | after the vector come `topK` as a 32-bit big-endian integer, then the category's bytes and zero padding |
| VectorStore.CacheKeyInjective | src/main/java/com/randy/rag/service/VectorStoreService.java:204-214 | two queries with the same key have the same vector and the same `topK` modulo 2^32 |
| VectorStore.NullAndEmptyCategoryShareKey | src/main/java/com/randy/rag/service/VectorStoreService.java:210-212 | a null and an empty category give the same key, although only the null category leaves the search unfiltered |
| VectorStore.SimilarityOrder | src/main/java/com/randy/rag/service/VectorStoreService.java:104-106 | `1 / (1 + distance)` lies in (0, 1], is 1 exactly at distance 0, and falls strictly as distance grows |
| VectorStore.ResultsMostSimilarFirst | src/main/java/com/randy/rag/service/VectorStoreService.java:169-184 | every result's similarity lies in (0, 1], and rows that come back nearest first, as `ORDER BY c.embedding <-> ?` returns them, become results most similar first |
| VectorStore.Filter | src/main/java/com/randy/rag/service/VectorStoreService.java:165-172 | the category filter applies exactly when the category is neither null nor blank |
| VectorStore.Search | src/main/java/com/randy/rag/service/VectorStoreService.java:153-202 | a null or empty query gives no results and leaves the cache alone; an overflowing key fails with the cache unchanged; otherwise the search fails exactly when `topK` is negative and no live entry answers it, since PostgreSQL refuses a negative `LIMIT`; without the cache it returns the database rows as results and never touches the cache |
| VectorStore.Lookup | src/main/java/com/randy/rag/service/VectorStoreService.java:158-201 | a live cached entry is returned as is; otherwise the database is asked, which fails exactly for a negative `topK`; with the cache enabled a successful answer is stored with a fresh expiry, and a failure leaves the cache with only the stale entry for the key dropped |
| VectorStore.SearchSimilar | src/main/java/com/randy/rag/service/VectorStoreService.java:87-127 | a null or empty query gives no results and leaves the cache alone; with the cache off it fails exactly for a negative `topK` |
| VectorStore.OverloadsAgree | src/main/java/com/randy/rag/service/VectorStoreService.java:87-127 | the two-argument search is the three-argument search with a null category |
| VectorStore.RepeatHitsCache | src/main/java/com/randy/rag/service/VectorStoreService.java:158-201 | a first search for a new key succeeds exactly when `topK` is not negative, and asking the same question again within the time-to-live then returns the first answer, whatever the database now holds |
| Upload.Fingerprint | src/main/java/com/randy/rag/controller/UploadController.java:132-140 | the fingerprint is two lower-case hex digits per digest byte, 64 characters for SHA-256 |
| Upload.FingerprintIffDigest | src/main/java/com/randy/rag/controller/UploadController.java:132-140 | two uploads share a fingerprint exactly when their digests are equal |
| Upload.ResolveCategory | src/main/java/com/randy/rag/controller/UploadController.java:111-116 | a category given and not blank is used as is; a null or blank one is the classifier's answer for the text, which is the fallback category when the text is blank |
| Upload.NewDocument | src/main/java/com/randy/rag/controller/UploadController.java:118-126 | the saved document carries the fingerprint as its external id and is waiting for knowledge-graph ingestion |
| Upload.EmbedChunks | src/main/java/com/randy/rag/controller/UploadController.java:95-99 | embedding the chunks succeeds exactly when every planned batch does, and then gives each chunk its expected vector; otherwise it fails with the first batch error |
| Upload.IngestText | src/main/java/com/randy/rag/controller/UploadController.java:92-101 | chunk, embed and store: the table and count are those of persisting the embedded chunks, and the first embedding error is passed on |
| Upload.HandleUpload | src/main/java/com/randy/rag/controller/UploadController.java:66-109 | a missing or empty file is a 400 that changes nothing; an unreadable file is a 500; a fingerprint held by exactly one document is a 409 naming it, with nothing written; a fingerprint held by several documents makes `findByExternalId` throw, an exception nothing catches, so the upload is a 500 that writes nothing; otherwise the document is saved before chunking, so it stays saved when embedding fails, and a success returns the new id and the count written and starts a knowledge-graph run with limit 5 |
| Upload.SavedUploadIsDuplicate | src/main/java/com/randy/rag/controller/UploadController.java:76-82 | once an upload is saved, uploading the same bytes again is a duplicate, and the saved document is claimable; when no document held the fingerprint before, the saved one is the only holder |
| Upload.Holders | src/main/java/com/randy/rag/repository/graph/DocumentRepository.java:12 | the rows `findByExternalId` matches are exactly the documents whose external id is the fingerprint |
| Upload.HoldersNonEmpty | src/main/java/com/randy/rag/repository/graph/DocumentRepository.java:12 | some document has the fingerprint exactly when the set of matching rows is not empty |
| Upload.UniqueHolder | src/main/java/com/randy/rag/controller/UploadController.java:77-78 | when no two documents share an external id, at most one row matches, so the lookup never throws |
| Upload.SharedFingerprintIsAmbiguous | src/main/java/com/randy/rag/controller/UploadController.java:77-78 | two distinct documents with the same fingerprint give at least two matching rows, the case in which the upload is a 500 |
| Upload.UploadKeepsFingerprintsUnique | src/main/java/com/randy/rag/controller/UploadController.java:77-90 | an upload saves only a fingerprint no document holds, so unique external ids stay unique across uploads made one after another |
| Upload.TextChunkIds | src/main/java/com/randy/rag/controller/UploadController.java:92 | every chunk carries the fresh id drawn for its index |
| Upload.UploadCountIsRowsWritten | src/main/java/com/randy/rag/controller/UploadController.java:101-105 | with distinct chunk ids the count in the response is the number of chunk rows written, and those are the only new rows |
| Extraction.PromptBodyAppend | src/main/java/com/randy/rag/service/KgExtractionService.java:38-41 | the chunk entries of two lists are those of the first list followed by those of the second |
| Extraction.PromptBodyAt | src/main/java/com/randy/rag/service/KgExtractionService.java:38-41 | the prompt holds each chunk's `[chunk i] content` entry, in chunk order |
| Extraction.ExtractJson | src/main/java/com/randy/rag/service/KgExtractionService.java:142-149 | the fallback exists exactly when the first `{` comes before the last `}`, and it is the text between them, both included |
| Extraction.ExtractJsonIdempotent | src/main/java/com/randy/rag/service/KgExtractionService.java:142-149 | cutting a cut-out object again gives the same object |
| Extraction.ExtractJsonFindsWrapped | src/main/java/com/randy/rag/service/KgExtractionService.java:142-149 | an object wrapped in prose without braces is cut out exactly |
| Extraction.ParseContent | src/main/java/com/randy/rag/service/KgExtractionService.java:123-140 | a direct decode wins; a reply that does not decode gives the decode of its first-`{`-to-last-`}` slice; when neither decode succeeds the extraction is empty |
| Extraction.ParseContentDecodes | src/main/java/com/randy/rag/service/KgExtractionService.java:123-140 | parsing invents nothing: any non-empty extraction is what the decoder makes of some stretch of the content |
| Extraction.ParseRepairsWrappedJson | src/main/java/com/randy/rag/service/KgExtractionService.java:123-140 | a reply that wraps a decodable object in prose is decoded through the fallback |
| Extraction.Snippet | src/main/java/com/randy/rag/service/KgExtractionService.java:151-154 | null gives ""; up to 500 characters are kept as they are; a longer text is cut to its first 500 characters plus "..." |
| Extraction.Extract | src/main/java/com/randy/rag/service/KgExtractionService.java:33-95 | no chunks give the empty extraction without a call; otherwise the prompt is the fixed head followed by every chunk's entry, and the extraction is what the reply to that prompt yields |
| Extraction.Interpret | src/main/java/com/randy/rag/service/KgExtractionService.java:65-94 | an HTTP error or a null or blank body gives the empty extraction whatever the decoders do; a non-empty extraction needs a first choice with non-blank content, and is what parsing makes of that content |
| Graph.NormalizeKey | src/main/java/com/randy/rag/service/KgIngestionJob.java:256-258 | a normalised key holds no whitespace, and null gives "" |
| Graph.NormalizeKeyLowerFree | src/main/java/com/randy/rag/service/KgIngestionJob.java:256-258 | a normalised key holds no upper-case letter |
| Graph.NormalizeKeyTrimmed | src/main/java/com/randy/rag/service/KgIngestionJob.java:256-258 | a normalised key has nothing `trim` would remove |
| Graph.NormalizeKeyIdempotent | src/main/java/com/randy/rag/service/KgIngestionJob.java:256-258 | normalising a normalised key gives it back |
| Graph.FirstIndex | src/main/java/com/randy/rag/service/KgIngestionJob.java:114-120 | `toMap` with `(a, b) -> a` maps every key to its first position in the entity list |
| Graph.BuildMemo | src/main/java/com/randy/rag/service/KgIngestionJob.java:114-120 | the two lookup maps send a lower-cased name, or a lower-cased key (null as ""), to an entity that has it |
| Graph.BuildMemoCovers | src/main/java/com/randy/rag/service/KgIngestionJob.java:116-120 | every entity's lower-cased key is in the key map |
| Graph.ResolveEntity | src/main/java/com/randy/rag/service/KgIngestionJob.java:241-254 | a name is looked up by normalised key, then by lower-cased name; only when both miss is a new entity created, holding the name and its normalised key, and filed in both maps |
| Graph.ResolveTwice | src/main/java/com/randy/rag/service/KgIngestionJob.java:241-254 | resolving the same name again with the maps the first call returned gives the same entity and creates nothing |
| Graph.ResolveKeepsKeysUnique | src/main/java/com/randy/rag/service/KgIngestionJob.java:241-254 | when the maps reach every entity, resolving never creates a second entity with an existing key |
| Graph.LastWith | src/main/java/com/randy/rag/service/KgIngestionJob.java:170 | the value `put` last under a key is that of its last entry |
| Graph.PutAllLastWins | src/main/java/com/randy/rag/service/KgIngestionJob.java:170 | `put`ting entries in order leaves each key mapped to its last entry's value, and other keys as they were |
| Graph.StoredHashStable | src/main/java/com/randy/rag/service/KgIngestionJob.java:260-265 | adding entities does not change the hash of a relation among the existing ones |
| GraphWrites.FindByCanonicalKey | src/main/java/com/randy/rag/service/KgIngestionJob.java:134 | the lookup misses exactly when no entity has the key, finds an entity with exactly that key, and is ambiguous only when keys are not unique |
| GraphWrites.AliasRows | src/main/java/com/randy/rag/service/KgIngestionJob.java:143-152 | one alias row, with no language, for every alias that is neither null nor blank, all attached to the entity |
| GraphWrites.UpsertOne | src/main/java/com/randy/rag/service/KgIngestionJob.java:127-153 | a null or blank name changes nothing; otherwise afterwards an entity has the key, a new one exactly when none had it before, and only entities and aliases grow |
| GraphWrites.UpsertOneConsistent | src/main/java/com/randy/rag/service/KgIngestionJob.java:127-153 | on consistent tables an upsert never meets two rows with one key, and it keeps the tables consistent |
| GraphWrites.UpsertEntities | src/main/java/com/randy/rag/service/KgIngestionJob.java:126-127 | a null entity list fails before anything is written; in every case the tables only grow |
| GraphWrites.UpsertAllStoresKeys | src/main/java/com/randy/rag/service/KgIngestionJob.java:126-154 | after the pass every named entity's key is stored, and the tables stay consistent |
| GraphWrites.EventRows | src/main/java/com/randy/rag/service/KgIngestionJob.java:158-169 | one event row for each event with a non-blank name, attached to the document |
| GraphWrites.NumberedLastWins | src/main/java/com/randy/rag/service/KgIngestionJob.java:170 | each lower-cased event name maps to its last position among the rows saved |
| GraphWrites.CreateEvents | src/main/java/com/randy/rag/service/KgIngestionJob.java:156-173 | a null event list fails; otherwise the events table gains exactly the named events |
| GraphWrites.CreateEventsLastWins | src/main/java/com/randy/rag/service/KgIngestionJob.java:156-173 | the returned map holds exactly the lower-cased names saved, each sent to the last event saved under it |
| GraphWrites.ChunkIdIsLast | src/main/java/com/randy/rag/service/KgIngestionJob.java:181-182 | an extracted chunk index resolves to the id of the last chunk row carrying it, and to none when no row does |
| GraphWrites.AddParticipant | src/main/java/com/randy/rag/service/KgIngestionJob.java:183-199 | a participant row is added exactly when both names are given and the event is one of this pass; only entities and participants grow |
| GraphWrites.AddParticipantsOk | src/main/java/com/randy/rag/service/KgIngestionJob.java:175-200 | the pass keeps the tables consistent and adds one row per linkable participant |
| GraphWrites.ResolveEnds | src/main/java/com/randy/rag/service/KgIngestionJob.java:216-221 | the subject is always resolved, and the object exactly when its name is given and not blank |
| GraphWrites.AddRelation | src/main/java/com/randy/rag/service/KgIngestionJob.java:215-238 | at most one relation is added; when one is, it belongs to the document, its hash was not seen before, and it joins the seen hashes |
| GraphWrites.AddRelationOk | src/main/java/com/randy/rag/service/KgIngestionJob.java:215-238 | adding a relation keeps the tables consistent, so no document holds two relations with one hash, and every hash of the document is among those seen |
| GraphWrites.AddRelationsOk | src/main/java/com/randy/rag/service/KgIngestionJob.java:202-239 | the relation pass keeps the tables consistent and the seen hashes complete |
| GraphWrites.ProcessDocument | src/main/java/com/randy/rag/service/KgIngestionJob.java:100-124 | processing only adds rows, and a null entity list fails before anything is written |
| GraphWrites.CreateEventsOk | src/main/java/com/randy/rag/service/KgIngestionJob.java:156-173 | creating events keeps the tables consistent, and the map points at events that exist |
| GraphWrites.ProcessDocumentOk | src/main/java/com/randy/rag/service/KgIngestionJob.java:100-124 | on consistent tables processing succeeds exactly when the entity, event and participant lists are present, never meets a duplicate key, stores every named entity's key, and leaves the tables consistent |
| GraphWrites.AfterEntitiesOk | src/main/java/com/randy/rag/service/KgIngestionJob.java:114-123 | after the entities, the rest succeeds exactly when the event and participant lists are present and keeps the tables consistent; a null relation list is skipped |
| GraphWrites.LinkKeepsConsistent | src/main/java/com/randy/rag/service/KgIngestionJob.java:122-123 | linking participants and relations keeps the tables consistent |
| GraphWrites.UpsertAll | src/main/java/com/randy/rag/service/KgIngestionJob.java:128-154 | the entity loop only adds entities and aliases, stopping at the first failure |
| GraphWrites.CreateEventsMap | src/main/java/com/randy/rag/service/KgIngestionJob.java:156-173 | the returned map is the event names put in order, each numbered by its new row |
| GraphWrites.Resolve | src/main/java/com/randy/rag/service/KgIngestionJob.java:241-254 | resolving a name only adds entities, keeps the lookup maps sound and yields an existing entity |
| GraphWrites.AddParticipantOk | src/main/java/com/randy/rag/service/KgIngestionJob.java:183-199 | one participant step keeps the tables and lookup maps consistent |
| GraphWrites.AddParticipants | src/main/java/com/randy/rag/service/KgIngestionJob.java:175-200 | the participant loop only adds entities and participant rows |
| GraphWrites.SaveRelationOk | src/main/java/com/randy/rag/service/KgIngestionJob.java:222-238 | saving a relation with an unseen hash keeps hashes distinct within the document and the seen set complete |
| GraphWrites.AddRelations | src/main/java/com/randy/rag/service/KgIngestionJob.java:202-239 | the relation loop only adds entities and relation rows |
| GraphWrites.Link | src/main/java/com/randy/rag/service/KgIngestionJob.java:114-123 | linking participants and relations only adds rows |
| GraphWrites.AfterEntities | src/main/java/com/randy/rag/service/KgIngestionJob.java:112-123 | the passes after the entities only add rows |
| Ingestion.MarkStatus | src/main/java/com/randy/rag/service/KgIngestionJob.java:267-281 | a missing document is left alone; otherwise status and error are set, `PROCESSING` stamps the start, `COMPLETED` or `FAILED` stamps the completion, and no other field or document changes |
| Ingestion.IngestOne | src/main/java/com/randy/rag/service/KgIngestionJob.java:82-90 | one claimed document changes and no other |
| Ingestion.IngestOneSettles | src/main/java/com/randy/rag/service/KgIngestionJob.java:82-90 | the document ends `COMPLETED` or `FAILED`, stamped with both times, and is counted exactly when it completed |
| Ingestion.IngestAll | src/main/java/com/randy/rag/service/KgIngestionJob.java:81-91 | the loop over claimed documents keeps the set of documents |
| Ingestion.IngestAllSettles | src/main/java/com/randy/rag/service/KgIngestionJob.java:81-91 | every claimed document ends settled, unclaimed ones are untouched, and the count is the number of claimed documents that completed |
| Ingestion.IngestAllBound | src/main/java/com/randy/rag/service/KgIngestionJob.java:81-91 | the processed count grows by at most the number of claimed documents |
| Ingestion.ProcessingKeepsConsistent | src/main/java/com/randy/rag/service/KgIngestionJob.java:100-124 | the per-document step, whatever the extraction returns, keeps the graph tables consistent |
| Ingestion.IngestAllConsistent | src/main/java/com/randy/rag/service/KgIngestionJob.java:81-91 | a run of consistency-keeping steps keeps the tables consistent |
| Ingestion.RunOnce | src/main/java/com/randy/rag/service/KgIngestionJob.java:71-98 | a negative limit aborts the transaction: the run fails as a whole and nothing is committed; otherwise the result carries the id of the run it opened, no error, and at most the claimed documents are counted |
| Ingestion.RunOnceSettles | src/main/java/com/randy/rag/service/KgIngestionJob.java:71-98 | every claimed document ends settled and no longer claimable, the rest are untouched, and the count is the number that completed |
| Ingestion.RunOnceConsistent | src/main/java/com/randy/rag/service/KgIngestionJob.java:71-98 | a committed run keeps the graph tables consistent |
| Ingestion.RunOnceRecorded | src/main/java/com/randy/rag/service/KgIngestionJob.java:71-98 | a committed run adds exactly one history row, closed at `now` as `COMPLETED` with the count and no error, and history ids stay increasing |
| RunHistory.StartRun | src/main/java/com/randy/rag/repository/graph/KgRunHistoryRepository.java:18-24 | a new `STARTED` row is appended with the next id, which is returned, and ids stay increasing |
| RunHistory.FinishRun | src/main/java/com/randy/rag/repository/graph/KgRunHistoryRepository.java:26-34 | exactly the rows with that id get completion time, status, count and error; the others are unchanged |
| RunHistory.FinishRunOrdered | src/main/java/com/randy/rag/repository/graph/KgRunHistoryRepository.java:26-34 | finishing a run keeps ids increasing |
| RunHistory.RecentRuns | src/main/java/com/randy/rag/repository/graph/KgRunHistoryRepository.java:36-47 | a negative limit fails; otherwise the newest `min(limit, rows)` rows, newest first, with a null count read as 0 |
| RunHistory.RecentRunsNewestFirst | src/main/java/com/randy/rag/repository/graph/KgRunHistoryRepository.java:36-47 | the ids listed strictly decrease, and any row newer than a listed one is listed too |
| RunHistory.StartedRunIsNewest | src/main/java/com/randy/rag/repository/graph/KgRunHistoryRepository.java:18-47 | right after `startRun` the newest run is the `STARTED` one it created |
| KgAdmin.Run | src/main/java/com/randy/rag/controller/KgAdminController.java:32-35 | without a limit the run commits, claims at most five documents and reports no error; a run fails as a whole exactly when a negative limit is given |
| KgAdmin.Runs | src/main/java/com/randy/rag/controller/KgAdminController.java:52-55 | without a limit the twenty newest runs are listed; a given limit fails exactly when negative |
| KgAdmin.Status | src/main/java/com/randy/rag/controller/KgAdminController.java:37-50 | each count is the size of its status group, NULL counting as pending; since no document is in two groups the counts never add up to more than the documents; at most five runs are listed, the newest first |
| KgAdmin.StatusGroupsDisjoint | src/main/java/com/randy/rag/controller/KgAdminController.java:39-42 | no document is counted twice |
| KgAdmin.StatusGroupsCover | src/main/java/com/randy/rag/controller/KgAdminController.java:39-42 | every document is counted, or has a status none of the four counts covers |
| KgAdmin.StatusPartition | src/main/java/com/randy/rag/controller/KgAdminController.java:37-50 | the four counts add up to the number of documents exactly when no document has another status |
| KgAdmin.ClaimedSettle | src/main/java/com/randy/rag/service/KgIngestionJob.java:76-91 | the documents a run claims were pending and end settled; all others are unchanged |
| KgAdmin.RunDrainsPending | src/main/java/com/randy/rag/controller/KgAdminController.java:32-50 | after a run the pending count drops by the number claimed, the processing documents are the same, and completed plus failed grows by the number claimed |
| KgQuery.CanonicalKey | src/main/java/com/randy/rag/service/KnowledgeGraphService.java:93-97 | the query-side key holds no whitespace and no lower-case ASCII letter |
| KgQuery.CanonicalIsUpperNormalized | src/main/java/com/randy/rag/service/KnowledgeGraphService.java:93-97 | the query-side key is the upper-cased ingestion key of the same text |
| KgQuery.KeysAgreeIffNoLetter | src/main/java/com/randy/rag/service/KnowledgeGraphService.java:93-97 | the query-side and ingestion keys of a text agree exactly when the ingestion key holds no ASCII letter |
| KgQuery.IngestedKeysLowerCase | src/main/java/com/randy/rag/service/KgIngestionJob.java:131-133 | every key ingestion stores is free of upper-case letters |
| KgQuery.KeyLookupMisses | src/main/java/com/randy/rag/service/KnowledgeGraphService.java:75-79 | against keys stored by ingestion, the key lookup misses for every name holding a letter |
| KgQuery.FirstIgnoringCase | src/main/java/com/randy/rag/service/KnowledgeGraphService.java:81-89 | the first entity whose name, or the first alias whose text, equals the input ignoring case; none exactly when no row does |
| KgQuery.ByNameOrAlias | src/main/java/com/randy/rag/service/KnowledgeGraphService.java:81-90 | the name-or-alias fallback finds an existing entity or nothing |
| KgQuery.ResolveName | src/main/java/com/randy/rag/service/KnowledgeGraphService.java:71-91 | a null or blank name resolves to nothing; a stored key wins, and when no key matches the name-or-alias fallback decides; the lookup fails only on duplicate keys |
| KgQuery.ResolveSkipsKey | src/main/java/com/randy/rag/service/KnowledgeGraphService.java:71-91 | against ingested tables, a name with a letter is resolved by the name-or-alias fallback alone |
| KgQuery.PredicateSynonyms | src/main/java/com/randy/rag/service/KnowledgeGraphService.java:99-105 | a trimmed, lower-cased phrase containing "son", "child" or "daughter" widens to the four family predicates; any other phrase stands alone; every predicate is lower-case |
| KgQuery.PersonIsFamily | src/main/java/com/randy/rag/service/KnowledgeGraphService.java:99-105 | "person" contains "son" and so counts children |
| KgQuery.CountDistinctEventsBound | src/main/java/com/randy/rag/repository/graph/EventParticipantRepository.java:11-23 | the distinct-event count is at most the number of matching participant rows |
| KgQuery.ParticipantAddedOnce | src/main/java/com/randy/rag/repository/graph/EventParticipantRepository.java:11-23 | a new matching participant adds its event, and raises the count exactly when the event was not counted yet |
| KgQuery.EventCountNarrows | src/main/java/com/randy/rag/repository/graph/EventParticipantRepository.java:17 | limiting to a document never raises the event count |
| KgQuery.RelationAddedCounts | src/main/java/com/randy/rag/repository/graph/RelationRepository.java:13-22 | rows are counted, not distinct triples: each matching relation adds one |
| KgQuery.CapitalPredicatesNeverMatch | src/main/java/com/randy/rag/repository/graph/RelationRepository.java:16 | a predicate list with an upper-case letter in every entry counts nothing, since stored predicates are compared lower-cased |
| KgQuery.RelationCountNarrows | src/main/java/com/randy/rag/repository/graph/RelationRepository.java:17 | limiting to a document never raises the relation count |
| KgQuery.CountBattlesLost | src/main/java/com/randy/rag/service/KnowledgeGraphService.java:44-53 | no answer exactly when the name does not resolve; otherwise the entity's name, the document, and the number of distinct lost battles it took part in |
| KgQuery.CountRelations | src/main/java/com/randy/rag/service/KnowledgeGraphService.java:55-64 | no answer exactly when the subject does not resolve; otherwise the subject's stored name, the document, and the number of relation rows with that subject and one of the synonym predicates |
| Router.Payload | src/main/java/com/randy/rag/service/QuestionRouterService.java:133-142 | when the first choice has message content the payload is that content decoded; otherwise there is none |
| Router.FirstFiring | src/main/java/com/randy/rag/service/QuestionRouterService.java:100-104 | the first table entry one of whose lower-cased words occurs in the key, or none when no entry fires |
| Router.MapPredicates | src/main/java/com/randy/rag/service/QuestionRouterService.java:94-107 | an explicit non-blank predicate wins lower-cased; else the first firing entry's predicate; else the lower-cased object, or nothing when it is blank; never more than one |
| Router.MapPredicatesEmpty | src/main/java/com/randy/rag/service/QuestionRouterService.java:94-107 | no predicate comes out exactly when the predicate is null or blank, no entry fires and the object is blank |
| Router.ScopeLabel | src/main/java/com/randy/rag/service/QuestionRouterService.java:118-123 | the label is "across all documents" exactly when there is no document title |
| Router.RouteViaIntent | src/main/java/com/randy/rag/service/QuestionRouterService.java:51-74 | a route needs a decoded payload with a `relation_count` intent in any case, confidence at least 0.4, a subject and a mapped predicate, and is never tied to a document |
| Router.ActionableRoutes | src/main/java/com/randy/rag/service/QuestionRouterService.java:51-74 | conversely, such a payload whose relation count for the trimmed subject and first predicate finds the subject routes to exactly that count |
| Router.RouteToKnowledgeGraph | src/main/java/com/randy/rag/service/QuestionRouterService.java:39-49 | a null or blank question is never routed, and a routed answer always covers all documents |
| Router.RoutedAnswerCounts | src/main/java/com/randy/rag/service/QuestionRouterService.java:60-68 | a routed answer is exactly `countRelations` on the trimmed subject and the first mapped predicate |
| Router.OnlyConfidentRelationCountRoutes | src/main/java/com/randy/rag/service/QuestionRouterService.java:55-59 | a missing payload, another intent or a confidence below 0.4 never routes |
| Router.PunctRunStart | src/main/java/com/randy/rag/service/QuestionRouterService.java:114 | the position where the trailing run of `?。，、！!;；` begins |
| Router.StripPunctRun | src/main/java/com/randy/rag/service/QuestionRouterService.java:114 | the maximal run of `?。，、！!;；` that ends at `$` is removed and nothing else: `$` sits at the end, or before a final U+0085, U+2028 or U+2029, which stays |
| Router.Clean | src/main/java/com/randy/rag/service/QuestionRouterService.java:109-115 | null stays null; otherwise the trimmed text without the punctuation run that ends at `$`, trimmed again, which has nothing left to trim |
| Router.CleanNotIdempotent | src/main/java/com/randy/rag/service/QuestionRouterService.java:109-115 | punctuation followed by a space survives one clean and goes in a second |
| Router.CleanBeforeTerminator | src/main/java/com/randy/rag/service/QuestionRouterService.java:109-115 | `"a?"` followed by U+2028 cleans to `"a"` followed by U+2028: the question mark before a final line terminator goes |
| Policies.ResolvedTopK | src/main/java/com/randy/rag/model/QueryRequest.java:14-16 | a missing `topK` means 5; a given one is used as it is |
| Policies.ValidTopKInRange | src/main/java/com/randy/rag/model/QueryRequest.java:9-16 | on a request that passes validation the resolved `topK` lies between 1 and 20 |
| Policies.Sample | src/main/java/com/randy/rag/service/CategoryClassifierService.java:34 | the sample is the text's prefix of length `min(2000, length)` |
| Policies.FirstMatch | src/main/java/com/randy/rag/service/CategoryClassifierService.java:67-72 | a match is the trimmed, lower-cased form of a label equal to the cleaned value ignoring case; no match means no label is equal |
| Policies.NormalizeIgnoresLabels | src/main/java/com/randy/rag/service/CategoryClassifierService.java:60-73 | a null or blank label gives the fallback; any other gives its own trimmed, lower-cased form, whatever labels are configured |
| Policies.Classify | src/main/java/com/randy/rag/service/CategoryClassifierService.java:30-58 | a null or blank text gives the fallback without asking the model; otherwise the model sees the sample |
| Policies.ClassifyOutcome | src/main/java/com/randy/rag/service/CategoryClassifierService.java:30-58 | the sample is at most 2000 characters; a missing or blank label, a failed call or an empty reply gives the fallback, and any other label is returned trimmed and lower-cased |
| Filters.CheckApiKey | src/main/java/com/randy/rag/config/ApiKeyFilter.java:26-40 | a request passes exactly when no key is configured or the header equals the key; otherwise 401 "Unauthorized" |
| Filters.Current | src/main/java/com/randy/rag/config/RateLimitFilter.java:41-47 | a new client, or a window a minute or more old, starts a fresh window at `now` with count 0; an open window is kept |
| Filters.RateLimit | src/main/java/com/randy/rag/config/RateLimitFilter.java:31-56 | a limit of 0 or less passes everything and counts nothing; a refusal is 429 "Rate limit exceeded" |
| Filters.RateLimitCounts | src/main/java/com/randy/rag/config/RateLimitFilter.java:40-52 | only the client's window changes, its count grows by one, and the request passes exactly when the new count is within the limit |
| Filters.Run | src/main/java/com/randy/rag/config/RateLimitFilter.java:31-56 | no more requests pass than were made |
| Filters.RunWithinWindow | src/main/java/com/randy/rag/config/RateLimitFilter.java:43-52 | while a window stays open, at most the limit minus the count already used passes, and every request, refused ones included, is counted |
| Filters.FreshWindowPasses | src/main/java/com/randy/rag/config/RateLimitFilter.java:41-52 | the first request of a new window always passes and leaves its count at 1 |
| Filters.AdmitOrder | src/main/java/com/randy/rag/config/ApiKeyFilter.java:17-40 | the key filter runs first: a wrong key is refused with no effect on the rate counters; a right key goes on to the rate limit |
| Query.BuildPrompt | src/main/java/com/randy/rag/service/QueryService.java:102-112 | the prompt opens with the instruction to use only the retrieved information |
| Query.PromptCitesEveryMatch | src/main/java/com/randy/rag/service/QueryService.java:102-112 | every match appears in the prompt as `[chunk i] content`, and so do the question and the citation rule |
| Query.KgPrompt | src/main/java/com/randy/rag/service/QueryService.java:114-119 | the graph prompt opens with the structured-fact line |
| Query.KgPromptStatesFact | src/main/java/com/randy/rag/service/QueryService.java:114-119 | the graph prompt states the character and the count with its scope label |
| Query.InvokeChat | src/main/java/com/randy/rag/service/QueryService.java:121-141 | an HTTP error whose status Spring's `HttpStatus` enum names becomes the same status and body, and any other status fails as `UncastableStatus`; a missing reply or choice list, or an empty one, is a 500 "OpenAI returned empty completion"; a reply is the first choice's content |
| Query.OriginErrorIsUncastable | src/main/java/com/randy/rag/service/QueryService.java:137-139 | a 520 from the chat endpoint, a code `HttpStatus` does not name, fails as `UncastableStatus(520)`, while a 503 passes through with its body |
| Query.Retrieve | src/main/java/com/randy/rag/service/QueryService.java:60-61 | the question is embedded and searched with the resolved `topK` and category; either failure is passed on |
| Query.Sources | src/main/java/com/randy/rag/service/QueryService.java:69-71 | one source per match |
| Query.AnswerWith | src/main/java/com/randy/rag/service/QueryService.java:53-74 | retrieval happens exactly when the question was not routed; at most one prompt is sent; sources come only from a retrieved answer |
| Query.Answer | src/main/java/com/randy/rag/service/QueryService.java:53-100 | a question is retrieved for exactly when it is not routed, a blank one never is, and a routed answer covers all documents |
| Query.AnswerAt | src/main/java/com/randy/rag/service/QueryService.java:53-74 | `answer` over the embedding and vector-store models: only a search changes the cache, and only when caching is on |
| Query.UncachedRetrieval | src/main/java/com/randy/rag/service/QueryService.java:60-61 | with the cache off, the matches for a question embedding to a non-empty vector are the database's nearest rows for that vector, turned into similarities, when `topK` is not negative; a negative `topK` fails the search with PostgreSQL's "LIMIT must not be negative" |
| Query.NullQuestionFails | src/main/java/com/randy/rag/service/QueryService.java:53-61 | a null question fails in `embed` before any search or chat call, leaving the cache alone |
| Query.BlankQuestionNoMatch | src/main/java/com/randy/rag/service/QueryService.java:53-63 | a blank question is not routed, embeds to the empty vector, finds nothing and gets the fixed sentence with no chat call and the cache unchanged |
| Query.RoutedSkipsRetrieval | src/main/java/com/randy/rag/service/QueryService.java:91-100 | a routed question sends only the graph prompt and answers with the chat reply and no sources, failing exactly when the chat fails |
| Query.NoMatchAnswer | src/main/java/com/randy/rag/service/QueryService.java:62-64 | no match gives the fixed sentence, no sources and no chat call |
| Query.SourcesMirrorMatches | src/main/java/com/randy/rag/service/QueryService.java:66-73 | with matches, the one prompt cites each of them, and a successful answer is the chat reply with one source per match carrying its index and similarity |
| Query.FailuresPropagate | src/main/java/com/randy/rag/service/QueryService.java:60-61 | an embedding or search failure is the answer's failure, with no prompt sent |
| Query.LineFragments | src/main/java/com/randy/rag/service/QueryService.java:169-189 | a line gives at most one fragment; an empty line, an empty payload or `[DONE]` gives none; a fragment other than the payload itself comes from a payload that decodes |
| Query.ParseStreamPayload | src/main/java/com/randy/rag/service/QueryService.java:162-165 | a null or blank chunk gives nothing |
| Query.StreamBatching | src/main/java/com/randy/rag/service/QueryService.java:166-190 | a chunk of several lines gives the fragments of each line in order, as if they had come one by one |
| Query.DataChunkStreamsContents | src/main/java/com/randy/rag/service/QueryService.java:162-191 | a chunk of `data:` lines carrying delta contents streams exactly those contents, in order |
| Query.StreamChat | src/main/java/com/randy/rag/service/QueryService.java:143-160 | the stream fails exactly on an HTTP error, with its status and body when `HttpStatus` names the status and as `UncastableStatus` otherwise |
| Query.StreamWith | src/main/java/com/randy/rag/service/QueryService.java:76-89 | retrieval happens exactly when the question was not routed |
| Query.AnswerStream | src/main/java/com/randy/rag/service/QueryService.java:76-89 | a question is retrieved for exactly when it is not routed, and a blank one never is |
| Query.StreamSendsSamePrompt | src/main/java/com/randy/rag/service/QueryService.java:76-89 | streaming sends the same prompts and takes the same path as the plain answer |
| Query.RoutedStreamIsAnswer | src/main/java/com/randy/rag/service/QueryService.java:77-80 | a routed stream is the single plain answer, and succeeds exactly when that answer succeeds with content |
| Query.NoMatchStreamIsAnswer | src/main/java/com/randy/rag/service/QueryService.java:84-86 | with no match, the stream and the plain answer both give the fixed sentence |

## Left out

- The HTTP clients are reduced to their replies: WebClient calls, `block()`, timeouts and retries, and Reactor scheduling, apart from the order of a stream's fragments.
- A streaming error is modelled as happening before any fragment is emitted. The code could also fail part-way through a stream.
- `CompletableFuture` and other asynchrony: the upload's ingestion trigger is modelled as a call that completes.
- Row locking (`FOR UPDATE SKIP LOCKED`) and concurrent runs: each run sees the tables alone. Of `@Transactional` rollback only the failed claim is modelled (`Ingestion.RunOnce`). A failure inside `processDocument` is one the per-document handler recovers from, and the rows the step already wrote stay in place. A database error there, such as a duplicate key, would instead abort PostgreSQL's transaction and fail the whole run; `GraphWrites.ProcessDocumentOk` shows that consistent tables never raise a duplicate key.
- The database's choice of which pending documents a run claims is an input, constrained only by what the SQL guarantees. Rows read without `ORDER BY` are read in id order; see `Graph.BuildMemo` and `KgQuery.FirstIgnoringCase` below.
- Floating point: vectors are the 32-bit patterns of Java floats. The distances a search returns are real numbers the database supplies, and each similarity is computed from its row's distance as `1 / (1 + distance)` in exact arithmetic, without double rounding. Float rendering in the pgvector literal is abstracted to one rendering function.
- Case mapping is ASCII only, and `Normalizer.normalize(…, NFKD)` with `\p{M}` removal is left out. So `KgQuery.CanonicalKey` does not strip accents.
- Base64 encoding of the cache key is left out. The key's bytes are compared instead, which is equivalent because Base64 is injective.
- SHA-256 internals: the digest is a parameter.
- PDFBox text extraction: the extracted text is a parameter.
- Jackson JSON decoding: it is a parameter wherever the code decodes.
- Logging and Micrometer timers.
- `KnowledgeGraphService.findDocumentByTitle`: nothing in the modelled core calls it.
- Null elements inside lists that the code assumes hold no nulls, and null values in the configured predicate table.
- Java `int` and `long` overflow. The one place a 32-bit wrap is modelled is `topK` in the cache key (`putInt`). Counts are unbounded naturals.
- Chunker.ChunkText: requires `chunkSize >= 1`. With a size of 0 and an overlap of 0 or more the Java loop never ends. With a size of 0 and a negative overlap, each pass moves forward by the overlap's magnitude and adds an empty chunk, until the text is passed. With a negative size `substring` throws before the first chunk.
- Router.Clean: `clean` is modelled, but the router never calls it, so no routing property depends on it.
- `DocumentEntity` declares no unique constraint on its external id (DocumentEntity.java:18), and two concurrent uploads of the same file can both pass the duplicate check and both save. Uploads are modelled one at a time; `Upload.HandleUpload` covers a table where several documents already share a fingerprint.
- The codes `IsHttpStatus` accepts are those Spring Framework 6 names in `HttpStatus`; another Spring release may name a few codes more or fewer.
- VectorStore.Search: the database's refusal of a negative `LIMIT` is modelled by PostgreSQL's message alone, not by the exception type Spring wraps it in.
- Query.KgPrompt: the graph prompt labels its number "Lost battles", but the router fills it with a relation count. The model keeps the text as written.
- VectorStore.NullAndEmptyCategoryShareKey: a null and an empty category produce the same cache key, so they share cache entries. The model keeps this.
- Embedding.CheckReply: the reply's vectors arrive already converted to floats. The `Double.floatValue` rounding of each element is part of the endpoint parameter.
- Ingestion.RunOnce: one `now` stands for every clock reading in a run, so start and completion stamps within a run are equal.
- Ingestion.RunOnce: an aborted run may still use up a value of the history's id sequence, which a rollback does not return; the model leaves `nextId` as it was.
- Graph.BuildMemo: `findAll()` has no `ORDER BY`, and `toMap` keeps the first entity it meets for a key. The model reads the table in id order, so where two entities share a lower-cased name or key it keeps the lower id, while the database may hand over the other first. Where no two entities share one, the maps are the same in any order.
- KgQuery.FirstIgnoringCase: `findByNameIgnoreCase(…).get(0)` and `findByAliasIgnoreCase(…).get(0)` have no `ORDER BY`. The model takes the match with the lowest id, while the database may return another match first.
- Strings are sequences of Unicode scalar values, while Java counts UTF-16 code units. For a character outside the Basic Multilingual Plane, a chunk window (`Chunker.TextWindows`), the 2000-character classifier sample (`Policies.Sample`) and the 500-character snippet (`Extraction.Snippet`) count one where Java counts two, and Java can cut such a character in half.

=== FILE: bytes.dfy ===
/**
 * Byte-level encodings the services use: `String.getBytes` (UTF-8),
 * `ByteBuffer.putInt`/`putFloat` (big-endian, four bytes) and the
 * `%02x` lower-case hex rendering of a digest.
 */
module Bytes {

  type Byte = x: int | 0 <= x < 256

  const TWO_32: int := 0x1_0000_0000

  /** A 32-bit pattern as an unsigned value (a Java `int` or `float`'s bits). */
  type U32 = x: int | 0 <= x < 0x1_0000_0000

  // ----- UTF-8 -----

  /** The UTF-8 encoding of one Unicode scalar value. */
  function Utf8Char(c: char): (r: seq<Byte>)
    ensures 1 <= |r| <= 4
    ensures (c as int < 0x80) <==> |r| == 1
    ensures c as int < 0x80 ==> r == [c as int]
    ensures forall k | 0 <= k < |r| :: r[k] != 0 || c == '\0'
  {
    var cp := c as int;
    if cp < 0x80 then [cp]
    else if cp < 0x800 then [0xC0 + cp / 64, 0x80 + cp % 64]
    else if cp < 0x1_0000 then [0xE0 + cp / 4096, 0x80 + (cp / 64) % 64, 0x80 + cp % 64]
    else [0xF0 + cp / 0x4_0000, 0x80 + (cp / 4096) % 64, 0x80 + (cp / 64) % 64, 0x80 + cp % 64]
  }

  /** `s.getBytes(UTF_8)`. */
  function Utf8(s: string): (r: seq<Byte>)
    ensures |s| <= |r| <= 4 * |s|
    ensures |r| == 0 <==> |s| == 0
  {
    if |s| == 0 then [] else Utf8(s[..|s| - 1]) + Utf8Char(s[|s| - 1])
  }

  predicate IsAscii(s: string) {
    forall i | 0 <= i < |s| :: s[i] as int < 0x80
  }

  /** An ASCII string encodes to one byte per character, each its code. */
  lemma {:induction false} Utf8Ascii(s: string)
    requires IsAscii(s)
    ensures |Utf8(s)| == |s|
    ensures forall i | 0 <= i < |s| :: Utf8(s)[i] == s[i] as int
    decreases |s|
  {
    if |s| > 0 {
      Utf8Ascii(s[..|s| - 1]);
    }
  }

  // ----- big-endian 32-bit words -----

  /** `ByteBuffer.putInt`: the low 32 bits of `x`, most significant byte first. */
  function U32Bytes(x: int): (r: seq<Byte>)
    ensures |r| == 4
  {
    var u := x % TWO_32;
    var q1 := u / 256;
    var q2 := q1 / 256;
    var q3 := q2 / 256;
    [q3 % 256, q2 % 256, q1 % 256, u % 256]
  }

  /** Reads four big-endian bytes back as an unsigned 32-bit value. */
  function U32Of(b: seq<Byte>): (u: int)
    requires |b| == 4
    ensures 0 <= u < TWO_32
  {
    ((b[0] as int * 256 + b[1] as int) * 256 + b[2] as int) * 256 + b[3] as int
  }

  /** Reading back what `putInt` wrote recovers `x` modulo 2^32. */
  lemma U32RoundTrip(x: int)
    ensures U32Of(U32Bytes(x)) == x % TWO_32
  {
    var u := x % TWO_32;
    var q1 := u / 256;
    var q2 := q1 / 256;
    var q3 := q2 / 256;
    assert q3 < 256;
    assert q3 * 256 + q2 % 256 == q2;
    assert q2 * 256 + q1 % 256 == q1;
    assert q1 * 256 + u % 256 == u;
  }

  /** `ByteBuffer.putFloat`: the float's IEEE-754 bit pattern, big-endian. */
  function FloatBytes(f: U32): (r: seq<Byte>)
    ensures |r| == 4
  {
    U32Bytes(f)
  }

  lemma FloatRoundTrip(f: U32)
    ensures U32Of(FloatBytes(f)) == f
  {
    U32RoundTrip(f);
  }

  /** The floats of a vector, one after the other. */
  function FloatsBytes(v: seq<U32>): (r: seq<Byte>)
    ensures |r| == 4 * |v|
  {
    if |v| == 0 then [] else FloatsBytes(v[..|v| - 1]) + FloatBytes(v[|v| - 1])
  }

  /** Decodes `n` big-endian floats from the front of `b`. */
  function FloatsOf(b: seq<Byte>, n: nat): (v: seq<U32>)
    requires |b| >= 4 * n
    ensures |v| == n
  {
    if n == 0 then [] else FloatsOf(b, n - 1) + [U32Of(b[4 * (n - 1)..4 * n])]
  }

  /** Every float survives the trip through its bytes. */
  lemma {:induction false} FloatsRoundTrip(v: seq<U32>, rest: seq<Byte>)
    ensures FloatsOf(FloatsBytes(v) + rest, |v|) == v
    decreases |v|
  {
    if |v| > 0 {
      var n := |v|;
      var init := v[..n - 1];
      var b := FloatsBytes(v) + rest;
      assert FloatsBytes(v) == FloatsBytes(init) + FloatBytes(v[n - 1]);
      assert b == FloatsBytes(init) + (FloatBytes(v[n - 1]) + rest);
      FloatsRoundTrip(init, FloatBytes(v[n - 1]) + rest);
      assert FloatsOf(b, n - 1) == init;
      assert b[4 * (n - 1)..4 * n] == FloatBytes(v[n - 1]);
      FloatRoundTrip(v[n - 1]);
    }
  }

  // ----- hex -----

  /** One lower-case hex digit. */
  function HexDigit(k: int): (c: char)
    requires 0 <= k < 16
  {
    if k < 10 then ('0' as int + k) as char else ('a' as int + k - 10) as char
  }

  predicate IsHexDigit(c: char) {
    '0' <= c <= '9' || 'a' <= c <= 'f'
  }

  /** `String.format("%02x", b)`: two lower-case hex digits. */
  function HexByte(b: Byte): (r: string)
    ensures |r| == 2 && IsHexDigit(r[0]) && IsHexDigit(r[1])
  {
    [HexDigit(b / 16), HexDigit(b % 16)]
  }

  /** A digest rendered byte by byte with `%02x`. */
  function Hex(bs: seq<Byte>): (r: string)
    ensures |r| == 2 * |bs|
  {
    if |bs| == 0 then "" else Hex(bs[..|bs| - 1]) + HexByte(bs[|bs| - 1])
  }

  /** The value of a hex digit (0 for any other character). */
  function HexValue(c: char): (v: int)
    ensures 0 <= v < 16
    ensures IsHexDigit(c) ==> HexDigit(v) == c
  {
    if '0' <= c <= '9' then c as int - '0' as int
    else if 'a' <= c <= 'f' then c as int - 'a' as int + 10
    else 0
  }

  lemma HexValueOfDigit(k: int)
    requires 0 <= k < 16
    ensures HexValue(HexDigit(k)) == k
  {
  }

  /** Reads a string of hex digit pairs back into bytes. */
  function UnHex(s: string): seq<Byte>
  {
    if |s| < 2 then []
    else UnHex(s[..|s| - 2]) + [HexValue(s[|s| - 2]) * 16 + HexValue(s[|s| - 1])]
  }

  /** The two digits of one byte read back as that byte. */
  lemma HexByteBack(b: Byte)
    ensures HexValue(HexByte(b)[0]) * 16 + HexValue(HexByte(b)[1]) == b
  {
    HexValueOfDigit(b / 16);
    HexValueOfDigit(b % 16);
  }

  lemma UnHexSnoc(h: string, b: Byte)
    ensures UnHex(h + HexByte(b)) == UnHex(h) + [b]
  {
    var s := h + HexByte(b);
    assert s[..|s| - 2] == h;
    assert s[|s| - 2] == HexByte(b)[0] && s[|s| - 1] == HexByte(b)[1];
    HexByteBack(b);
  }

  lemma HexSnoc(bs: seq<Byte>)
    requires |bs| > 0
    ensures Hex(bs) == Hex(bs[..|bs| - 1]) + HexByte(bs[|bs| - 1])
  {
  }

  lemma SnocSplit(bs: seq<Byte>)
    requires |bs| > 0
    ensures bs[..|bs| - 1] + [bs[|bs| - 1]] == bs
  {
  }

  lemma HexStep(bs: seq<Byte>)
    requires |bs| > 0 && UnHex(Hex(bs[..|bs| - 1])) == bs[..|bs| - 1]
    ensures UnHex(Hex(bs)) == bs
  {
    HexSnoc(bs);
    UnHexSnoc(Hex(bs[..|bs| - 1]), bs[|bs| - 1]);
    SnocSplit(bs);
  }

  /** The hex rendering loses nothing: `UnHex` undoes it. */
  lemma {:induction false} HexRoundTrip(bs: seq<Byte>)
    ensures UnHex(Hex(bs)) == bs
    decreases |bs|
  {
    if |bs| > 0 {
      HexRoundTrip(bs[..|bs| - 1]);
      HexStep(bs);
    }
  }

  /** Distinct digests give distinct fingerprints. */
  lemma HexInjective(a: seq<Byte>, b: seq<Byte>)
    requires Hex(a) == Hex(b)
    ensures a == b
  {
    HexRoundTrip(a);
    HexRoundTrip(b);
  }
}

=== FILE: chars.dfy ===
/**
 * The subset of `java.lang.String` behaviour the services rely on: character
 * classes, `trim`, `isBlank`, ASCII case mapping, `replaceAll("\\s+", x)`,
 * `indexOf`/`lastIndexOf`, `contains`, `split` and decimal rendering of ints.
 */
module Chars {
  import opened Wrappers

  /** The regex class `\s` (Java, without UNICODE_CHARACTER_CLASS). */
  predicate IsRegexSpace(c: char) {
    c == ' ' || c == '\t' || c == '\n' || c == '\U{000B}' || c == '\U{000C}' || c == '\r'
  }

  /** The regex class `\p{Cntrl}`: U+0000..U+001F and U+007F. */
  predicate IsControl(c: char) {
    c < ' ' || c == '\U{007F}'
  }

  /** The characters `String.trim` removes from both ends. */
  predicate IsTrimmable(c: char) {
    c <= ' '
  }

  /** `Character.isWhitespace`, which `String.isBlank` tests for every character. */
  predicate IsJavaWhitespace(c: char) {
    || IsRegexSpace(c)
    || ('\U{001C}' <= c <= '\U{001F}')
    || c == '\U{1680}'
    || ('\U{2000}' <= c <= '\U{2006}')
    || ('\U{2008}' <= c <= '\U{200A}')
    || c == '\U{2028}' || c == '\U{2029}' || c == '\U{205F}' || c == '\U{3000}'
  }

  /** `String.isBlank`. */
  predicate IsBlank(s: string) {
    forall i | 0 <= i < |s| :: IsJavaWhitespace(s[i])
  }

  /** `s == null || s.isBlank()`, the guard most services open with. */
  predicate NullOrBlank(s: Option<string>) {
    s.None? || IsBlank(s.value)
  }

  predicate IsAsciiUpper(c: char) {
    'A' <= c <= 'Z'
  }

  predicate IsAsciiLower(c: char) {
    'a' <= c <= 'z'
  }

  predicate IsAsciiLetter(c: char) {
    IsAsciiUpper(c) || IsAsciiLower(c)
  }

  function LowerChar(c: char): (d: char)
    ensures !IsAsciiUpper(d)
  {
    if IsAsciiUpper(c) then (c as int + 32) as char else c
  }

  function UpperChar(c: char): (d: char)
    ensures !IsAsciiLower(d)
  {
    if IsAsciiLower(c) then (c as int - 32) as char else c
  }

  /** `toLowerCase()` on the ASCII range. */
  function Lower(s: string): (r: string)
    ensures |r| == |s|
    ensures forall i | 0 <= i < |s| :: r[i] == LowerChar(s[i])
  {
    seq(|s|, i requires 0 <= i < |s| => LowerChar(s[i]))
  }

  /** `toUpperCase(Locale.ROOT)` on the ASCII range. */
  function Upper(s: string): (r: string)
    ensures |r| == |s|
    ensures forall i | 0 <= i < |s| :: r[i] == UpperChar(s[i])
  {
    seq(|s|, i requires 0 <= i < |s| => UpperChar(s[i]))
  }

  predicate NoAsciiUpper(s: string) {
    forall i | 0 <= i < |s| :: !IsAsciiUpper(s[i])
  }

  predicate HasAsciiLetter(s: string) {
    exists i | 0 <= i < |s| :: IsAsciiLetter(s[i])
  }

  /** `equalsIgnoreCase` on the ASCII range. */
  predicate EqualsIgnoreCase(a: string, b: string) {
    Lower(a) == Lower(b)
  }

  lemma LowerIdempotent(s: string)
    ensures Lower(Lower(s)) == Lower(s)
  {
  }

  lemma LowerOfLowerFree(s: string)
    requires NoAsciiUpper(s)
    ensures Lower(s) == s
  {
  }

  // ----- trim -----

  /** Index of the first character `trim` keeps (|s| if it keeps none). */
  function TrimStart(s: string): (k: nat)
    ensures k <= |s|
    ensures forall i | 0 <= i < k :: IsTrimmable(s[i])
    ensures k < |s| ==> !IsTrimmable(s[k])
  {
    if |s| == 0 || !IsTrimmable(s[0]) then 0 else 1 + TrimStart(s[1..])
  }

  /** One past the last character `trim` keeps (0 if it keeps none). */
  function TrimStop(s: string): (k: nat)
    ensures k <= |s|
    ensures forall i | k <= i < |s| :: IsTrimmable(s[i])
    ensures k > 0 ==> !IsTrimmable(s[k - 1])
  {
    if |s| == 0 || !IsTrimmable(s[|s| - 1]) then |s| else TrimStop(s[..|s| - 1])
  }

  /** `String.trim`: the slice between the first and the last character above U+0020. */
  function Trim(s: string): (r: string)
    ensures |r| <= |s|
    ensures |r| == 0 || (!IsTrimmable(r[0]) && !IsTrimmable(r[|r| - 1]))
    ensures TrimStart(s) + |r| <= |s| && r == s[TrimStart(s)..TrimStart(s) + |r|]
    ensures |r| == 0 <==> forall i | 0 <= i < |s| :: IsTrimmable(s[i])
  {
    var lo := TrimStart(s);
    var hi := TrimStop(s);
    if hi <= lo then
      assert forall i | 0 <= i < |s| :: IsTrimmable(s[i]) by {
        forall i | 0 <= i < |s| ensures IsTrimmable(s[i]) {
          if lo <= i < hi {
            assert false;
          }
        }
      }
      ""
    else
      s[lo..hi]
  }

  /** `trim` changes nothing exactly when both ends are already kept characters. */
  lemma TrimNoop(s: string)
    requires |s| == 0 || (!IsTrimmable(s[0]) && !IsTrimmable(s[|s| - 1]))
    ensures Trim(s) == s
  {
    if |s| > 0 {
      assert TrimStart(s) == 0;
      assert TrimStop(s) == |s|;
    }
  }

  lemma TrimIdempotent(s: string)
    ensures Trim(Trim(s)) == Trim(s)
  {
    TrimNoop(Trim(s));
  }

  // ----- replaceAll("\\s+", rep) -----

  /** Length of the leading run of `\s` characters. */
  function SpaceRun(s: string): (k: nat)
    ensures 0 < k <= |s| || (k == 0 && (|s| == 0 || !IsRegexSpace(s[0])))
    ensures forall i | 0 <= i < k :: IsRegexSpace(s[i])
    ensures k < |s| ==> !IsRegexSpace(s[k])
  {
    if |s| == 0 || !IsRegexSpace(s[0]) then 0 else 1 + SpaceRun(s[1..])
  }

  /** `s.replaceAll("\\s+", rep)`: every maximal run of `\s` becomes one `rep`. */
  function ReplaceSpaceRuns(s: string, rep: char): (r: string)
    ensures |r| <= |s|
    ensures |r| == 0 <==> |s| == 0
    ensures |s| > 0 ==> r[0] == (if IsRegexSpace(s[0]) then rep else s[0])
    ensures IsRegexSpace(rep) ==> forall i | 0 <= i < |r| - 1 :: !(r[i] == rep && r[i + 1] == rep)
    decreases |s|
  {
    if |s| == 0 then ""
    else if IsRegexSpace(s[0]) then [rep] + ReplaceSpaceRuns(s[SpaceRun(s)..], rep)
    else [s[0]] + ReplaceSpaceRuns(s[1..], rep)
  }

  /** Every character of the result is `rep` or a non-`\s` character of the input. */
  lemma {:induction false} ReplaceSpaceRunsFrom(s: string, rep: char)
    ensures forall i | 0 <= i < |ReplaceSpaceRuns(s, rep)| ::
              ReplaceSpaceRuns(s, rep)[i] == rep || (!IsRegexSpace(ReplaceSpaceRuns(s, rep)[i]) && ReplaceSpaceRuns(s, rep)[i] in s)
    decreases |s|
  {
    if |s| > 0 {
      ReplaceSpaceRunsStep(s, rep);
      var k := if IsRegexSpace(s[0]) then SpaceRun(s) else 1;
      var t := s[k..];
      ReplaceSpaceRunsFrom(t, rep);
      var r := ReplaceSpaceRuns(t, rep);
      forall i | 1 <= i < |r| + 1
        ensures ReplaceSpaceRuns(s, rep)[i] == rep || (!IsRegexSpace(ReplaceSpaceRuns(s, rep)[i]) && ReplaceSpaceRuns(s, rep)[i] in s)
      {
        assert ReplaceSpaceRuns(s, rep)[i] == r[i - 1];
        if r[i - 1] != rep {
          var j :| 0 <= j < |t| && t[j] == r[i - 1];
          assert s[k + j] == t[j];
        }
      }
    }
  }

  /** With no `\s` in the input there is nothing to replace. */
  lemma {:induction false} ReplaceSpaceRunsNoSpaces(s: string, rep: char)
    requires forall i | 0 <= i < |s| :: !IsRegexSpace(s[i])
    ensures ReplaceSpaceRuns(s, rep) == s
    decreases |s|
  {
    if |s| > 0 {
      ReplaceSpaceRunsNoSpaces(s[1..], rep);
    }
  }

  /** One step of the replacement: the first run or character, then the rest. */
  lemma ReplaceSpaceRunsStep(s: string, rep: char)
    requires |s| > 0
    ensures var k := if IsRegexSpace(s[0]) then SpaceRun(s) else 1;
            && 0 < k <= |s| && (forall i | 0 <= i < k :: IsRegexSpace(s[i]) || i == 0)
            && ReplaceSpaceRuns(s, rep) == [if IsRegexSpace(s[0]) then rep else s[0]] + ReplaceSpaceRuns(s[k..], rep)
  {
  }

  /** A last character that is not `\s` stays last. */
  lemma {:induction false} ReplaceSpaceRunsLast(s: string, rep: char)
    requires |s| > 0 && !IsRegexSpace(s[|s| - 1])
    ensures |ReplaceSpaceRuns(s, rep)| > 0
    ensures ReplaceSpaceRuns(s, rep)[|ReplaceSpaceRuns(s, rep)| - 1] == s[|s| - 1]
    decreases |s|
  {
    if |s| > 1 {
      var k := if IsRegexSpace(s[0]) then SpaceRun(s) else 1;
      var head := if IsRegexSpace(s[0]) then rep else s[0];
      assert k < |s| && ReplaceSpaceRuns(s, rep) == [head] + ReplaceSpaceRuns(s[k..], rep) by {
        ReplaceSpaceRunsStep(s, rep);
      }
      var t := s[k..];
      assert t[|t| - 1] == s[|s| - 1];
      ReplaceSpaceRunsLast(t, rep);
      var r := ReplaceSpaceRuns(t, rep);
      assert ([head] + r)[|r|] == r[|r| - 1];
    }
  }

  /** Replacing runs by a character `trim` keeps leaves nothing to trim when the ends had nothing either. */
  lemma ReplaceSpaceRunsTrimmed(s: string, rep: char)
    requires |s| == 0 || (!IsTrimmable(s[0]) && !IsTrimmable(s[|s| - 1]))
    requires !IsTrimmable(rep)
    ensures Trim(ReplaceSpaceRuns(s, rep)) == ReplaceSpaceRuns(s, rep)
  {
    var r := ReplaceSpaceRuns(s, rep);
    if |s| > 0 {
      ReplaceSpaceRunsLast(s, rep);
    }
    TrimNoop(r);
  }

  /** Lower-casing keeps what `trim` would keep at the ends. */
  lemma LowerKeepsEnds(s: string)
    requires |s| == 0 || (!IsTrimmable(s[0]) && !IsTrimmable(s[|s| - 1]))
    ensures |Lower(s)| == 0 || (!IsTrimmable(Lower(s)[0]) && !IsTrimmable(Lower(s)[|s| - 1]))
  {
  }

  /** Single spaces separated by other non-`\s` characters are left as they are. */
  lemma {:induction false} ReplaceSpaceRunsSingleSpaces(s: string)
    requires forall i | 0 <= i < |s| :: !IsRegexSpace(s[i]) || s[i] == ' '
    requires forall i | 0 <= i < |s| - 1 :: !(s[i] == ' ' && s[i + 1] == ' ')
    ensures ReplaceSpaceRuns(s, ' ') == s
    decreases |s|
  {
    if |s| > 0 {
      if IsRegexSpace(s[0]) {
        assert SpaceRun(s) == 1 by {
          if |s| > 1 {
            assert !IsRegexSpace(s[1]);
          }
        }
      }
      ReplaceSpaceRunsSingleSpaces(s[1..]);
    }
  }

  /** Upper-casing leaves `\s` characters alone, so it does not move a run's end. */
  lemma {:induction false} SpaceRunUpper(s: string)
    ensures SpaceRun(Upper(s)) == SpaceRun(s)
    decreases |s|
  {
    if |s| > 0 && IsRegexSpace(s[0]) {
      assert Upper(s)[1..] == Upper(s[1..]);
      SpaceRunUpper(s[1..]);
    }
  }

  /** Replacing `\s` runs and upper-casing commute when the replacement has no lower-case form. */
  lemma {:induction false} ReplaceSpaceRunsUpper(s: string, rep: char)
    requires !IsAsciiLower(rep)
    ensures ReplaceSpaceRuns(Upper(s), rep) == Upper(ReplaceSpaceRuns(s, rep))
    decreases |s|
  {
    if |s| > 0 {
      var k := if IsRegexSpace(s[0]) then SpaceRun(s) else 1;
      var head := if IsRegexSpace(s[0]) then rep else s[0];
      SpaceRunUpper(s);
      assert Upper(s)[k..] == Upper(s[k..]);
      assert ReplaceSpaceRuns(s, rep) == [head] + ReplaceSpaceRuns(s[k..], rep);
      assert ReplaceSpaceRuns(Upper(s), rep) == [UpperChar(head)] + ReplaceSpaceRuns(Upper(s[k..]), rep);
      ReplaceSpaceRunsUpper(s[k..], rep);
      UpperConcat([head], ReplaceSpaceRuns(s[k..], rep));
    }
  }

  lemma UpperConcat(a: string, b: string)
    ensures Upper(a + b) == Upper(a) + Upper(b)
  {
  }

  /** Upper-casing ignores an earlier lower-casing. */
  lemma UpperOfLower(s: string)
    ensures Upper(Lower(s)) == Upper(s)
  {
  }

  /** `trim` keeps every character above U+0020. */
  lemma TrimKeeps(s: string, i: nat)
    requires i < |s| && !IsTrimmable(s[i])
    ensures s[i] in Trim(s)
  {
    var lo, hi := TrimStart(s), TrimStop(s);
    assert lo <= i < hi;
    assert Trim(s)[i - lo] == s[i];
  }

  /** Replacing `\s` runs keeps every other character. */
  lemma {:induction false} ReplaceSpaceRunsKeeps(s: string, rep: char, i: nat)
    requires i < |s| && !IsRegexSpace(s[i])
    ensures s[i] in ReplaceSpaceRuns(s, rep)
    decreases |s|
  {
    if i > 0 {
      var k := if IsRegexSpace(s[0]) then SpaceRun(s) else 1;
      assert k <= i;
      assert s[k..][i - k] == s[i];
      ReplaceSpaceRunsKeeps(s[k..], rep, i - k);
    }
  }

  // ----- searching -----

  /** `s.indexOf(c)`: the first position of `c`, or -1. */
  function IndexOf(s: string, c: char): (r: int)
    ensures -1 <= r < |s|
    ensures r >= 0 ==> s[r] == c
    ensures forall i | 0 <= i < |s| && (r == -1 || i < r) :: s[i] != c
  {
    if |s| == 0 then -1
    else if s[0] == c then 0
    else
      var k := IndexOf(s[1..], c);
      if k == -1 then -1 else k + 1
  }

  /** `s.lastIndexOf(c)`: the last position of `c`, or -1. */
  function LastIndexOf(s: string, c: char): (r: int)
    ensures -1 <= r < |s|
    ensures r >= 0 ==> s[r] == c
    ensures forall i | 0 <= i < |s| && r < i :: s[i] != c
  {
    if |s| == 0 then -1
    else if s[|s| - 1] == c then |s| - 1
    else LastIndexOf(s[..|s| - 1], c)
  }

  predicate StartsWith(s: string, prefix: string) {
    |prefix| <= |s| && s[..|prefix|] == prefix
  }

  /** `s.contains(sub)`. */
  predicate Contains(s: string, sub: string)
    decreases |s|
  {
    StartsWith(s, sub) || (|s| > 0 && Contains(s[1..], sub))
  }

  lemma {:induction false} ContainsAt(s: string, sub: string, i: nat)
    requires i + |sub| <= |s| && s[i..i + |sub|] == sub
    ensures Contains(s, sub)
    decreases i
  {
    if i > 0 {
      assert s[1..][i - 1..i - 1 + |sub|] == sub;
      ContainsAt(s[1..], sub, i - 1);
    }
  }

  // ----- decimal rendering -----

  function DigitChar(d: nat): (c: char)
    requires d < 10
    ensures '0' <= c <= '9'
  {
    ('0' as int + d) as char
  }

  /** Decimal digits of a natural number, most significant first (`StringBuilder.append(int)`). */
  function NatToString(n: nat): (r: string)
    ensures |r| >= 1
    ensures forall i | 0 <= i < |r| :: '0' <= r[i] <= '9'
  {
    if n < 10 then [DigitChar(n)] else NatToString(n / 10) + [DigitChar(n % 10)]
  }

  /** Decimal rendering of a Java int or long: a minus sign for negatives. */
  function IntToString(n: int): string {
    if n < 0 then "-" + NatToString(-n) else NatToString(n)
  }

  /** Reads a string of decimal digits back (the inverse of `NatToString`). */
  function ParseDigits(s: string): int {
    if |s| == 0 then 0 else ParseDigits(s[..|s| - 1]) * 10 + (s[|s| - 1] as int - '0' as int)
  }

  lemma {:induction false} ParseNatToString(n: nat)
    ensures ParseDigits(NatToString(n)) == n
  {
    var r := NatToString(n);
    if n >= 10 {
      ParseNatToString(n / 10);
      assert r[..|r| - 1] == NatToString(n / 10);
    }
  }

  // ----- split / join on one separator -----

  /** The pieces between occurrences of `sep` (every piece kept, also empty ones). */
  function Pieces(s: string, sep: char): (r: seq<string>)
    ensures |r| >= 1
    ensures forall k | 0 <= k < |r| :: sep !in r[k]
    decreases |s|
  {
    var i := IndexOf(s, sep);
    if i < 0 then [s] else [s[..i]] + Pieces(s[i + 1..], sep)
  }

  /** Drops the empty strings at the end of a list, as `String.split` does. */
  function DropTrailingEmpty(xs: seq<string>): (r: seq<string>)
    ensures |r| <= |xs| && r == xs[..|r|]
    ensures |r| == 0 || r[|r| - 1] != ""
  {
    if |xs| == 0 || xs[|xs| - 1] != "" then xs else DropTrailingEmpty(xs[..|xs| - 1])
  }

  /** `s.split(sep)` for a one-character separator. */
  function Split(s: string, sep: char): seq<string> {
    if sep !in s then [s] else DropTrailingEmpty(Pieces(s, sep))
  }

  /** Pieces joined by `sep` (`String.join`, or a builder appending separators between items). */
  function Join(xs: seq<string>, sep: char): string {
    if |xs| == 0 then "" else if |xs| == 1 then xs[0] else xs[0] + [sep] + Join(xs[1..], sep)
  }

  /** `Pieces` undoes `Join` when no item contains the separator. */
  lemma {:induction false} PiecesOfJoin(xs: seq<string>, sep: char)
    requires |xs| >= 1
    requires forall k | 0 <= k < |xs| :: sep !in xs[k]
    ensures Pieces(Join(xs, sep), sep) == xs
    decreases |xs|
  {
    var s := Join(xs, sep);
    if |xs| == 1 {
      assert IndexOf(s, sep) == -1;
    } else {
      var head, rest := xs[0], xs[1..];
      var tail := Join(rest, sep);
      assert forall k | 0 <= k < |rest| :: rest[k] == xs[k + 1];
      PiecesOfJoin(rest, sep);
      assert s == head + ([sep] + tail);
      assert sep !in head;
      assert IndexOf(s, sep) == |head| by {
        assert s[|head|] == sep;
        assert forall i | 0 <= i < |head| :: s[i] == head[i];
      }
      assert s[..|head|] == head && s[|head| + 1..] == tail;
      assert Pieces(s, sep) == [head] + Pieces(tail, sep);
      assert xs == [head] + rest;
    }
  }

  /** A join begins with its first item. */
  lemma JoinStartsWith(xs: seq<string>, sep: char)
    requires |xs| >= 1
    ensures |xs[0]| <= |Join(xs, sep)| && Join(xs, sep)[..|xs[0]|] == xs[0]
  {
    if |xs| > 1 {
      assert Join(xs, sep) == xs[0] + ([sep] + Join(xs[1..], sep));
    }
  }

  /** Occurrences of `c` in `s`. */
  function CountChar(s: string, c: char): nat {
    if |s| == 0 then 0 else (if s[0] == c then 1 else 0) + CountChar(s[1..], c)
  }

  lemma {:induction false} CountCharAppend(a: string, b: string, c: char)
    ensures CountChar(a + b, c) == CountChar(a, c) + CountChar(b, c)
    decreases |a|
  {
    if |a| > 0 {
      assert (a + b)[1..] == a[1..] + b;
      CountCharAppend(a[1..], b, c);
    } else {
      assert a + b == b;
    }
  }

  lemma {:induction false} CountCharAbsent(s: string, c: char)
    requires c !in s
    ensures CountChar(s, c) == 0
    decreases |s|
  {
    if |s| > 0 {
      CountCharAbsent(s[1..], c);
    }
  }

  /** Joining n separator-free items puts exactly n - 1 separators in. */
  lemma {:induction false} JoinSeparatorCount(xs: seq<string>, sep: char)
    requires forall k | 0 <= k < |xs| :: sep !in xs[k]
    ensures CountChar(Join(xs, sep), sep) == if |xs| == 0 then 0 else |xs| - 1
    decreases |xs|
  {
    if |xs| == 0 {
    } else if |xs| == 1 {
      CountCharAbsent(xs[0], sep);
    } else {
      CountCharAbsent(xs[0], sep);
      CountCharAppend(xs[0], [sep], sep);
      CountCharAppend(xs[0] + [sep], Join(xs[1..], sep), sep);
      JoinSeparatorCount(xs[1..], sep);
    }
  }
}

=== FILE: chunker.dfy ===
/**
 * `ChunkService`: text sanitising and fixed-size windowing with the cut
 * snapped back to a space. The next window starts at
 * `max(end - overlap, end)`, so for a non-negative overlap the windows tile
 * the text exactly and never overlap.
 */
module Chunker {
  import opened Wrappers
  import opened Chars
  import opened Model

  function Min(a: int, b: int): int {
    if a < b then a else b
  }

  function Max(a: int, b: int): int {
    if a < b then b else a
  }

  /** Every `\p{Cntrl}` character (U+0000 included) replaced by a space. */
  function MaskControls(s: string): (r: string)
    ensures |r| == |s|
    ensures forall i | 0 <= i < |s| :: r[i] == (if IsControl(s[i]) then ' ' else s[i])
  {
    seq(|s|, i requires 0 <= i < |s| => if IsControl(s[i]) then ' ' else s[i])
  }

  /**
   * The shape `sanitize` guarantees: no control characters, no `\s` whitespace
   * other than single spaces, and nothing `trim` would remove at either end.
   */
  predicate NormalForm(s: string) {
    && (forall i | 0 <= i < |s| :: !IsControl(s[i]))
    && (forall i | 0 <= i < |s| :: !IsRegexSpace(s[i]) || s[i] == ' ')
    && (forall i | 0 <= i < |s| - 1 :: !(s[i] == ' ' && s[i + 1] == ' '))
    && (|s| == 0 || (!IsTrimmable(s[0]) && !IsTrimmable(s[|s| - 1])))
  }

  /** `sanitize`: controls to spaces, whitespace runs to one space, trimmed; null becomes "". */
  function Sanitize(text: Option<string>): string {
    if text.None? then "" else Trim(ReplaceSpaceRuns(MaskControls(text.value), ' '))
  }

  lemma CollapsedHasNoControl(masked: string)
    requires forall i | 0 <= i < |masked| :: !IsControl(masked[i])
    ensures forall i | 0 <= i < |ReplaceSpaceRuns(masked, ' ')| ::
              !IsControl(ReplaceSpaceRuns(masked, ' ')[i]) && (!IsRegexSpace(ReplaceSpaceRuns(masked, ' ')[i]) || ReplaceSpaceRuns(masked, ' ')[i] == ' ')
  {
    var c := ReplaceSpaceRuns(masked, ' ');
    ReplaceSpaceRunsFrom(masked, ' ');
    forall i | 0 <= i < |c| ensures !IsControl(c[i]) && (!IsRegexSpace(c[i]) || c[i] == ' ') {
      if c[i] != ' ' {
        assert c[i] in masked;
      }
    }
  }

  /** Trimming keeps the normal form of everything but the ends, and fixes the ends. */
  lemma TrimKeepsInterior(c: string)
    requires forall i | 0 <= i < |c| :: !IsControl(c[i]) && (!IsRegexSpace(c[i]) || c[i] == ' ')
    requires forall i | 0 <= i < |c| - 1 :: !(c[i] == ' ' && c[i + 1] == ' ')
    ensures NormalForm(Trim(c))
  {
    var r := Trim(c);
    var lo := TrimStart(c);
    assert forall i | 0 <= i < |r| :: r[i] == c[lo + i];
  }

  /** A null text sanitises to "", and every result is in normal form. */
  lemma SanitizeNormalForm(text: Option<string>)
    ensures text.None? ==> Sanitize(text) == ""
    ensures NormalForm(Sanitize(text))
  {
    if text.Some? {
      var masked := MaskControls(text.value);
      CollapsedHasNoControl(masked);
      TrimKeepsInterior(ReplaceSpaceRuns(masked, ' '));
    }
  }

  /** Sanitising is idempotent: its output is already in normal form. */
  lemma SanitizeIdempotent(text: Option<string>)
    ensures Sanitize(Some(Sanitize(text))) == Sanitize(text)
  {
    SanitizeNormalForm(text);
    NormalFormFixed(Sanitize(text));
  }

  /** Text in normal form is its own sanitised form. */
  lemma NormalFormFixed(s: string)
    requires NormalForm(s)
    ensures Sanitize(Some(s)) == s
  {
    assert MaskControls(s) == s;
    ReplaceSpaceRunsSingleSpaces(s);
    TrimNoop(s);
  }

  /** A half-open window `[start, end)` of the sanitised text. */
  datatype Window = Window(start: nat, end: nat)

  /**
   * Where the window starting at `start` ends: `min(start + size, |s|)`,
   * unless the window stops short of the text's end and its last space lies
   * past the middle (`> size / 2`), in which case it ends at that space.
   */
  function WindowEnd(s: string, start: nat, size: int): (end: nat)
    requires size >= 1 && start < |s|
    ensures start < end <= Min(start + size, |s|)
    ensures start + size >= |s| ==> end == |s|
  {
    var end0 := Min(start + size, |s|);
    if end0 < |s| then
      var lastSpace := LastIndexOf(s[start..end0], ' ');
      if lastSpace > size / 2 then start + lastSpace else end0
    else
      end0
  }

  /** `WindowEnd` cuts as `IsCut` describes. */
  lemma WindowEndCuts(s: string, start: nat, size: int)
    requires size >= 1 && start < |s|
    ensures IsCut(s, start, size, WindowEnd(s, start, size))
  {
    var end0 := Min(start + size, |s|);
    if end0 < |s| {
      var candidate := s[start..end0];
      var lastSpace := LastIndexOf(candidate, ' ');
      forall k | start + size / 2 < k < start + size && lastSpace < k - start ensures s[k] != ' ' {
        assert candidate[k - start] == s[k];
      }
      if lastSpace > size / 2 {
        assert candidate[lastSpace] == s[start + lastSpace];
      }
    }
  }

  /**
   * How a window that stops short of the text's end is cut: either at a space
   * past the middle with no space after it inside the window, or at the full
   * size when no space lies past the middle.
   */
  predicate IsCut(s: string, start: nat, size: int, end: nat)
    requires size >= 1 && start < end <= Min(start + size, |s|)
  {
    && (end < start + size && end < |s| ==>
          && s[end] == ' '
          && end - start > size / 2
          && forall k | end < k < Min(start + size, |s|) :: s[k] != ' ')
    && (start + size < |s| && end == start + size ==>
          forall k | start + size / 2 < k < start + size :: s[k] != ' ')
  }

  /** The windows the chunking loop visits, starting at `start`. */
  function Windows(s: string, start: nat, size: int, overlap: int): (ws: seq<Window>)
    requires size >= 1 && start < |s|
    ensures |ws| >= 1 && ws[0].start == start
    ensures forall i | 0 <= i < |ws| :: start <= ws[i].start
    ensures InText(s, ws)
    decreases |s| - start
  {
    var end := WindowEnd(s, start, size);
    var next := Max(end - overlap, end);
    if end == |s| || next >= |s| then [Window(start, end)]
    else [Window(start, end)] + Windows(s, next, size, overlap)
  }

  /** Windows inside `s`, each non-empty. */
  predicate InText(s: string, ws: seq<Window>) {
    forall i | 0 <= i < |ws| :: ws[i].start < ws[i].end <= |s|
  }

  lemma WindowsLast(s: string, start: nat, size: int, overlap: int)
    requires size >= 1 && start < |s|
    requires WindowEnd(s, start, size) == |s|
             || Max(WindowEnd(s, start, size) - overlap, WindowEnd(s, start, size)) >= |s|
    ensures Windows(s, start, size, overlap) == [Window(start, WindowEnd(s, start, size))]
  {
  }

  lemma WindowsMore(s: string, start: nat, size: int, overlap: int)
    requires size >= 1 && start < |s|
    requires WindowEnd(s, start, size) < |s|
    requires Max(WindowEnd(s, start, size) - overlap, WindowEnd(s, start, size)) < |s|
    ensures Windows(s, start, size, overlap)
            == [Window(start, WindowEnd(s, start, size))]
               + Windows(s, Max(WindowEnd(s, start, size) - overlap, WindowEnd(s, start, size)), size, overlap)
  {
  }

  /** The windows of a whole sanitised text (none for the empty text). */
  function TextWindows(s: string, size: int, overlap: int): (ws: seq<Window>)
    requires size >= 1
    ensures |ws| == 0 <==> |s| == 0
    ensures InText(s, ws)
  {
    if |s| == 0 then [] else Windows(s, 0, size, overlap)
  }

  /** `chunk`: one chunk per window, indexed from 0, holding the trimmed window text. */
  function ChunkText(documentId: Uuid, text: Option<string>, size: int, overlap: int, freshId: nat -> Uuid): (chunks: seq<Chunk>)
    requires size >= 1
    ensures |chunks| == 0 <==> Sanitize(text) == ""
  {
    var s := Sanitize(text);
    var ws := TextWindows(s, size, overlap);
    ChunksOf(documentId, s, ws, freshId)
  }

  function ChunksOf(documentId: Uuid, s: string, ws: seq<Window>, freshId: nat -> Uuid): (chunks: seq<Chunk>)
    requires InText(s, ws)
    ensures |chunks| == |ws|
    ensures forall i | 0 <= i < |ws| :: chunks[i] == Chunk(Some(freshId(i)), documentId, i, Trim(s[ws[i].start..ws[i].end]), None)
  {
    seq(|ws|, i requires 0 <= i < |ws| => Chunk(Some(freshId(i)), documentId, i, Trim(s[ws[i].start..ws[i].end]), None))
  }

  /** The text covered by a list of windows, in order. */
  function Covered(s: string, ws: seq<Window>): string
    requires InText(s, ws)
  {
    if |ws| == 0 then "" else s[ws[0].start..ws[0].end] + Covered(s, ws[1..])
  }

  /** Consecutive windows meet exactly and the last one reaches the end of the text. */
  predicate Tiles(s: string, ws: seq<Window>)
    requires |ws| >= 1
  {
    && (forall i | 0 <= i < |ws| - 1 :: ws[i + 1].start == ws[i].end)
    && ws[|ws| - 1].end == |s|
  }

  lemma TilesCons(s: string, w: Window, rest: seq<Window>)
    requires |rest| >= 1 && w.start < w.end <= |s| && InText(s, rest)
    requires Tiles(s, rest) && Covered(s, rest) == s[w.end..]
    requires rest[0].start == w.end
    ensures InText(s, [w] + rest)
    ensures Tiles(s, [w] + rest)
    ensures Covered(s, [w] + rest) == s[w.start..]
  {
    var ws := [w] + rest;
    assert forall i | 1 <= i < |ws| :: ws[i] == rest[i - 1];
    assert ws[1..] == rest;
    assert s[w.start..] == s[w.start..w.end] + s[w.end..];
  }

  /**
   * With a non-negative overlap each window starts where the previous one
   * ended, the last reaches the end of the text, and the untrimmed windows
   * concatenate back to exactly the text from `start`.
   */
  lemma {:induction false} WindowsTile(s: string, start: nat, size: int, overlap: int)
    requires size >= 1 && start < |s| && overlap >= 0
    ensures Tiles(s, Windows(s, start, size, overlap))
    ensures Covered(s, Windows(s, start, size, overlap)) == s[start..]
    decreases |s| - start
  {
    var end := WindowEnd(s, start, size);
    assert Max(end - overlap, end) == end;
    if end < |s| {
      WindowsMore(s, start, size, overlap);
      WindowsTile(s, end, size, overlap);
      TilesCons(s, Window(start, end), Windows(s, end, size, overlap));
    } else {
      WindowsLast(s, start, size, overlap);
      assert Covered(s, [Window(start, end)]) == s[start..end] + Covered(s, []);
    }
  }

  /** A text whose sanitised form fits in one window gives exactly one chunk, the sanitised text. */
  lemma ShortTextSingleChunk(documentId: Uuid, text: Option<string>, size: int, overlap: int, freshId: nat -> Uuid)
    requires size >= 1
    requires 0 < |Sanitize(text)| <= size
    ensures ChunkText(documentId, text, size, overlap, freshId)
            == [Chunk(Some(freshId(0)), documentId, 0, Sanitize(text), None)]
  {
    var s := Sanitize(text);
    SanitizeNormalForm(text);
    TrimNoop(s);
    SingleChunk(documentId, s, size, overlap, freshId);
  }

  lemma SingleChunk(documentId: Uuid, s: string, size: int, overlap: int, freshId: nat -> Uuid)
    requires size >= 1 && 0 < |s| <= size && Trim(s) == s
    ensures ChunksOf(documentId, s, TextWindows(s, size, overlap), freshId)
            == [Chunk(Some(freshId(0)), documentId, 0, s, None)]
  {
    WindowsLast(s, 0, size, overlap);
    assert TextWindows(s, size, overlap) == [Window(0, |s|)];
    assert s[0..|s|] == s;
  }

  /**
   * 250 characters without spaces, size 100 and overlap 20 give windows of
   * 100, 100 and 50 characters: the next window starts at
   * `max(end - overlap, end)`, so the overlap never moves the cursor back.
   */
  lemma SpaceFreeExample()
    ensures var s := seq(250, i => 'a');
            Windows(s, 0, 100, 20) == [Window(0, 100), Window(100, 200), Window(200, 250)]
  {
    var s := seq(250, i => 'a');
    assert WindowEnd(s, 0, 100) == 100 by {
      assert LastIndexOf(s[0..100], ' ') == -1;
    }
    assert WindowEnd(s, 100, 100) == 200 by {
      assert LastIndexOf(s[100..200], ' ') == -1;
    }
    assert WindowEnd(s, 200, 100) == 250;
    assert Windows(s, 200, 100, 20) == [Window(200, 250)];
    assert Windows(s, 100, 100, 20) == [Window(100, 200)] + Windows(s, 200, 100, 20);
  }
}

=== FILE: embedding.dfy ===
/**
 * `EmbeddingService`: texts are embedded in order, blank ones locally as the
 * empty vector and the rest through the embeddings endpoint in batches of at
 * most `batchSize`. The endpoint is a function parameter; a batch whose reply
 * is an HTTP error, has no data, or has the wrong number of vectors aborts
 * the whole call, after the batches before it were already sent.
 */
module Embedding {
  import opened Wrappers
  import opened Chars
  import opened Model

  /** The `openai.embedding.batch-size` default. */
  const DEFAULT_BATCH_SIZE: int := 16

  /** What the `/embeddings` call gives back: a body whose `data` may be null, or an HTTP error. */
  datatype ApiReply = Replied(data: Option<seq<Vec>>) | HttpError(status: int, body: string)

  /**
   * Why an embedding call failed. `Transport` is the `OpenAiException` an
   * HTTP error becomes; `UncastableStatus` is the `ClassCastException` the
   * cast to `HttpStatus` throws instead when the code is not one of the
   * enum's. `NullText` is the exception `List.of(null)` throws in `embed`.
   */
  datatype EmbeddingError =
    | Transport(status: int, body: string)
    | UncastableStatus(status: int)
    | EmptyData
    | CountMismatch
    | NullText

  /** A non-positive configured batch size is raised to 1. */
  function ClampBatch(batchSize: int): (bs: int)
    ensures bs >= 1
    ensures batchSize > 0 ==> bs == batchSize
    ensures batchSize <= 0 ==> bs == 1
  {
    if batchSize > 0 then batchSize else 1
  }

  /** A null list is treated like an empty one. */
  function Items(texts: Option<seq<Option<string>>>): seq<Option<string>> {
    texts.GetOr([])
  }

  /** Null and blank texts are never sent; they get the empty vector. */
  predicate Skipped(t: Option<string>) {
    t.None? || IsBlank(t.value)
  }

  /** The texts that go to the endpoint, in input order. */
  function Submitted(ts: seq<Option<string>>): (r: seq<string>)
    ensures |r| <= |ts|
    ensures forall k | 0 <= k < |r| :: !IsBlank(r[k])
  {
    if |ts| == 0 then []
    else Submitted(ts[..|ts| - 1]) + (if Skipped(ts[|ts| - 1]) then [] else [ts[|ts| - 1].value])
  }

  /** How many texts before position `j` are sent: where `ts[j]` lands among the submitted ones. */
  function Rank(ts: seq<Option<string>>, j: nat): (r: nat)
    requires j <= |ts|
    ensures r <= |Submitted(ts)|
    ensures j < |ts| && !Skipped(ts[j]) ==> r < |Submitted(ts)|
  {
    assert ts == ts[..j] + ts[j..];
    SubmittedAppend(ts[..j], ts[j..]);
    if j < |ts| then
      assert ts[j..] == ts[j..j + 1] + ts[j + 1..];
      SubmittedAppend(ts[j..j + 1], ts[j + 1..]);
      assert ts[j..j + 1][..0] == [];
      |Submitted(ts[..j])|
    else
      |Submitted(ts[..j])|
  }

  lemma SubmittedStep(ts: seq<Option<string>>, j: nat)
    requires j < |ts|
    ensures Submitted(ts[..j + 1]) == Submitted(ts[..j]) + (if Skipped(ts[j]) then [] else [ts[j].value])
  {
    assert ts[..j + 1][..j] == ts[..j];
  }

  lemma {:induction false} SubmittedAppend(a: seq<Option<string>>, b: seq<Option<string>>)
    ensures Submitted(a + b) == Submitted(a) + Submitted(b)
    decreases |b|
  {
    if |b| == 0 {
      assert a + b == a;
    } else {
      var b' := b[..|b| - 1];
      assert (a + b)[..|a + b| - 1] == a + b';
      SubmittedAppend(a, b');
    }
  }

  /** The text at a non-skipped position is the submitted text at its rank. */
  lemma RankPicksText(ts: seq<Option<string>>, j: nat)
    requires j < |ts| && !Skipped(ts[j])
    ensures Rank(ts, j) < |Submitted(ts)|
    ensures Submitted(ts)[Rank(ts, j)] == ts[j].value
  {
    SubmittedStep(ts, j);
    assert ts == ts[..j + 1] + ts[j + 1..];
    SubmittedAppend(ts[..j + 1], ts[j + 1..]);
  }

  /** The concatenation of a list of batches. */
  function Flatten(bss: seq<seq<string>>): seq<string> {
    if |bss| == 0 then [] else Flatten(bss[..|bss| - 1]) + bss[|bss| - 1]
  }

  lemma {:induction false} FlattenCons(b: seq<string>, rest: seq<seq<string>>)
    ensures Flatten([b] + rest) == b + Flatten(rest)
    decreases |rest|
  {
    if |rest| == 0 {
      assert [b] + rest == [b];
      assert Flatten([b]) == Flatten([]) + b;
    } else {
      var r', last := rest[..|rest| - 1], rest[|rest| - 1];
      assert rest == r' + [last];
      assert [b] + rest == ([b] + r') + [last];
      FlattenSnoc([b] + r', last);
      FlattenSnoc(r', last);
      FlattenCons(b, r');
    }
  }

  lemma FlattenSnoc(bss: seq<seq<string>>, b: seq<string>)
    ensures Flatten(bss + [b]) == Flatten(bss) + b
  {
    assert (bss + [b])[..|bss|] == bss;
  }

  /**
   * The batches the loop sends for the list of submitted texts: consecutive
   * runs of `bs`, the last one possibly shorter.
   */
  function Batches(xs: seq<string>, bs: int): (r: seq<seq<string>>)
    requires bs >= 1
    ensures Flatten(r) == xs
    decreases |xs|
  {
    if |xs| == 0 then []
    else if |xs| <= bs then
      assert Flatten([xs]) == Flatten([]) + xs;
      [xs]
    else
      var rest := Batches(xs[bs..], bs);
      FlattenCons(xs[..bs], rest);
      assert xs[..bs] + xs[bs..] == xs;
      [xs[..bs]] + rest
  }

  /** Batches in the sense of the loop: every one full, except the last which holds 1..bs texts. */
  predicate WellBatched(bss: seq<seq<string>>, bs: int) {
    && (forall k | 0 <= k < |bss| - 1 :: |bss[k]| == bs)
    && (|bss| > 0 ==> 1 <= |bss[|bss| - 1]| <= bs)
  }

  /** `Batches` cuts at `bs`: every batch full except the last, which is not empty. */
  lemma {:induction false} BatchesWellBatched(xs: seq<string>, bs: int)
    requires bs >= 1
    ensures WellBatched(Batches(xs, bs), bs)
    decreases |xs|
  {
    if |xs| > bs {
      var rest := Batches(xs[bs..], bs);
      BatchesWellBatched(xs[bs..], bs);
      var r := [xs[..bs]] + rest;
      assert forall k | 1 <= k < |r| :: r[k] == rest[k - 1];
    }
  }

  /** A full batch at the front is cut off as it is. */
  lemma BatchesOfFull(c: seq<string>, rest: seq<string>, bs: int)
    requires bs >= 1 && |c| == bs
    ensures Batches(c + rest, bs) == [c] + Batches(rest, bs)
  {
    if |rest| == 0 {
      assert c + rest == c;
    } else {
      SplitAt(c, rest);
    }
  }

  lemma SplitAt<T>(c: seq<T>, rest: seq<T>)
    ensures (c + rest)[..|c|] == c && (c + rest)[|c|..] == rest
  {
  }

  lemma AppendAssoc<T>(a: seq<T>, b: seq<T>, c: seq<T>)
    ensures a + b + c == a + (b + c)
  {
  }

  /** Full batches already sent, followed by more texts, batch as themselves followed by the batching of the rest. */
  lemma {:induction false} BatchesAfterFull(calls: seq<seq<string>>, rest: seq<string>, bs: int)
    requires bs >= 1
    requires forall k | 0 <= k < |calls| :: |calls[k]| == bs
    ensures Batches(Flatten(calls) + rest, bs) == calls + Batches(rest, bs)
    decreases |calls|
  {
    if |calls| == 0 {
      assert Flatten(calls) + rest == rest;
    } else {
      var c := calls[0];
      var cs := calls[1..];
      assert calls == [c] + cs;
      FlattenCons(c, cs);
      AppendAssoc(c, Flatten(cs), rest);
      BatchesAfterFull(cs, rest, bs);
      BatchesOfFull(c, Flatten(cs) + rest, bs);
      AppendAssoc([c], cs, Batches(rest, bs));
    }
  }

  /** `callEmbeddingApi`'s checks on one reply. */
  function CheckReply(reply: ApiReply, batch: seq<string>): (r: Result<seq<Vec>, EmbeddingError>)
    ensures r.Success? ==> |r.value| == |batch|
    ensures r.Success? <==> reply.Replied? && reply.data.Some? && |reply.data.value| > 0 && |reply.data.value| == |batch|
    ensures r.Failure? && reply.Replied? && |batch| > 0 ==> (r.error == EmptyData <==> reply.data.None? || |reply.data.value| == 0)
    ensures reply.HttpError? ==> r.Failure? && (r.error.Transport? <==> IsHttpStatus(reply.status))
    ensures r.Failure? && (r.error.Transport? || r.error.UncastableStatus?) ==>
              reply.HttpError? && r.error.status == reply.status
    ensures r.Failure? && r.error.Transport? ==> r.error.body == reply.body
  {
    match reply
    case HttpError(status, body) =>
      if IsHttpStatus(status) then Failure(Transport(status, body)) else Failure(UncastableStatus(status))
    case Replied(data) =>
      if data.None? || |data.value| == 0 then Failure(EmptyData)
      else if |data.value| != |batch| then Failure(CountMismatch)
      else Success(data.value)
  }

  /**
   * The reference meaning of sending `batches` in order: the vectors of all
   * replies concatenated, or the error of the first batch that fails.
   */
  function CallAll(batches: seq<seq<string>>, api: seq<string> -> ApiReply): (r: Result<seq<Vec>, EmbeddingError>)
    ensures r.Success? ==> |r.value| == |Flatten(batches)|
  {
    if |batches| == 0 then Success([])
    else
      var last := batches[|batches| - 1];
      match CallAll(batches[..|batches| - 1], api)
      case Failure(e) => Failure(e)
      case Success(v) =>
        match CheckReply(api(last), last)
        case Failure(e) => Failure(e)
        case Success(w) => Success(v + w)
  }

  /** Once a batch fails, later batches change nothing. */
  lemma {:induction false} CallAllStopsAtFailure(xs: seq<seq<string>>, ys: seq<seq<string>>, api: seq<string> -> ApiReply)
    requires CallAll(xs, api).Failure?
    ensures CallAll(xs + ys, api) == CallAll(xs, api)
    decreases |ys|
  {
    if |ys| == 0 {
      assert xs + ys == xs;
    } else {
      var ys' := ys[..|ys| - 1];
      assert (xs + ys)[..|xs + ys| - 1] == xs + ys';
      CallAllStopsAtFailure(xs, ys', api);
    }
  }

  /** A failing run of calls that the remaining batches extend fails the whole plan, and is a prefix of it. */
  lemma FailedPrefix(calls: seq<seq<string>>, rest: seq<seq<string>>, all: seq<seq<string>>, api: seq<string> -> ApiReply)
    requires calls + rest == all && CallAll(calls, api).Failure?
    ensures |calls| <= |all| && calls == all[..|calls|]
    ensures CallAll(all, api) == CallAll(calls, api)
  {
    CallAllStopsAtFailure(calls, rest, api);
    assert (calls + rest)[..|calls|] == calls;
  }

  /** The batches one `embedBatch` call sends when no batch fails. */
  function Plan(texts: Option<seq<Option<string>>>, batchSize: int): seq<seq<string>> {
    Batches(Submitted(Items(texts)), ClampBatch(batchSize))
  }

  /** Where the loop stands: the full batches sent plus the pending texts make up what was submitted so far. */
  lemma PlanAfter(ts: seq<Option<string>>, i: nat, calls: seq<seq<string>>, pending: seq<string>, bs: int)
    requires bs >= 1 && i <= |ts|
    requires forall k | 0 <= k < |calls| :: |calls[k]| == bs
    requires Flatten(calls) + pending == Submitted(ts[..i])
    requires |pending| == bs || (i == |ts| && 1 <= |pending| <= bs)
    ensures Batches(Submitted(ts), bs) == calls + [pending] + Batches(Submitted(ts[i..]), bs)
  {
    SplitAt(ts[..i], ts[i..]);
    assert ts[..i] + ts[i..] == ts;
    SubmittedAppend(ts[..i], ts[i..]);
    var rest := Submitted(ts[i..]);
    AppendAssoc(Flatten(calls), pending, rest);
    BatchesAfterFull(calls, pending + rest, bs);
    if i == |ts| {
      assert ts[i..] == [];
      assert pending + rest == pending;
      assert Batches(rest, bs) == [];
      assert Batches(pending, bs) == [pending];
    } else {
      BatchesOfFull(pending, rest, bs);
    }
    AppendAssoc(calls, [pending], Batches(rest, bs));
  }

  /**
   * `assignBatch`: one endpoint call for `batch`, its vectors written to the
   * positions `idx` and every other position left alone.
   */
  method AssignBatch(results: seq<Vec>, batch: seq<string>, idx: seq<nat>, api: seq<string> -> ApiReply)
    returns (out: Result<seq<Vec>, EmbeddingError>)
    requires |idx| == |batch|
    requires forall p | 0 <= p < |idx| :: idx[p] < |results|
    requires forall p, q | 0 <= p < q < |idx| :: idx[p] != idx[q]
    ensures out.Success? <==> CheckReply(api(batch), batch).Success?
    ensures out.Failure? ==> out.error == CheckReply(api(batch), batch).error
    ensures out.Success? ==> |out.value| == |results|
    ensures out.Success? ==> forall p | 0 <= p < |idx| :: out.value[idx[p]] == CheckReply(api(batch), batch).value[p]
    ensures out.Success? ==> forall j | 0 <= j < |results| && j !in idx :: out.value[j] == results[j]
  {
    var reply := CheckReply(api(batch), batch);
    if reply.Failure? {
      return Failure(reply.error);
    }
    var vectors := reply.value;
    var res := results;
    var i := 0;
    while i < |idx|
      invariant 0 <= i <= |idx|
      invariant |res| == |results|
      invariant forall p | 0 <= p < i :: res[idx[p]] == vectors[p]
      invariant forall j | 0 <= j < |results| && j !in idx[..i] :: res[j] == results[j]
    {
      res := res[idx[i] := vectors[i]];
      assert idx[..i + 1] == idx[..i] + [idx[i]];
      i := i + 1;
    }
    assert idx[..i] == idx;
    return Success(res);
  }

  /**
   * The loop's bookkeeping after the first `i` texts: the full batches sent
   * so far plus the pending texts are exactly the texts submitted so far, and
   * the replies to the sent batches concatenate to `flat`.
   */
  predicate Sent(ts: seq<Option<string>>, i: nat, calls: seq<seq<string>>, flat: seq<Vec>,
                 pending: seq<string>, bs: int, api: seq<string> -> ApiReply)
    requires i <= |ts|
  {
    && bs >= 1
    && Flatten(calls) + pending == Submitted(ts[..i])
    && (forall k | 0 <= k < |calls| :: |calls[k]| == bs)
    && CallAll(calls, api) == Success(flat)
  }

  /**
   * Where text `j`'s vector is: a skipped text's slot holds the empty vector,
   * a sent text's slot its vector in `flat`, and a pending text's position is
   * recorded in `idx` at its place in the pending batch.
   */
  predicate SlotOk(ts: seq<Option<string>>, j: nat, results: seq<Vec>, flat: seq<Vec>, idx: seq<nat>)
    requires j < |ts| && |results| == |ts|
  {
    if Skipped(ts[j]) then results[j] == []
    else if Rank(ts, j) < |flat| then results[j] == flat[Rank(ts, j)]
    else Rank(ts, j) - |flat| < |idx| && idx[Rank(ts, j) - |flat|] == j
  }

  /** The slots of the first `i` texts, and the pending positions, each at its rank. */
  predicate Placed(ts: seq<Option<string>>, i: nat, results: seq<Vec>, flat: seq<Vec>, idx: seq<nat>)
    requires i <= |ts|
  {
    && |results| == |ts|
    && (forall p | 0 <= p < |idx| :: idx[p] < i && !Skipped(ts[idx[p]]) && Rank(ts, idx[p]) == |flat| + p)
    && (forall j | 0 <= j < i :: SlotOk(ts, j, results, flat, idx))
  }

  lemma SkipStep(ts: seq<Option<string>>, i: nat, calls: seq<seq<string>>, flat: seq<Vec>, pending: seq<string>,
                 bs: int, api: seq<string> -> ApiReply, results: seq<Vec>, idx: seq<nat>)
    requires i < |ts| && Skipped(ts[i])
    requires Sent(ts, i, calls, flat, pending, bs, api) && Placed(ts, i, results, flat, idx)
    ensures Sent(ts, i + 1, calls, flat, pending, bs, api)
    ensures Placed(ts, i + 1, results[i := []], flat, idx)
  {
    SubmittedStep(ts, i);
    assert Flatten(calls) + pending == Submitted(ts[..i + 1]);
    var results' := results[i := []];
    forall j | 0 <= j < i + 1 ensures SlotOk(ts, j, results', flat, idx) {
      if j < i {
        assert SlotOk(ts, j, results, flat, idx);
      }
    }
  }

  lemma AddStep(ts: seq<Option<string>>, i: nat, calls: seq<seq<string>>, flat: seq<Vec>, pending: seq<string>,
                bs: int, api: seq<string> -> ApiReply, results: seq<Vec>, idx: seq<nat>)
    requires i < |ts| && !Skipped(ts[i]) && |idx| == |pending|
    requires Sent(ts, i, calls, flat, pending, bs, api) && Placed(ts, i, results, flat, idx)
    ensures Sent(ts, i + 1, calls, flat, pending + [ts[i].value], bs, api)
    ensures Placed(ts, i + 1, results, flat, idx + [i])
  {
    SubmittedStep(ts, i);
    assert Flatten(calls) + (pending + [ts[i].value]) == Submitted(ts[..i + 1]);
    assert Rank(ts, i) == |flat| + |idx|;
    AddPlaced(ts, i, results, flat, idx);
  }

  lemma AddPlaced(ts: seq<Option<string>>, i: nat, results: seq<Vec>, flat: seq<Vec>, idx: seq<nat>)
    requires i < |ts| && !Skipped(ts[i]) && Rank(ts, i) == |flat| + |idx|
    requires Placed(ts, i, results, flat, idx)
    ensures Placed(ts, i + 1, results, flat, idx + [i])
  {
    var idx' := idx + [i];
    forall p | 0 <= p < |idx'|
      ensures idx'[p] < i + 1 && !Skipped(ts[idx'[p]]) && Rank(ts, idx'[p]) == |flat| + p
    {
      if p < |idx| {
        assert idx'[p] == idx[p];
      }
    }
    forall j | 0 <= j < i + 1 ensures SlotOk(ts, j, results, flat, idx') {
      if j < i {
        assert SlotOk(ts, j, results, flat, idx);
        if !Skipped(ts[j]) && |flat| <= Rank(ts, j) {
          assert idx'[Rank(ts, j) - |flat|] == idx[Rank(ts, j) - |flat|];
        }
      }
    }
  }

  /** Writing a batch's vectors back moves the pending texts into `flat`. */
  lemma FlushStep(ts: seq<Option<string>>, i: nat, results: seq<Vec>, out: seq<Vec>,
                  idx: seq<nat>, vectors: seq<Vec>, flat: seq<Vec>)
    requires i <= |ts| && Placed(ts, i, results, flat, idx)
    requires |out| == |results| && |idx| == |vectors|
    requires forall p | 0 <= p < |idx| :: out[idx[p]] == vectors[p]
    requires forall j | 0 <= j < |results| && j !in idx :: out[j] == results[j]
    ensures Placed(ts, i, out, flat + vectors, [])
  {
    forall j | 0 <= j < i ensures SlotOk(ts, j, out, flat + vectors, []) {
      assert SlotOk(ts, j, results, flat, idx);
      if Skipped(ts[j]) || Rank(ts, j) < |flat| {
        assert forall p | 0 <= p < |idx| :: idx[p] != j;
        assert out[j] == results[j];
      } else {
        var p := Rank(ts, j) - |flat|;
        assert out[j] == vectors[p];
      }
    }
  }

  /** Once every text is placed and nothing is pending, each slot holds its final vector. */
  lemma PlacedAll(ts: seq<Option<string>>, results: seq<Vec>, flat: seq<Vec>)
    requires Placed(ts, |ts|, results, flat, [])
    ensures forall j | 0 <= j < |ts| && Skipped(ts[j]) :: results[j] == []
    ensures forall j | 0 <= j < |ts| && !Skipped(ts[j]) :: Rank(ts, j) < |flat| && results[j] == flat[Rank(ts, j)]
  {
    forall j | 0 <= j < |ts| ensures Skipped(ts[j]) ==> results[j] == [] {
      assert SlotOk(ts, j, results, flat, []);
    }
    forall j | 0 <= j < |ts| && !Skipped(ts[j]) ensures Rank(ts, j) < |flat| && results[j] == flat[Rank(ts, j)] {
      assert SlotOk(ts, j, results, flat, []);
    }
  }

  /** Sending one more batch whose reply checks out extends the concatenated replies. */
  lemma CallAllSnoc(calls: seq<seq<string>>, batch: seq<string>, flat: seq<Vec>, api: seq<string> -> ApiReply)
    requires CallAll(calls, api) == Success(flat)
    ensures CallAll(calls + [batch], api) ==
              match CheckReply(api(batch), batch)
              case Success(w) => Success(flat + w)
              case Failure(e) => Failure(e)
  {
    assert (calls + [batch])[..|calls|] == calls;
  }

  /** A full pending batch whose reply checks out joins the sent batches. */
  lemma SendStep(ts: seq<Option<string>>, i: nat, calls: seq<seq<string>>, flat: seq<Vec>, pending: seq<string>,
                 bs: int, api: seq<string> -> ApiReply, vectors: seq<Vec>)
    requires i <= |ts| && Sent(ts, i, calls, flat, pending, bs, api) && |pending| == bs
    requires CheckReply(api(pending), pending) == Success(vectors)
    ensures Sent(ts, i, calls + [pending], flat + vectors, [], bs, api)
  {
    CallAllSnoc(calls, pending, flat, api);
    FlattenSnoc(calls, pending);
  }

  /** Pending positions are distinct, since their ranks are. */
  lemma PendingDistinct(ts: seq<Option<string>>, i: nat, results: seq<Vec>, flat: seq<Vec>, idx: seq<nat>)
    requires i <= |ts| && Placed(ts, i, results, flat, idx)
    ensures forall p | 0 <= p < |idx| :: idx[p] < |results|
    ensures forall p, q | 0 <= p < q < |idx| :: idx[p] != idx[q]
  {
  }

  /**
   * One turn of `embedBatch`'s loop: a skipped text gets the empty vector,
   * any other joins the pending batch, and a batch that reaches `bs` texts is
   * sent. If that send fails, the batches sent so far are the planned ones up
   * to the failing one.
   */
  method FeedText(ts: seq<Option<string>>, i: nat, bs: int, api: seq<string> -> ApiReply,
                  results: seq<Vec>, pending: seq<string>, idx: seq<nat>, calls: seq<seq<string>>, ghost flat: seq<Vec>)
    returns (failed: Option<EmbeddingError>, results': seq<Vec>, pending': seq<string>, idx': seq<nat>,
             calls': seq<seq<string>>, ghost flat': seq<Vec>)
    requires i < |ts| && |pending| < bs && |idx| == |pending|
    requires Sent(ts, i, calls, flat, pending, bs, api) && Placed(ts, i, results, flat, idx)
    ensures failed.None? ==> && Sent(ts, i + 1, calls', flat', pending', bs, api)
                             && Placed(ts, i + 1, results', flat', idx')
                             && |pending'| < bs && |idx'| == |pending'|
    ensures failed.Some? ==> && calls' + Batches(Submitted(ts[i + 1..]), bs) == Batches(Submitted(ts), bs)
                             && |calls'| >= 1
                             && CallAll(calls'[..|calls'| - 1], api).Success?
                             && CallAll(calls', api) == Failure(failed.value)
  {
    var text := ts[i];
    if text.None? || IsBlank(text.value) {
      SkipStep(ts, i, calls, flat, pending, bs, api, results, idx);
      return None, results[i := []], pending, idx, calls, flat;
    }
    AddStep(ts, i, calls, flat, pending, bs, api, results, idx);
    pending' := pending + [text.value];
    idx' := idx + [i];
    if |pending'| < bs {
      return None, results, pending', idx', calls, flat;
    }
    failed, results', calls', flat' := SendFull(ts, i + 1, bs, api, results, pending', idx', calls, flat);
    if failed.None? {
      pending', idx' := [], [];
    }
  }

  /** A pending batch that reached `bs` texts goes out; its vectors land in their slots. */
  method SendFull(ts: seq<Option<string>>, n: nat, bs: int, api: seq<string> -> ApiReply,
                  results: seq<Vec>, pending: seq<string>, idx: seq<nat>, calls: seq<seq<string>>, ghost flat: seq<Vec>)
    returns (failed: Option<EmbeddingError>, results': seq<Vec>, calls': seq<seq<string>>, ghost flat': seq<Vec>)
    requires n <= |ts| && |pending| == bs && |idx| == |pending|
    requires Sent(ts, n, calls, flat, pending, bs, api) && Placed(ts, n, results, flat, idx)
    ensures failed.None? ==> Sent(ts, n, calls', flat', [], bs, api) && Placed(ts, n, results', flat', [])
    ensures failed.Some? ==> && calls' + Batches(Submitted(ts[n..]), bs) == Batches(Submitted(ts), bs)
                             && |calls'| >= 1
                             && CallAll(calls'[..|calls'| - 1], api).Success?
                             && CallAll(calls', api) == Failure(failed.value)
  {
    PendingDistinct(ts, n, results, flat, idx);
    var out := AssignBatch(results, pending, idx, api);
    PlanAfter(ts, n, calls, pending, bs);
    CallAllSnoc(calls, pending, flat, api);
    calls' := calls + [pending];
    assert calls'[..|calls'| - 1] == calls;
    if out.Failure? {
      return Some(out.error), results, calls', flat;
    }
    var vectors := CheckReply(api(pending), pending).value;
    FlushStep(ts, n, results, out.value, idx, vectors, flat);
    SendStep(ts, n, calls, flat, pending, bs, api, vectors);
    return None, out.value, calls', flat + vectors;
  }

  /**
   * `embedBatch`. On success every position holds the empty vector if its
   * text was null or blank, and otherwise the vector the endpoint returned
   * for it; exactly the planned batches were sent. On failure the error is
   * that of the first failing batch, and the batches sent are the planned
   * ones up to and including it.
   */
  method EmbedBatch(texts: Option<seq<Option<string>>>, batchSize: int, api: seq<string> -> ApiReply)
    returns (r: Result<seq<Vec>, EmbeddingError>, calls: seq<seq<string>>)
    ensures r.Success? <==> CallAll(Plan(texts, batchSize), api).Success?
    ensures r.Success? ==> calls == Plan(texts, batchSize)
    ensures r.Success? ==> |r.value| == |Items(texts)|
    ensures r.Success? ==> forall j | 0 <= j < |Items(texts)| ::
              r.value[j] == (if Skipped(Items(texts)[j]) then []
                             else CallAll(Plan(texts, batchSize), api).value[Rank(Items(texts), j)])
    ensures r.Failure? ==> r.error == CallAll(Plan(texts, batchSize), api).error
    ensures r.Failure? ==> 1 <= |calls| <= |Plan(texts, batchSize)| && calls == Plan(texts, batchSize)[..|calls|]
    ensures r.Failure? ==> CallAll(calls[..|calls| - 1], api).Success? && CallAll(calls, api).Failure?
  {
    r, calls := EmbedItems(Items(texts), ClampBatch(batchSize), api);
  }

  /** `embedBatch` once the texts are read and the batch size clamped. */
  method EmbedItems(ts: seq<Option<string>>, bs: int, api: seq<string> -> ApiReply)
    returns (r: Result<seq<Vec>, EmbeddingError>, calls: seq<seq<string>>)
    requires bs >= 1
    ensures r.Success? <==> CallAll(Batches(Submitted(ts), bs), api).Success?
    ensures r.Success? ==> calls == Batches(Submitted(ts), bs)
    ensures r.Success? ==> |r.value| == |ts|
    ensures r.Success? ==> forall j | 0 <= j < |ts| ::
              r.value[j] == (if Skipped(ts[j]) then []
                             else CallAll(Batches(Submitted(ts), bs), api).value[Rank(ts, j)])
    ensures r.Failure? ==> r.error == CallAll(Batches(Submitted(ts), bs), api).error
    ensures r.Failure? ==> 1 <= |calls| <= |Batches(Submitted(ts), bs)| && calls == Batches(Submitted(ts), bs)[..|calls|]
    ensures r.Failure? ==> CallAll(calls[..|calls| - 1], api).Success? && CallAll(calls, api).Failure?
  {
    if |ts| == 0 {
      return Success([]), [];
    }
    var failed, results, pending, pendingIdx, sent, flat := FeedAll(ts, bs, api);
    if failed.Some? {
      return Failure(failed.value), sent;
    }
    r, calls := FlushRest(ts, bs, api, results, pending, pendingIdx, sent, flat);
    assert calls[..|calls|] == calls;
  }

  /** Before the first text nothing is sent, pending or placed. */
  lemma FeedStart(ts: seq<Option<string>>, bs: int, api: seq<string> -> ApiReply, results: seq<Vec>)
    requires bs >= 1 && |results| == |ts|
    ensures Sent(ts, 0, [], [], [], bs, api) && Placed(ts, 0, results, [], [])
  {
    assert ts[..0] == [];
  }

  /**
   * `embedBatch`'s loop over the texts. It stops at the first batch whose
   * send fails; otherwise every text is placed or pending.
   */
  method FeedAll(ts: seq<Option<string>>, bs: int, api: seq<string> -> ApiReply)
    returns (failed: Option<EmbeddingError>, results: seq<Vec>, pending: seq<string>, pendingIdx: seq<nat>,
             calls: seq<seq<string>>, ghost flat: seq<Vec>)
    requires bs >= 1
    ensures failed.None? ==> && Sent(ts, |ts|, calls, flat, pending, bs, api)
                             && Placed(ts, |ts|, results, flat, pendingIdx)
                             && |pending| < bs && |pendingIdx| == |pending|
    ensures failed.Some? ==> && 1 <= |calls| <= |Batches(Submitted(ts), bs)|
                             && calls == Batches(Submitted(ts), bs)[..|calls|]
                             && CallAll(Batches(Submitted(ts), bs), api) == Failure(failed.value)
                             && CallAll(calls[..|calls| - 1], api).Success?
                             && CallAll(calls, api).Failure?
  {
    results := seq(|ts|, _ => []);
    pending, pendingIdx, calls, flat := [], [], [], [];
    FeedStart(ts, bs, api, results);
    var i: nat := 0;
    while i < |ts|
      invariant i <= |ts|
      invariant Sent(ts, i, calls, flat, pending, bs, api)
      invariant Placed(ts, i, results, flat, pendingIdx)
      invariant |pending| < bs && |pendingIdx| == |pending|
    {
      failed, results, pending, pendingIdx, calls, flat := FeedText(ts, i, bs, api, results, pending, pendingIdx, calls, flat);
      if failed.Some? {
        FailedPrefix(calls, Batches(Submitted(ts[i + 1..]), bs), Batches(Submitted(ts), bs), api);
        return;
      }
      i := i + 1;
    }
    failed := None;
  }

  /**
   * The end of `embedBatch`: every text has been fed, and the pending
   * texts, if any, go out as the last batch.
   */
  method FlushRest(ts: seq<Option<string>>, bs: int, api: seq<string> -> ApiReply, results: seq<Vec>,
                   pending: seq<string>, pendingIdx: seq<nat>, calls: seq<seq<string>>, ghost flat: seq<Vec>)
    returns (r: Result<seq<Vec>, EmbeddingError>, calls': seq<seq<string>>)
    requires Sent(ts, |ts|, calls, flat, pending, bs, api) && Placed(ts, |ts|, results, flat, pendingIdx)
    requires |pending| < bs && |pendingIdx| == |pending|
    ensures calls' == Batches(Submitted(ts), bs)
    ensures r.Success? <==> CallAll(calls', api).Success?
    ensures r.Success? ==> |r.value| == |ts|
    ensures r.Success? ==> forall j | 0 <= j < |ts| ::
              r.value[j] == (if Skipped(ts[j]) then [] else CallAll(calls', api).value[Rank(ts, j)])
    ensures r.Failure? ==> r.error == CallAll(calls', api).error
    ensures r.Failure? ==> 1 <= |calls'| && CallAll(calls'[..|calls'| - 1], api).Success?
  {
    var i := |ts|;
    assert ts[..i] == ts;
    if |pending| == 0 {
      BatchesAfterFull(calls, [], bs);
      assert Flatten(calls) + [] == Flatten(calls);
      assert calls + [] == calls;
      FlushStep(ts, i, results, results, [], [], flat);
      PlacedAll(ts, results, flat + []);
      assert flat + [] == flat;
      assert CallAll(calls, api) == Success(flat);
      return Success(results), calls;
    }
    PendingDistinct(ts, i, results, flat, pendingIdx);
    var out := AssignBatch(results, pending, pendingIdx, api);
    PlanAfter(ts, i, calls, pending, bs);
    CallAllSnoc(calls, pending, flat, api);
    assert ts[i..] == [];
    calls' := calls + [pending];
    assert calls'[..|calls'| - 1] == calls;
    assert Batches(Submitted(ts), bs) == calls';
    if out.Failure? {
      return Failure(out.error), calls';
    }
    var vectors := CheckReply(api(pending), pending).value;
    FlushStep(ts, i, results, out.value, pendingIdx, vectors, flat);
    PlacedAll(ts, out.value, flat + vectors);
    assert CallAll(calls', api) == Success(flat + vectors);
    return Success(out.value), calls';
  }

  /**
   * What `embed` returns for a text: the failure of a null text, the empty
   * vector of a blank one, or the one vector of a one-text call.
   */
  function EmbedResult(text: Option<string>, api: seq<string> -> ApiReply): Result<Vec, EmbeddingError> {
    if text.None? then Failure(NullText)
    else if IsBlank(text.value) then Success([])
    else
      match CheckReply(api([text.value]), [text.value])
      case Failure(e) => Failure(e)
      case Success(vs) => Success(vs[0])
  }

  /**
   * `embed`: one text through `embedBatch`. A null text fails before any
   * call; a blank one gives the empty vector without a call; otherwise one
   * single-text batch is sent and its only vector is the result.
   */
  method Embed(text: Option<string>, batchSize: int, api: seq<string> -> ApiReply)
    returns (r: Result<Vec, EmbeddingError>, calls: seq<seq<string>>)
    ensures text.None? ==> r == Failure(NullText) && calls == []
    ensures text.Some? && IsBlank(text.value) ==> r == Success([]) && calls == []
    ensures text.Some? && !IsBlank(text.value) ==>
              && calls == [[text.value]]
              && (r.Success? <==> CheckReply(api([text.value]), [text.value]).Success?)
              && (r.Success? ==> r.value == CheckReply(api([text.value]), [text.value]).value[0])
              && (r.Failure? ==> r.error == CheckReply(api([text.value]), [text.value]).error)
    ensures r == EmbedResult(text, api)
  {
    if text.None? {
      return Failure(NullText), [];
    }
    var texts := Some([text]);
    assert [text][..0] == [];
    assert Submitted([text]) == (if Skipped(text) then [] else [text.value]);
    assert !Skipped(text) ==> Plan(texts, batchSize) == [[text.value]];
    var rs;
    rs, calls := EmbedBatch(texts, batchSize, api);
    if rs.Failure? {
      assert Plan(texts, batchSize) == [[text.value]];
      assert calls == [[text.value]];
      return Failure(rs.error), calls;
    }
    if IsBlank(text.value) {
      return Success(rs.value[0]), calls;
    }
    assert Plan(texts, batchSize) == [[text.value]];
    assert CallAll([[text.value]], api) == CheckReply(api([text.value]), [text.value]) by {
      assert [[text.value]][..0] == [];
      var c := CheckReply(api([text.value]), [text.value]);
      if c.Success? {
        assert [] + c.value == c.value;
      }
    }
    return Success(rs.value[0]), calls;
  }
}

=== FILE: extraction.dfy ===
/**
 * `KgExtractionService`: the chunks of a document go to the chat model in
 * one prompt, and the reply is decoded into entities, events, participants
 * and relations. Every failure along the way gives the empty extraction.
 * JSON decoding is a parameter (`decode`), as is the HTTP call.
 */
module Extraction {
  import opened Wrappers
  import opened Chars
  import opened Model
  import Policies

  // ----- what the model returns -----

  /** Any field may be missing from the model's JSON, hence `Option` everywhere. */
  datatype ExtractedEntity = ExtractedEntity(
    name: Option<string>,
    canonicalKey: Option<string>,
    entityType: Option<string>,
    description: Option<string>,
    aliases: Option<seq<Option<string>>>)

  datatype ExtractedEvent = ExtractedEvent(
    eventType: Option<string>,
    eventCategory: Option<string>,
    name: Option<string>,
    chapter: Option<string>,
    location: Option<string>,
    startYear: Option<int>,
    endYear: Option<int>)

  datatype ExtractedParticipant = ExtractedParticipant(
    eventName: Option<string>,
    actorName: Option<string>,
    role: Option<string>,
    outcome: Option<string>,
    chunkIndex: Option<int>)

  datatype ExtractedRelation = ExtractedRelation(
    subjectName: Option<string>,
    predicateName: Option<string>,
    objectName: Option<string>,
    objectText: Option<string>,
    chunkIndex: Option<int>)

  /** The decoded reply; a list the JSON leaves out is null. */
  datatype ExtractionResult = ExtractionResult(
    entities: Option<seq<ExtractedEntity>>,
    events: Option<seq<ExtractedEvent>>,
    participants: Option<seq<ExtractedParticipant>>,
    relations: Option<seq<ExtractedRelation>>)

  /** Four empty lists. */
  const EMPTY: ExtractionResult := ExtractionResult(Some([]), Some([]), Some([]), Some([]))

  // ----- the prompt -----

  const SYSTEM_INSTRUCTION: string :=
    "Extract structured entities, events, participants, and relations from the text. Output JSON only."

  /** The fixed instructions that precede the chunk text. */
  const PROMPT_HEAD: string :=
    "You are an information extraction system. Read the provided chunks and extract structured knowledge graph data.\n"
    + "Output ONLY valid JSON in the following shape:\n"
    + "{\n"
    + "  \"entities\":[{\"name\":\"\",\"canonicalKey\":\"\",\"entityType\":\"\",\"description\":\"\",\"aliases\":[\"\"]}],\n"
    + "  \"events\":[{\"eventType\":\"\",\"eventCategory\":\"\",\"name\":\"\",\"chapter\":\"\",\"location\":\"\",\"startYear\":null,\"endYear\":null}],\n"
    + "  \"participants\":[{\"eventName\":\"\",\"actorName\":\"\",\"role\":\"\",\"outcome\":\"\",\"chunkIndex\":0}],\n"
    + "  \"relations\":[{\"subjectName\":\"\",\"predicate\":\"\",\"objectName\":\"\",\"objectText\":\"\",\"chunkIndex\":0}]\n"
    + "}\n"
    + "Guidelines:\n"
    + "- Use lowercase with underscores for canonicalKey (e.g., \"cao_cao\").\n"
    + "- eventType is a short label like \"battle\", \"incident\", \"visit\".\n"
    + "- Link participants to events by matching eventName and actorName.\n"
    + "- chunkIndex should reference the chunk number where you saw the fact.\n"
    + "Text:\n"

  /** One chunk as the prompt shows it. */
  function ChunkEntry(c: ChunkRow): string {
    "[chunk " + IntToString(c.chunkIndex) + "] " + c.content + "\n\n"
  }

  /** The chunk entries one after the other. */
  function PromptBody(chunks: seq<ChunkRow>): string {
    if |chunks| == 0 then "" else PromptBody(chunks[..|chunks| - 1]) + ChunkEntry(chunks[|chunks| - 1])
  }

  /** String concatenation regroups freely. */
  lemma ConcatAssociative(a: string, b: string, c: string)
    ensures (a + b) + c == a + (b + c)
  {
  }

  /** The body of a concatenation is the concatenation of the bodies. */
  lemma {:induction false} PromptBodyAppend(a: seq<ChunkRow>, b: seq<ChunkRow>)
    ensures PromptBody(a + b) == PromptBody(a) + PromptBody(b)
    decreases |b|
  {
    if |b| > 0 {
      var n := |b| - 1;
      assert (a + b)[..|a + b| - 1] == a + b[..n];
      assert (a + b)[|a + b| - 1] == b[n];
      PromptBodyAppend(a, b[..n]);
      ConcatAssociative(PromptBody(a), PromptBody(b[..n]), ChunkEntry(b[n]));
    } else {
      assert a + b == a;
    }
  }

  lemma SplitAround(chunks: seq<ChunkRow>, k: nat)
    requires k < |chunks|
    ensures chunks == (chunks[..k] + [chunks[k]]) + chunks[k + 1..]
  {
  }

  lemma PromptBodySnoc(chunks: seq<ChunkRow>, c: ChunkRow)
    ensures PromptBody(chunks + [c]) == PromptBody(chunks) + ChunkEntry(c)
  {
    assert (chunks + [c])[..|chunks|] == chunks;
  }

  /** Chunk `k`'s entry sits between the entries of the chunks before it and those after it. */
  lemma PromptBodyAt(chunks: seq<ChunkRow>, k: nat)
    requires k < |chunks|
    ensures PromptBody(chunks) == PromptBody(chunks[..k]) + ChunkEntry(chunks[k]) + PromptBody(chunks[k + 1..])
  {
    SplitAround(chunks, k);
    PromptBodyAppend(chunks[..k] + [chunks[k]], chunks[k + 1..]);
    PromptBodySnoc(chunks[..k], chunks[k]);
  }

  // ----- the reply -----

  /** The first choice's message, which Jackson may leave null. */
  datatype Completion = Completion(choices: Option<seq<Option<Policies.Message>>>)

  /** The HTTP call: a body (possibly null), or an exception. */
  datatype CallReply = Body(text: Option<string>) | CallError

  /** The brace slice: from the first `{` to the last `}` inclusive, when the first comes before the last. */
  function ExtractJson(text: string): (r: Option<string>)
    ensures r.Some? ==> |r.value| >= 2 && r.value[0] == '{' && r.value[|r.value| - 1] == '}'
    ensures r.Some? <==> 0 <= IndexOf(text, '{') < LastIndexOf(text, '}')
    ensures r.Some? ==> r.value == text[IndexOf(text, '{')..LastIndexOf(text, '}') + 1]
  {
    var start := IndexOf(text, '{');
    var end := LastIndexOf(text, '}');
    if start >= 0 && end > start then Some(text[start..end + 1]) else None
  }

  /** A brace slice is its own brace slice: repairing twice changes nothing. */
  lemma ExtractJsonIdempotent(text: string)
    requires ExtractJson(text).Some?
    ensures ExtractJson(ExtractJson(text).value) == ExtractJson(text)
  {
    var t := ExtractJson(text).value;
    assert IndexOf(t, '{') == 0;
    assert LastIndexOf(t, '}') == |t| - 1;
    assert t[0..|t|] == t;
  }

  /**
   * The repair recovers a JSON object wrapped in prose: with no `{` before
   * it and no `}` after it, the slice is exactly the object.
   */
  lemma ExtractJsonFindsWrapped(pre: string, json: string, post: string)
    requires |json| >= 2 && json[0] == '{' && json[|json| - 1] == '}'
    requires forall i | 0 <= i < |pre| :: pre[i] != '{'
    requires forall i | 0 <= i < |post| :: post[i] != '}'
    ensures ExtractJson(pre + json + post) == Some(json)
  {
    var text := pre + json + post;
    assert text[|pre|] == '{';
    assert text[|pre| + |json| - 1] == '}';
    assert forall i | 0 <= i < |pre| :: text[i] == pre[i];
    assert forall i | |pre| + |json| <= i < |text| :: text[i] == post[i - |pre| - |json|];
    var start := IndexOf(text, '{');
    var end := LastIndexOf(text, '}');
    assert start == |pre|;
    assert end == |pre| + |json| - 1;
    assert text[start..end + 1] == json;
  }

  /** `parseContent`: a direct decode, else a decode of the brace slice, else the empty extraction. */
  function ParseContent(content: string, decode: string -> Option<ExtractionResult>): (r: ExtractionResult)
    ensures decode(content).Some? ==> r == decode(content).value
    ensures decode(content).None? && ExtractJson(content).None? ==> r == EMPTY
    ensures decode(content).None? && ExtractJson(content).Some? ==> r == decode(ExtractJson(content).value).GetOr(EMPTY)
  {
    match decode(content)
    case Some(result) => result
    case None =>
      match ExtractJson(content)
      case None => EMPTY
      case Some(slice) => decode(slice).GetOr(EMPTY)
  }

  /**
   * Parsing invents nothing: a non-empty extraction is what the decoder
   * makes of some stretch of the content.
   */
  lemma ParseContentDecodes(content: string, decode: string -> Option<ExtractionResult>)
    ensures ParseContent(content, decode) == EMPTY
            || exists i, j | 0 <= i <= j <= |content| :: decode(content[i..j]) == Some(ParseContent(content, decode))
  {
    var r := ParseContent(content, decode);
    if decode(content).Some? {
      assert content[0..|content|] == content;
      assert decode(content[0..|content|]) == Some(r);
    } else if r != EMPTY {
      var i, j := IndexOf(content, '{'), LastIndexOf(content, '}') + 1;
      assert decode(content[i..j]) == Some(r);
    }
  }

  /**
   * A reply that does not decode because it wraps a decodable object in
   * prose without braces (a markdown fence, a preamble) still yields that
   * object.
   */
  lemma ParseRepairsWrappedJson(pre: string, json: string, post: string, decode: string -> Option<ExtractionResult>)
    requires |json| >= 2 && json[0] == '{' && json[|json| - 1] == '}'
    requires forall i | 0 <= i < |pre| :: pre[i] != '{'
    requires forall i | 0 <= i < |post| :: post[i] != '}'
    requires decode(pre + json + post).None? && decode(json).Some?
    ensures ParseContent(pre + json + post, decode) == decode(json).value
  {
    ExtractJsonFindsWrapped(pre, json, post);
  }

  /** `snippet`: the text cut to 500 characters, marked with "..." when cut. */
  function Snippet(text: Option<string>): (r: string)
    ensures text.None? ==> r == ""
    ensures text.Some? && |text.value| <= SNIPPET_LIMIT ==> r == text.value
    ensures text.Some? && |text.value| > SNIPPET_LIMIT ==>
              |r| == SNIPPET_LIMIT + 3 && r[..SNIPPET_LIMIT] == text.value[..SNIPPET_LIMIT] && r[SNIPPET_LIMIT..] == "..."
  {
    if text.None? then ""
    else if |text.value| > SNIPPET_LIMIT then text.value[..SNIPPET_LIMIT] + "..."
    else text.value
  }

  const SNIPPET_LIMIT: nat := 500

  /**
   * `extract`. Returns the extraction and the user prompt sent (`None` when
   * no call is made). `complete` is the HTTP call and `decodeCompletion`
   * the decoding of its body (`None` when Jackson throws).
   */
  function Extract(chunks: Option<seq<ChunkRow>>, complete: string -> CallReply,
                   decodeCompletion: string -> Option<Completion>,
                   decode: string -> Option<ExtractionResult>): (r: (ExtractionResult, Option<string>))
    ensures chunks.None? || |chunks.value| == 0 ==> r == (EMPTY, None)
    ensures chunks.Some? && |chunks.value| > 0 ==> r.1 == Some(PROMPT_HEAD + PromptBody(chunks.value))
    ensures r.1.Some? ==> r.0 == Interpret(complete(r.1.value), decodeCompletion, decode)
  {
    if chunks.None? || |chunks.value| == 0 then (EMPTY, None)
    else
      var prompt := PROMPT_HEAD + PromptBody(chunks.value);
      (Interpret(complete(prompt), decodeCompletion, decode), Some(prompt))
  }

  /** The reply's content, when every step up to it succeeds and it is not blank. */
  function ReplyContent(reply: CallReply, decodeCompletion: string -> Option<Completion>): Option<string> {
    if reply.CallError? || NullOrBlank(reply.text) then None
    else
      match decodeCompletion(reply.text.value)
      case None => None
      case Some(Completion(choices)) =>
        if choices.None? || |choices.value| == 0 || choices.value[0].None? then None
        else if NullOrBlank(choices.value[0].value.content) then None
        else choices.value[0].value.content
  }

  /** What `extract` makes of the HTTP outcome: every failure is caught and gives the empty extraction. */
  function Interpret(reply: CallReply, decodeCompletion: string -> Option<Completion>,
                     decode: string -> Option<ExtractionResult>): (r: ExtractionResult)
    ensures reply.CallError? || NullOrBlank(reply.text) ==> r == EMPTY
    ensures r != EMPTY ==> ReplyContent(reply, decodeCompletion).Some?
    ensures ReplyContent(reply, decodeCompletion).Some? ==> r == ParseContent(ReplyContent(reply, decodeCompletion).value, decode)
  {
    if reply.CallError? || NullOrBlank(reply.text) then EMPTY
    else
      match decodeCompletion(reply.text.value)
      case None => EMPTY
      case Some(Completion(choices)) =>
        if choices.None? || |choices.value| == 0 || choices.value[0].None? then EMPTY
        else
          var content := choices.value[0].value.content;
          if NullOrBlank(content) then EMPTY else ParseContent(content.value, decode)
  }
}

=== FILE: filters.dfy ===
/**
 * The two servlet filters in front of every endpoint: `ApiKeyFilter`
 * (order 1), which demands the configured key in `X-API-KEY`, and
 * `RateLimitFilter` (order 2), a fixed one-minute window counter per
 * client address.
 */
module Filters {
  import opened Wrappers
  import opened Chars

  /** What a filter does with a request: hand it on, or answer it itself. */
  datatype Decision = Forward | Reject(status: int, body: string)

  // ----- ApiKeyFilter -----

  const UNAUTHORIZED: int := 401

  /**
   * `ApiKeyFilter`: with no key configured (null or blank) every request
   * passes; otherwise the `X-API-KEY` header must equal the key exactly.
   */
  function CheckApiKey(apiKey: Option<string>, provided: Option<string>): (d: Decision)
    ensures d.Forward? <==> NullOrBlank(apiKey) || provided == apiKey
    ensures d.Reject? ==> d == Reject(UNAUTHORIZED, "Unauthorized")
  {
    if NullOrBlank(apiKey) then Forward
    else if provided != apiKey then Reject(UNAUTHORIZED, "Unauthorized")
    else Forward
  }

  // ----- RateLimitFilter -----

  const TOO_MANY_REQUESTS: int := 429

  /** The length of one counting window, in milliseconds. */
  const WINDOW_MS: int := 60_000

  /** The `ratelimit.per-minute` default. */
  const DEFAULT_PER_MINUTE: int := 60

  /** A client's current window: when it opened and how many requests it has seen. */
  datatype Window = Window(start: int, count: int)

  /** The per-address windows; an address has none until its first counted request. */
  type Counters = map<string, Window>

  /**
   * The window a request at `now` is counted in: the client's window, a new
   * one opened at `now` if it has none, reset to `now` with a zero count once
   * a full minute has passed since it opened.
   */
  function Current(counters: Counters, key: string, now: int): (w: Window)
    ensures key !in counters ==> w == Window(now, 0)
    ensures key in counters && now - counters[key].start < WINDOW_MS ==> w == counters[key]
    ensures key in counters && now - counters[key].start >= WINDOW_MS ==> w == Window(now, 0)
  {
    var w := if key in counters then counters[key] else Window(now, 0);
    if now - w.start >= WINDOW_MS then Window(now, 0) else w
  }

  /**
   * `RateLimitFilter`: a positive limit counts the request in the client's
   * window (rejected requests count too) and rejects it once the count
   * exceeds the limit; a limit of zero or less turns the filter off.
   */
  function RateLimit(maxPerMinute: int, counters: Counters, key: string, now: int): (r: (Decision, Counters))
    ensures maxPerMinute <= 0 ==> r == (Forward, counters)
    ensures r.0.Reject? ==> r.0 == Reject(TOO_MANY_REQUESTS, "Rate limit exceeded")
  {
    if maxPerMinute <= 0 then (Forward, counters)
    else
      var w := Current(counters, key, now);
      var counted := Window(w.start, w.count + 1);
      var updated := counters[key := counted];
      if counted.count > maxPerMinute then (Reject(TOO_MANY_REQUESTS, "Rate limit exceeded"), updated)
      else (Forward, updated)
  }

  /**
   * One counted request: only the client's own window changes, it gains one
   * request, and the request passes exactly when the new count is within
   * the limit.
   */
  lemma RateLimitCounts(maxPerMinute: int, counters: Counters, key: string, now: int)
    requires maxPerMinute > 0
    ensures RateLimit(maxPerMinute, counters, key, now).1.Keys == counters.Keys + {key}
    ensures forall other | other in counters && other != key ::
              RateLimit(maxPerMinute, counters, key, now).1[other] == counters[other]
    ensures RateLimit(maxPerMinute, counters, key, now).1[key]
            == Window(Current(counters, key, now).start, Current(counters, key, now).count + 1)
    ensures RateLimit(maxPerMinute, counters, key, now).0.Forward?
            <==> RateLimit(maxPerMinute, counters, key, now).1[key].count <= maxPerMinute
  {
  }

  /** Feeds one client's requests, at the given instants, through the filter; the result counts those forwarded. */
  function Run(maxPerMinute: int, counters: Counters, key: string, times: seq<int>): (r: (nat, Counters))
    ensures r.0 <= |times|
    decreases |times|
  {
    if |times| == 0 then (0, counters)
    else
      var (d, next) := RateLimit(maxPerMinute, counters, key, times[0]);
      var (rest, final) := Run(maxPerMinute, next, key, times[1..]);
      (if d.Forward? then rest + 1 else rest, final)
  }

  /** How many more requests a window that has counted `count` lets through. */
  function Allowance(maxPerMinute: int, count: int): int {
    if count >= maxPerMinute then 0 else maxPerMinute - count
  }

  /** True when every instant falls inside the minute that opened at `start`. */
  predicate WithinWindow(start: int, times: seq<int>) {
    forall k | 0 <= k < |times| :: times[k] - start < WINDOW_MS
  }

  /**
   * The fixed-window guarantee: while a client's window stays open, it gets
   * at most the limit's remainder of requests through, and every request
   * (forwarded or not) is added to the window's count.
   */
  lemma {:induction false} RunWithinWindow(maxPerMinute: int, counters: Counters, key: string, times: seq<int>)
    requires maxPerMinute > 0
    requires key in counters && WithinWindow(counters[key].start, times)
    ensures Run(maxPerMinute, counters, key, times).0 <= Allowance(maxPerMinute, counters[key].count)
    ensures key in Run(maxPerMinute, counters, key, times).1
    ensures Run(maxPerMinute, counters, key, times).1[key]
            == Window(counters[key].start, counters[key].count + |times|)
    decreases |times|
  {
    if |times| > 0 {
      var (d, next) := RateLimit(maxPerMinute, counters, key, times[0]);
      assert times[0] - counters[key].start < WINDOW_MS;
      assert next[key] == Window(counters[key].start, counters[key].count + 1);
      assert WithinWindow(next[key].start, times[1..]) by {
        forall k | 0 <= k < |times[1..]| ensures times[1..][k] - next[key].start < WINDOW_MS {
          assert times[1..][k] == times[k + 1];
        }
      }
      RunWithinWindow(maxPerMinute, next, key, times[1..]);
    }
  }

  /**
   * A client never seen before (or whose window has run out) starts a
   * fresh window at `now`: its request is counted as the first and passes
   * whenever the filter is on.
   */
  lemma FreshWindowPasses(maxPerMinute: int, counters: Counters, key: string, now: int)
    requires maxPerMinute > 0
    requires key !in counters || now - counters[key].start >= WINDOW_MS
    ensures RateLimit(maxPerMinute, counters, key, now).0 == Forward
    ensures RateLimit(maxPerMinute, counters, key, now).1[key] == Window(now, 1)
  {
  }

  // ----- the filter chain -----

  /**
   * The chain as ordered: the API-key check first, the rate limiter only
   * for requests that carried the right key.
   */
  function Admit(apiKey: Option<string>, maxPerMinute: int, counters: Counters,
                 provided: Option<string>, key: string, now: int): (r: (Decision, Counters))
  {
    match CheckApiKey(apiKey, provided)
    case Reject(status, body) => (Reject(status, body), counters)
    case Forward => RateLimit(maxPerMinute, counters, key, now)
  }

  /**
   * A request without the right key is answered 401 and uses up none of
   * its address's allowance; one with it is decided by the rate limiter.
   */
  lemma AdmitOrder(apiKey: Option<string>, maxPerMinute: int, counters: Counters,
                   provided: Option<string>, key: string, now: int)
    ensures !NullOrBlank(apiKey) && provided != apiKey ==>
              Admit(apiKey, maxPerMinute, counters, provided, key, now) == (Reject(UNAUTHORIZED, "Unauthorized"), counters)
    ensures NullOrBlank(apiKey) || provided == apiKey ==>
              Admit(apiKey, maxPerMinute, counters, provided, key, now) == RateLimit(maxPerMinute, counters, key, now)
  {
  }
}

=== FILE: graph.dfy ===
/**
 * The knowledge-graph tables and the key and lookup helpers of
 * `KgIngestionJob`. Tables whose ids the database generates in sequence
 * (entities, aliases, events, participants) are append-only arenas: a row's
 * id is its position. Relations carry random ids that nothing reads, so
 * they are a plain list too.
 */
module Graph {
  import opened Wrappers
  import opened Chars
  import opened Model

  type EntityId = nat
  type EventId = nat

  /** A row of `entities`. Every entity the service creates has a name. */
  datatype GraphEntity = GraphEntity(
    name: string,
    canonicalKey: Option<string>,
    entityType: Option<string>,
    description: Option<string>)

  /** A row of `entity_aliases`. */
  datatype EntityAlias = EntityAlias(entity: EntityId, alias: string, language: Option<string>)

  /** A row of `events`; `document` is null when the document row is gone. */
  datatype Event = Event(
    document: Option<Uuid>,
    name: string,
    eventType: Option<string>,
    eventCategory: Option<string>,
    chapter: Option<string>,
    location: Option<string>,
    startYear: Option<int>,
    endYear: Option<int>)

  /** A row of `event_participants`. */
  datatype Participant = Participant(
    actor: EntityId,
    event: EventId,
    role: Option<string>,
    outcome: Option<string>,
    document: Option<Uuid>,
    chunkId: Option<Uuid>)

  /** A row of `relations`. */
  datatype Relation = Relation(
    subject: Option<EntityId>,
    predicateName: Option<string>,
    objectEntity: Option<EntityId>,
    objectText: Option<string>,
    documentId: Option<Uuid>,
    chunkId: Option<Uuid>)

  /** The graph tables. */
  datatype Tables = Tables(
    entities: seq<GraphEntity>,
    aliases: seq<EntityAlias>,
    events: seq<Event>,
    participants: seq<Participant>,
    relations: seq<Relation>)

  /** Every reference points at an existing row (the foreign keys). */
  predicate WellFormed(t: Tables) {
    && AliasesIn(t.aliases, |t.entities|)
    && ParticipantsIn(t.participants, |t.entities|, |t.events|)
    && RelationsIn(t.relations, |t.entities|)
  }

  predicate AliasesIn(aliases: seq<EntityAlias>, entityCount: nat) {
    forall k | 0 <= k < |aliases| :: aliases[k].entity < entityCount
  }

  predicate ParticipantsIn(ps: seq<Participant>, entityCount: nat, eventCount: nat) {
    forall k | 0 <= k < |ps| :: ps[k].actor < entityCount && ps[k].event < eventCount
  }

  predicate RelationsIn(rels: seq<Relation>, entityCount: nat) {
    forall k | 0 <= k < |rels| :: RelationInRange(rels[k], entityCount)
  }

  predicate RelationInRange(r: Relation, n: nat) {
    && (r.subject.Some? ==> r.subject.value < n)
    && (r.objectEntity.Some? ==> r.objectEntity.value < n)
  }

  // ----- normalizeKey -----

  /** `normalizeKey`: trimmed, lower-cased, every whitespace run turned into `_`; null gives "". */
  function NormalizeKey(input: Option<string>): (k: string)
    ensures forall i | 0 <= i < |k| :: !IsRegexSpace(k[i])
    ensures input.None? ==> k == ""
  {
    if input.None? then ""
    else
      ReplaceSpaceRunsFrom(Lower(Trim(input.value)), '_');
      ReplaceSpaceRuns(Lower(Trim(input.value)), '_')
  }

  /** A normalised key has no upper-case letters. */
  lemma NormalizeKeyLowerFree(input: Option<string>)
    ensures NoAsciiUpper(NormalizeKey(input))
  {
    if input.Some? {
      var k := NormalizeKey(input);
      var lowered := Lower(Trim(input.value));
      ReplaceSpaceRunsFrom(lowered, '_');
      forall i | 0 <= i < |k| ensures !IsAsciiUpper(k[i]) {
        if k[i] != '_' {
          var j :| 0 <= j < |lowered| && lowered[j] == k[i];
        }
      }
    }
  }

  /** A normalised key starts and ends with a character `trim` keeps. */
  lemma NormalizeKeyTrimmed(input: Option<string>)
    ensures Trim(NormalizeKey(input)) == NormalizeKey(input)
  {
    if input.Some? {
      var trimmed := Trim(input.value);
      LowerKeepsEnds(trimmed);
      ReplaceSpaceRunsTrimmed(Lower(trimmed), '_');
    }
  }

  /** A normalised key normalises to itself. */
  lemma NormalizeKeyIdempotent(input: Option<string>)
    ensures NormalizeKey(Some(NormalizeKey(input))) == NormalizeKey(input)
  {
    var k := NormalizeKey(input);
    NormalizeKeyTrimmed(input);
    NormalizeKeyLowerFree(input);
    LowerOfLowerFree(k);
    ReplaceSpaceRunsNoSpaces(k, '_');
  }

  // ----- the lookup maps -----

  /**
   * `Collectors.toMap(key, e -> e, (a, b) -> a)` over the rows in id order:
   * each key maps to the first row that has it.
   */
  function FirstIndex(keys: seq<string>): (m: map<string, nat>)
    ensures forall k | k in m :: m[k] < |keys| && keys[m[k]] == k
    ensures forall k | k in m :: forall j | 0 <= j < m[k] :: keys[j] != k
    ensures forall i | 0 <= i < |keys| :: keys[i] in m
  {
    if |keys| == 0 then map[]
    else
      var init := keys[..|keys| - 1];
      var m := FirstIndex(init);
      var last := keys[|keys| - 1];
      assert forall i | 0 <= i < |init| :: init[i] == keys[i];
      if last in m then m else m[last := |keys| - 1]
  }

  /** The `byName` keys: each entity's name, lower-cased. */
  function NameKeys(es: seq<GraphEntity>): (r: seq<string>)
    ensures |r| == |es|
    ensures forall i | 0 <= i < |es| :: r[i] == Lower(es[i].name)
  {
    seq(|es|, i requires 0 <= i < |es| => Lower(es[i].name))
  }

  /** The `byCanonical` keys: each entity's key, lower-cased, "" when null. */
  function CanonicalKeys(es: seq<GraphEntity>): (r: seq<string>)
    ensures |r| == |es|
    ensures forall i | 0 <= i < |es| :: r[i] == Lower(es[i].canonicalKey.GetOr(""))
  {
    seq(|es|, i requires 0 <= i < |es| => Lower(es[i].canonicalKey.GetOr("")))
  }

  /** The two maps `resolveEntity` consults and extends during one document. */
  datatype Memo = Memo(byName: map<string, EntityId>, byCanonical: map<string, EntityId>)

  /** The maps built from the entities table after the entity upsert. */
  function BuildMemo(es: seq<GraphEntity>): (m: Memo)
    ensures MemoOk(m, es)
  {
    Memo(FirstIndex(NameKeys(es)), FirstIndex(CanonicalKeys(es)))
  }

  /** Every memo entry names an existing entity under that entity's own key. */
  predicate MemoOk(m: Memo, es: seq<GraphEntity>) {
    && (forall k | k in m.byName :: m.byName[k] < |es| && Lower(es[m.byName[k]].name) == k)
    && (forall k | k in m.byCanonical :: m.byCanonical[k] < |es| && Lower(es[m.byCanonical[k]].canonicalKey.GetOr("")) == k)
  }

  /** No two entities share a canonical key: the key is an entity's identity. */
  predicate UniqueKeys(es: seq<GraphEntity>) {
    forall i, j | 0 <= i < j < |es| && es[i].canonicalKey.Some? :: es[i].canonicalKey != es[j].canonicalKey
  }

  /** Every entity is reachable in `byCanonical` under its lower-cased key. */
  predicate MemoCovers(m: Memo, es: seq<GraphEntity>) {
    forall i | 0 <= i < |es| :: Lower(es[i].canonicalKey.GetOr("")) in m.byCanonical
  }

  /** The maps built from the table reach every entity. */
  lemma BuildMemoCovers(es: seq<GraphEntity>)
    ensures MemoCovers(BuildMemo(es), es)
  {
    var keys := CanonicalKeys(es);
    assert forall i | 0 <= i < |es| :: keys[i] in FirstIndex(keys);
  }

  /** The outcome of `resolveEntity`: the entity, and the memo and entities table afterwards. */
  datatype Resolved = Resolved(id: EntityId, memo: Memo, entities: seq<GraphEntity>)

  /** Filing a new entity for a name under both of its keys keeps the maps consistent. */
  lemma MemoExtend(name: string, memo: Memo, es: seq<GraphEntity>)
    requires MemoOk(memo, es)
    ensures var key := NormalizeKey(Some(name));
            var es' := es + [GraphEntity(name, Some(key), None, None)];
            MemoOk(Memo(memo.byName[Lower(name) := |es|], memo.byCanonical[key := |es|]), es')
  {
    var key := NormalizeKey(Some(name));
    var es' := es + [GraphEntity(name, Some(key), None, None)];
    assert forall i | 0 <= i < |es| :: es'[i] == es[i];
    NormalizeKeyLowerFree(Some(name));
    LowerOfLowerFree(key);
    LowerIdempotent(name);
  }

  /**
   * `resolveEntity`: the entity under the name's normalised key, else the
   * one under its lower-cased name, else a new entity with that name and
   * key, registered in both maps.
   */
  function ResolveEntity(name: string, memo: Memo, es: seq<GraphEntity>): (r: Resolved)
    requires MemoOk(memo, es)
    ensures MemoOk(r.memo, r.entities)
    ensures r.id < |r.entities|
    ensures es <= r.entities && |r.entities| <= |es| + 1
    ensures |r.entities| == |es| + 1 <==>
              NormalizeKey(Some(name)) !in memo.byCanonical && Lower(name) !in memo.byName
    ensures |r.entities| == |es| + 1 ==>
              && r.id == |es|
              && r.entities[r.id] == GraphEntity(name, Some(NormalizeKey(Some(name))), None, None)
  {
    var key := NormalizeKey(Some(name));
    if key in memo.byCanonical then Resolved(memo.byCanonical[key], memo, es)
    else if Lower(name) in memo.byName then Resolved(memo.byName[Lower(name)], memo, es)
    else
      MemoExtend(name, memo, es);
      Resolved(|es|, Memo(memo.byName[Lower(name) := |es|], memo.byCanonical[key := |es|]),
               es + [GraphEntity(name, Some(key), None, None)])
  }

  /**
   * Within one document a name resolves once: asking again with the maps
   * the first call returned gives the same entity and creates nothing.
   */
  lemma ResolveTwice(name: string, memo: Memo, es: seq<GraphEntity>)
    requires MemoOk(memo, es)
    ensures ResolveEntity(name, ResolveEntity(name, memo, es).memo, ResolveEntity(name, memo, es).entities)
            == ResolveEntity(name, memo, es)
  {
  }

  /**
   * `resolveEntity` never creates a second entity for a key: with maps that
   * reach every entity, the key it creates is one no entity has yet.
   */
  lemma ResolveKeepsKeysUnique(name: string, memo: Memo, es: seq<GraphEntity>)
    requires MemoOk(memo, es) && MemoCovers(memo, es) && UniqueKeys(es)
    ensures MemoCovers(ResolveEntity(name, memo, es).memo, ResolveEntity(name, memo, es).entities)
    ensures UniqueKeys(ResolveEntity(name, memo, es).entities)
  {
    var key := NormalizeKey(Some(name));
    if key !in memo.byCanonical && Lower(name) !in memo.byName {
      NormalizeKeyLowerFree(Some(name));
      LowerOfLowerFree(key);
      forall i | 0 <= i < |es| ensures es[i].canonicalKey != Some(key) {
        assert Lower(es[i].canonicalKey.GetOr("")) in memo.byCanonical;
      }
      var e := GraphEntity(name, Some(key), None, None);
      AppendFreshKey(es, e, key);
      CoverAppended(memo.byCanonical, es, e, |es|);
    }
  }

  /** An entity whose key no other entity has keeps the keys unique. */
  lemma AppendFreshKey(es: seq<GraphEntity>, e: GraphEntity, key: string)
    requires UniqueKeys(es) && e.canonicalKey == Some(key)
    requires forall i | 0 <= i < |es| :: es[i].canonicalKey != Some(key)
    ensures UniqueKeys(es + [e])
  {
    var es' := es + [e];
    assert forall i | 0 <= i < |es| :: es'[i] == es[i];
  }

  /** Registering a new entity under its own lower-cased key keeps the canonical map covering. */
  lemma CoverAppended(byCanonical: map<string, EntityId>, es: seq<GraphEntity>, e: GraphEntity, id: EntityId)
    requires forall i | 0 <= i < |es| :: Lower(es[i].canonicalKey.GetOr("")) in byCanonical
    requires Lower(e.canonicalKey.GetOr("")) == e.canonicalKey.GetOr("")
    ensures MemoCovers(Memo(map[], byCanonical[e.canonicalKey.GetOr("") := id]), es + [e])
  {
    var es' := es + [e];
    assert forall i | 0 <= i < |es| :: es'[i] == es[i];
  }

  /** `HashMap.put` applied to each entry in turn: a later entry overwrites an earlier one. */
  function PutAll<K(==), V>(m: map<K, V>, entries: seq<(K, V)>): map<K, V>
    decreases |entries|
  {
    if |entries| == 0 then m else PutAll(m[entries[0].0 := entries[0].1], entries[1..])
  }

  /** Entry `i` has the key and no later entry does. */
  predicate LastAt<K(==), V>(entries: seq<(K, V)>, key: K, i: int) {
    0 <= i < |entries| && entries[i].0 == key && forall j | i < j < |entries| :: entries[j].0 != key
  }

  /** The value of the last entry with the given key, found from the end. */
  function LastWith<K(==), V>(entries: seq<(K, V)>, key: K): (r: Option<V>)
    ensures r.None? <==> forall i | 0 <= i < |entries| :: entries[i].0 != key
    ensures r.Some? ==> exists i :: LastAt(entries, key, i) && entries[i].1 == r.value
    decreases |entries|
  {
    if |entries| == 0 then None
    else if entries[|entries| - 1].0 == key then
      assert LastAt(entries, key, |entries| - 1);
      Some(entries[|entries| - 1].1)
    else
      var init := entries[..|entries| - 1];
      var r := LastWith(init, key);
      assert forall i | 0 <= i < |init| :: init[i] == entries[i];
      assert r.Some? ==> exists i :: LastAt(entries, key, i) && entries[i].1 == r.value by {
        if r.Some? {
          var i :| LastAt(init, key, i) && init[i].1 == r.value;
          assert LastAt(entries, key, i);
        }
      }
      r
  }

  /** Putting a sequence of entries then one more is putting the longer sequence. */
  lemma {:induction false} PutAllSnoc<K, V>(m: map<K, V>, entries: seq<(K, V)>, e: (K, V))
    ensures PutAll(m, entries + [e]) == PutAll(m, entries)[e.0 := e.1]
    decreases |entries|
  {
    if |entries| > 0 {
      assert (entries + [e])[1..] == entries[1..] + [e];
      PutAllSnoc(m[entries[0].0 := entries[0].1], entries[1..], e);
    }
  }

  /**
   * The map a loop of `put`s builds holds, for each key, the last entry's
   * value, and the starting map's value for keys no entry has.
   */
  lemma {:induction false} PutAllLastWins<K, V>(m: map<K, V>, entries: seq<(K, V)>, key: K)
    ensures key in PutAll(m, entries) <==> key in m || LastWith(entries, key).Some?
    ensures LastWith(entries, key).Some? ==> PutAll(m, entries)[key] == LastWith(entries, key).value
    ensures LastWith(entries, key).None? && key in m ==> PutAll(m, entries)[key] == m[key]
    decreases |entries|
  {
    if |entries| > 0 {
      var init := entries[..|entries| - 1];
      var last := entries[|entries| - 1];
      assert entries == init + [last];
      PutAllSnoc(m, init, last);
      PutAllLastWins(m, init, key);
    }
  }

  // ----- relationHash -----

  /** String concatenation of a possibly-null Java string. */
  function NullText(s: Option<string>): string {
    if s.None? then "null" else s.value
  }

  /** The key text of a stored entity (a dangling id, which the foreign keys rule out, reads as null). */
  function KeyText(es: seq<GraphEntity>, id: EntityId): string {
    if id < |es| then NullText(es[id].canonicalKey) else "null"
  }

  /**
   * `relationHash`: the subject's key, the trimmed lower-cased predicate and
   * the object's key (or the trimmed lower-cased object text), joined by `|`.
   */
  function RelationHash(es: seq<GraphEntity>, subject: Option<EntityId>, predicateName: Option<string>,
                        objectText: Option<string>, objectEntity: Option<EntityId>): string
  {
    var subj := if subject.None? then "" else KeyText(es, subject.value);
    var pred := if predicateName.None? then "" else Lower(Trim(predicateName.value));
    var obj := if objectEntity.Some? then KeyText(es, objectEntity.value)
               else if objectText.None? then "" else Lower(Trim(objectText.value));
    subj + "|" + pred + "|" + obj
  }

  /** The hash of a stored relation. */
  function StoredHash(es: seq<GraphEntity>, r: Relation): string {
    RelationHash(es, r.subject, r.predicateName, r.objectText, r.objectEntity)
  }

  /** Adding entities does not change the hash of a relation among the existing ones. */
  lemma StoredHashStable(es: seq<GraphEntity>, more: seq<GraphEntity>, r: Relation)
    requires es <= more && RelationInRange(r, |es|)
    ensures StoredHash(more, r) == StoredHash(es, r)
  {
  }
}

=== FILE: graph_writes.dfy ===
/**
 * What `KgIngestionJob.processDocument` writes for one document: entities
 * and their aliases, events, participants and relations, in that order.
 * Each step either completes or throws; a throw leaves the rows written so
 * far in place and stops the pass.
 */
module GraphWrites {
  import opened Wrappers
  import opened Chars
  import opened Model
  import opened Graph
  import opened Extraction

  /** The exceptions a document pass can end with. */
  datatype Fault =
    | NullEntities             // the extraction has no entity list
    | NullEvents               // ... no event list
    | NullParticipants         // ... no participant list
    | DuplicateKey(key: string) // `findByCanonicalKey` matched more than one row

  /** The tables after a pass, and the exception that ended it, if any. */
  datatype Step = Step(tables: Tables, fault: Option<Fault>)

  /** Every table of `t'` starts with the rows of `t`: rows are only ever added. */
  predicate Extends(t: Tables, t': Tables) {
    && t.entities <= t'.entities
    && t.aliases <= t'.aliases
    && t.events <= t'.events
    && t.participants <= t'.participants
    && t.relations <= t'.relations
  }

  /** Some entity has exactly this canonical key. */
  predicate HasKey(es: seq<GraphEntity>, key: string) {
    exists i | 0 <= i < |es| :: es[i].canonicalKey == Some(key)
  }

  lemma HasKeyGrows(es: seq<GraphEntity>, es': seq<GraphEntity>, key: string)
    requires es <= es' && HasKey(es, key)
    ensures HasKey(es', key)
  {
    var i :| 0 <= i < |es| && es[i].canonicalKey == Some(key);
    assert es'[i] == es[i];
  }

  /** Within each document no two relations have the same hash. */
  predicate HashesDistinct(es: seq<GraphEntity>, rels: seq<Relation>) {
    forall i, j | 0 <= i < j < |rels| && rels[i].documentId.Some? && rels[i].documentId == rels[j].documentId ::
      StoredHash(es, rels[i]) != StoredHash(es, rels[j])
  }

  /** What the graph tables keep true from one document pass to the next. */
  predicate Consistent(t: Tables) {
    WellFormed(t) && UniqueKeys(t.entities) && HashesDistinct(t.entities, t.relations)
  }

  /** New entities leave the hashes of the stored relations, and so their distinctness, as they were. */
  lemma HashesDistinctGrows(es: seq<GraphEntity>, es': seq<GraphEntity>, rels: seq<Relation>)
    requires es <= es'
    requires forall k | 0 <= k < |rels| :: RelationInRange(rels[k], |es|)
    ensures forall k | 0 <= k < |rels| :: StoredHash(es', rels[k]) == StoredHash(es, rels[k])
    ensures HashesDistinct(es, rels) ==> HashesDistinct(es', rels)
  {
    forall k | 0 <= k < |rels| ensures StoredHash(es', rels[k]) == StoredHash(es, rels[k]) {
      StoredHashStable(es, es', rels[k]);
    }
  }

  /** Appending rows that reference existing rows keeps every reference in range. */
  lemma AliasesGrow(aliases: seq<EntityAlias>, added: seq<EntityAlias>, n: nat, n': nat)
    requires AliasesIn(aliases, n) && n <= n' && AliasesIn(added, n')
    ensures AliasesIn(aliases + added, n')
  {
  }

  lemma ParticipantsGrow(ps: seq<Participant>, added: seq<Participant>, ne: nat, nv: nat, ne': nat, nv': nat)
    requires ParticipantsIn(ps, ne, nv) && ne <= ne' && nv <= nv' && ParticipantsIn(added, ne', nv')
    ensures ParticipantsIn(ps + added, ne', nv')
  {
  }

  /**
   * A step that adds entities (keeping keys unique), aliases, events and
   * participants, all referencing existing rows, and no relations, keeps
   * the tables consistent.
   */
  lemma Grow(t: Tables, t': Tables, newAliases: seq<EntityAlias>, newParticipants: seq<Participant>)
    requires Consistent(t)
    requires t.entities <= t'.entities && UniqueKeys(t'.entities)
    requires t'.aliases == t.aliases + newAliases && AliasesIn(newAliases, |t'.entities|)
    requires t.events <= t'.events
    requires t'.participants == t.participants + newParticipants
    requires ParticipantsIn(newParticipants, |t'.entities|, |t'.events|)
    requires t'.relations == t.relations
    ensures Consistent(t')
  {
    AliasesGrow(t.aliases, newAliases, |t.entities|, |t'.entities|);
    ParticipantsGrow(t.participants, newParticipants, |t.entities|, |t.events|, |t'.entities|, |t'.events|);
    HashesDistinctGrows(t.entities, t'.entities, t.relations);
  }

  /**
   * Adding one relation of a document whose hash differs from that of
   * every relation already stored for the document keeps the tables
   * consistent.
   */
  lemma GrowRelation(t: Tables, row: Relation)
    requires Consistent(t) && RelationInRange(row, |t.entities|) && row.documentId.Some?
    requires forall k | 0 <= k < |t.relations| && t.relations[k].documentId == row.documentId ::
               StoredHash(t.entities, t.relations[k]) != StoredHash(t.entities, row)
    ensures Consistent(t.(relations := t.relations + [row]))
  {
    var rels := t.relations + [row];
    assert forall k | 0 <= k < |t.relations| :: rels[k] == t.relations[k];
  }

  // ----- upsertEntities -----

  /** How `findByCanonicalKey` ends: no row, one row, or an exception for several. */
  datatype Lookup = Missing | Found(id: EntityId) | Ambiguous

  /** `findByCanonicalKey`: the one entity with exactly this key. */
  function FindByCanonicalKey(es: seq<GraphEntity>, key: string): (r: Lookup)
    ensures r.Missing? <==> !HasKey(es, key)
    ensures r.Found? ==> r.id < |es| && es[r.id].canonicalKey == Some(key)
    ensures r.Ambiguous? ==> !UniqueKeys(es)
    decreases |es|
  {
    if |es| == 0 then Missing
    else
      var init := es[..|es| - 1];
      assert forall i | 0 <= i < |init| :: init[i] == es[i];
      var r := FindByCanonicalKey(init, key);
      if es[|es| - 1].canonicalKey != Some(key) then r
      else if r.Missing? then Found(|es| - 1)
      else
        assert !UniqueKeys(init) || es[r.id].canonicalKey == Some(key);
        Ambiguous
  }

  /** The key an extracted entity is filed under: its own key trimmed and lower-cased, else its name's. */
  function EntityKey(e: ExtractedEntity): string
    requires e.name.Some?
  {
    if NullOrBlank(e.canonicalKey) then NormalizeKey(e.name) else Lower(Trim(e.canonicalKey.value))
  }

  /** One alias row per non-blank alias, in order, with no language. */
  function AliasRows(entity: EntityId, aliases: seq<Option<string>>): (rows: seq<EntityAlias>)
    ensures |rows| <= |aliases|
    ensures forall k | 0 <= k < |rows| :: rows[k].entity == entity && rows[k].language.None? && !IsBlank(rows[k].alias)
    ensures forall k | 0 <= k < |aliases| && !NullOrBlank(aliases[k]) :: EntityAlias(entity, aliases[k].value, None) in rows
    decreases |aliases|
  {
    if |aliases| == 0 then []
    else
      var rest := AliasRows(entity, aliases[1..]);
      assert forall k | 1 <= k < |aliases| :: aliases[1..][k - 1] == aliases[k];
      if NullOrBlank(aliases[0]) then rest else [EntityAlias(entity, aliases[0].value, None)] + rest
  }

  /**
   * One iteration of `upsertEntities`: an entity with a blank name is
   * skipped; otherwise the entity with its key is created when there is
   * none, and its aliases are added either way.
   */
  function UpsertOne(t: Tables, e: ExtractedEntity): (r: Result<Tables, Fault>)
    ensures r.Failure? ==> !UniqueKeys(t.entities)
    ensures r.Success? ==> (Extends(t, r.value) && r.value.events == t.events
              && r.value.participants == t.participants && r.value.relations == t.relations)
    ensures r.Success? && !NullOrBlank(e.name) ==> HasKey(r.value.entities, EntityKey(e))
    ensures r.Success? && !NullOrBlank(e.name) ==>
              (|r.value.entities| == |t.entities| + 1 <==> !HasKey(t.entities, EntityKey(e)))
    ensures r.Success? && NullOrBlank(e.name) ==> r.value == t
  {
    if NullOrBlank(e.name) then Success(t)
    else
      var key := EntityKey(e);
      var aliases := e.aliases.GetOr([]);
      match FindByCanonicalKey(t.entities, key)
      case Ambiguous => Failure(DuplicateKey(key))
      case Found(id) => Success(t.(aliases := t.aliases + AliasRows(id, aliases)))
      case Missing =>
        var id := |t.entities|;
        var es := t.entities + [GraphEntity(e.name.value, Some(key), e.entityType, e.description)];
        assert es[id].canonicalKey == Some(key);
        Success(t.(entities := es, aliases := t.aliases + AliasRows(id, aliases)))
  }

  /** `upsertEntities` keeps the tables consistent; in particular it never adds a second entity for a key. */
  lemma UpsertOneConsistent(t: Tables, e: ExtractedEntity)
    requires Consistent(t)
    ensures UpsertOne(t, e).Success? && Consistent(UpsertOne(t, e).value)
  {
    var t' := UpsertOne(t, e).value;
    if !NullOrBlank(e.name) {
      var key := EntityKey(e);
      var aliases := e.aliases.GetOr([]);
      match FindByCanonicalKey(t.entities, key)
      case Found(id) =>
        Grow(t, t', AliasRows(id, aliases), []);
      case Missing =>
        var es := t'.entities;
        assert es == t.entities + [es[|t.entities|]];
        AppendFreshKey(t.entities, es[|t.entities|], key);
        Grow(t, t', AliasRows(|t.entities|, aliases), []);
    }
  }

  /** The entity loop; it stops at the first exception. */
  function UpsertAll(t: Tables, xs: seq<ExtractedEntity>): (r: Step)
    ensures Extends(t, r.tables) && r.tables.events == t.events
            && r.tables.participants == t.participants && r.tables.relations == t.relations
    decreases |xs|
  {
    if |xs| == 0 then Step(t, None)
    else
      match UpsertOne(t, xs[0])
      case Failure(f) => Step(t, Some(f))
      case Success(t') => UpsertAll(t', xs[1..])
  }

  /** `upsertEntities`: a null list throws before anything is written. */
  function UpsertEntities(t: Tables, extracted: Option<seq<ExtractedEntity>>): (r: Step)
    ensures extracted.None? ==> r == Step(t, Some(NullEntities))
    ensures Extends(t, r.tables)
  {
    if extracted.None? then Step(t, Some(NullEntities)) else UpsertAll(t, extracted.value)
  }

  /**
   * On consistent tables the entity loop never throws, keeps the tables
   * consistent, and leaves every named entity's key in the table.
   */
  lemma {:induction false} UpsertAllStoresKeys(t: Tables, xs: seq<ExtractedEntity>)
    requires Consistent(t)
    ensures UpsertAll(t, xs).fault.None?
    ensures Consistent(UpsertAll(t, xs).tables)
    ensures forall k | 0 <= k < |xs| && !NullOrBlank(xs[k].name) :: HasKey(UpsertAll(t, xs).tables.entities, EntityKey(xs[k]))
    decreases |xs|
  {
    if |xs| > 0 {
      UpsertOneConsistent(t, xs[0]);
      var t' := UpsertOne(t, xs[0]).value;
      UpsertAllStoresKeys(t', xs[1..]);
      var final := UpsertAll(t', xs[1..]).tables;
      assert UpsertAll(t, xs).tables == final;
      forall k | 0 <= k < |xs| && !NullOrBlank(xs[k].name) ensures HasKey(final.entities, EntityKey(xs[k])) {
        if k == 0 {
          HasKeyGrows(t'.entities, final.entities, EntityKey(xs[0]));
        } else {
          assert xs[1..][k - 1] == xs[k];
        }
      }
    }
  }

  // ----- createEvents -----

  /** The event row for an extracted event, tied to the document when it still exists. */
  function EventRow(ev: ExtractedEvent, document: Option<Uuid>): Event
    requires ev.name.Some?
  {
    Event(document, ev.name.value, ev.eventType, ev.eventCategory, ev.chapter, ev.location, ev.startYear, ev.endYear)
  }

  /** The rows `createEvents` saves: one per event with a non-blank name, in order. */
  function EventRows(xs: seq<ExtractedEvent>, document: Option<Uuid>): (rows: seq<Event>)
    ensures |rows| <= |xs|
    ensures forall k | 0 <= k < |rows| :: !IsBlank(rows[k].name) && rows[k].document == document
    ensures forall k | 0 <= k < |xs| && !NullOrBlank(xs[k].name) :: EventRow(xs[k], document) in rows
    decreases |xs|
  {
    if |xs| == 0 then []
    else
      var rest := EventRows(xs[1..], document);
      assert forall k | 1 <= k < |xs| :: xs[1..][k - 1] == xs[k];
      if NullOrBlank(xs[0].name) then rest else [EventRow(xs[0], document)] + rest
  }

  /** The lower-cased names of event rows. */
  function EventNames(rows: seq<Event>): (names: seq<string>)
    ensures |names| == |rows|
    ensures forall k | 0 <= k < |rows| :: names[k] == Lower(rows[k].name)
  {
    seq(|rows|, k requires 0 <= k < |rows| => Lower(rows[k].name))
  }

  /** The `put`s of `createEvents`: the k-th new event, numbered from `base`, under its name. */
  function Numbered(names: seq<string>, base: nat): (entries: seq<(string, EventId)>)
    ensures |entries| == |names|
    ensures forall k | 0 <= k < |names| :: entries[k] == (names[k], base + k)
  {
    seq(|names|, k requires 0 <= k < |names| => (names[k], base + k))
  }

  /** Position `i` holds the name and no later position does. */
  predicate LastIn(names: seq<string>, name: string, i: int) {
    0 <= i < |names| && names[i] == name && forall j | i < j < |names| :: names[j] != name
  }

  /** The names `put` one after another into an empty map, numbered from `base`. */
  function NameMap(names: seq<string>, base: nat): map<string, EventId> {
    PutAll(map[], Numbered(names, base))
  }

  /** Numbering names and `put`ting them in order maps each name to its last position. */
  lemma NumberedLastWins(names: seq<string>, base: nat, name: string)
    ensures name in NameMap(names, base) <==> name in names
    ensures name in NameMap(names, base) ==> base <= NameMap(names, base)[name] && LastIn(names, name, NameMap(names, base)[name] - base)
  {
    var entries := Numbered(names, base);
    var empty: map<string, EventId> := map[];
    PutAllLastWins(empty, entries, name);
    var last := LastWith(entries, name);
    if last.Some? {
      var i :| LastAt(entries, name, i) && entries[i].1 == last.value;
      assert LastIn(names, name, i);
    } else {
      assert forall k | 0 <= k < |names| :: names[k] == entries[k].0;
    }
  }

  /** Every event id in the map names an event row. */
  predicate EventsIn(events: map<string, EventId>, count: nat) {
    forall name | name in events :: events[name] < count
  }

  /**
   * `createEvents`: saves the rows and returns them by lower-cased name; a
   * null list throws before anything is saved.
   */
  function CreateEvents(t: Tables, events: Option<seq<ExtractedEvent>>, document: Option<Uuid>)
    : (r: Result<(Tables, map<string, EventId>), Fault>)
    ensures events.None? <==> r.Failure?
    ensures r.Failure? ==> r.error == NullEvents
    ensures r.Success? ==> r.value.0 == t.(events := t.events + EventRows(events.value, document))
  {
    if events.None? then Failure(NullEvents)
    else
      var rows := EventRows(events.value, document);
      Success((t.(events := t.events + rows), NameMap(EventNames(rows), |t.events|)))
  }

  /**
   * The event map of `createEvents` holds exactly the lower-cased names of
   * the events saved in this pass, each mapped to the LAST event saved
   * under it (`put` overwrites).
   */
  lemma CreateEventsLastWins(t: Tables, events: seq<ExtractedEvent>, document: Option<Uuid>, name: string)
    ensures var names := EventNames(EventRows(events, document));
            var byName := CreateEvents(t, Some(events), document).value.1;
            && (name in byName <==> name in names)
            && (name in byName ==> LastIn(names, name, byName[name] - |t.events|))
  {
    CreateEventsMap(t, events, document);
    NumberedLastWins(EventNames(EventRows(events, document)), |t.events|, name);
  }

  lemma CreateEventsMap(t: Tables, events: seq<ExtractedEvent>, document: Option<Uuid>)
    ensures CreateEvents(t, Some(events), document).value.1 == NameMap(EventNames(EventRows(events, document)), |t.events|)
  {
  }

  // ----- chunk ids -----

  /** The `put`s that build `chunkIdByIndex`, one per chunk row in query order. */
  function ChunkEntries(chunks: seq<ChunkRow>): (entries: seq<(int, Uuid)>)
    ensures |entries| == |chunks|
    ensures forall k | 0 <= k < |chunks| :: entries[k] == (chunks[k].chunkIndex, chunks[k].id)
  {
    seq(|chunks|, k requires 0 <= k < |chunks| => (chunks[k].chunkIndex, chunks[k].id))
  }

  /** `chunkIdByIndex`. */
  function ChunkMap(chunks: seq<ChunkRow>): map<int, Uuid> {
    PutAll(map[], ChunkEntries(chunks))
  }

  /** The chunk id for an extracted chunk index: none when the index is null or unknown. */
  function ChunkIdFor(chunkIds: map<int, Uuid>, index: Option<int>): Option<Uuid> {
    if index.None? || index.value !in chunkIds then None else Some(chunkIds[index.value])
  }

  /** An extracted chunk index resolves to the last chunk row carrying it. */
  lemma ChunkIdIsLast(chunks: seq<ChunkRow>, index: int)
    ensures ChunkIdFor(ChunkMap(chunks), Some(index)) == LastWith(ChunkEntries(chunks), index)
  {
    PutAllLastWins(map[], ChunkEntries(chunks), index);
  }

  // ----- createParticipants -----

  /** The tables together with the two lookup maps shared by the participant and relation loops. */
  datatype Linking = Linking(tables: Tables, memo: Memo)

  /** The lookup maps agree with the entities table and reach all of it, and the tables are consistent. */
  predicate LinkOk(l: Linking) {
    Consistent(l.tables) && MemoOk(l.memo, l.tables.entities) && MemoCovers(l.memo, l.tables.entities)
  }

  /**
   * One iteration of `createParticipants`: with both names present the
   * actor is resolved (and created if need be) before the event is looked
   * up; a participant row is saved only when the event is one of this pass.
   */
  function AddParticipant(l: Linking, p: ExtractedParticipant, chunkIds: map<int, Uuid>,
                          events: map<string, EventId>, document: Option<Uuid>): (r: Linking)
    requires MemoOk(l.memo, l.tables.entities)
    ensures MemoOk(r.memo, r.tables.entities)
    ensures Extends(l.tables, r.tables) && r.tables.relations == l.tables.relations
            && r.tables.aliases == l.tables.aliases && r.tables.events == l.tables.events
    ensures |r.tables.participants| == |l.tables.participants| +
              (if p.eventName.Some? && p.actorName.Some? && Lower(p.eventName.value) in events then 1 else 0)
  {
    if p.eventName.None? || p.actorName.None? then l
    else
      var (resolved, actor) := Resolve(l, p.actorName.value);
      var key := Lower(p.eventName.value);
      if key !in events then resolved
      else
        var row := Participant(actor, events[key], p.role, p.outcome, document, ChunkIdFor(chunkIds, p.chunkIndex));
        resolved.(tables := resolved.tables.(participants := resolved.tables.participants + [row]))
  }

  /** A participant step keeps the tables consistent. */
  lemma AddParticipantOk(l: Linking, p: ExtractedParticipant, chunkIds: map<int, Uuid>,
                         events: map<string, EventId>, document: Option<Uuid>)
    requires LinkOk(l) && EventsIn(events, |l.tables.events|)
    ensures LinkOk(AddParticipant(l, p, chunkIds, events, document))
  {
    if p.eventName.Some? && p.actorName.Some? {
      ResolveOk(l, p.actorName.value);
      var resolved := Resolve(l, p.actorName.value).0;
      var r := AddParticipant(l, p, chunkIds, events, document);
      if Lower(p.eventName.value) in events {
        Grow(resolved.tables, r.tables, [], [r.tables.participants[|l.tables.participants|]]);
      }
    }
  }

  /** The participant loop. */
  function AddParticipants(l: Linking, ps: seq<ExtractedParticipant>, chunkIds: map<int, Uuid>,
                           events: map<string, EventId>, document: Option<Uuid>): (r: Linking)
    requires MemoOk(l.memo, l.tables.entities)
    ensures MemoOk(r.memo, r.tables.entities)
    ensures Extends(l.tables, r.tables) && r.tables.relations == l.tables.relations
            && r.tables.aliases == l.tables.aliases && r.tables.events == l.tables.events
    decreases |ps|
  {
    if |ps| == 0 then l
    else AddParticipants(AddParticipant(l, ps[0], chunkIds, events, document), ps[1..], chunkIds, events, document)
  }

  /** How many participants name both an actor and an event of this pass. */
  function Linkable(ps: seq<ExtractedParticipant>, events: map<string, EventId>): nat
    decreases |ps|
  {
    if |ps| == 0 then 0
    else
      (if ps[0].eventName.Some? && ps[0].actorName.Some? && Lower(ps[0].eventName.value) in events then 1 else 0)
      + Linkable(ps[1..], events)
  }

  /**
   * The participant loop keeps the tables consistent and saves exactly one
   * row per participant that names an actor and an event of this pass.
   */
  lemma {:induction false} AddParticipantsOk(l: Linking, ps: seq<ExtractedParticipant>, chunkIds: map<int, Uuid>,
                                             events: map<string, EventId>, document: Option<Uuid>)
    requires LinkOk(l) && EventsIn(events, |l.tables.events|)
    ensures LinkOk(AddParticipants(l, ps, chunkIds, events, document))
    ensures |AddParticipants(l, ps, chunkIds, events, document).tables.participants|
            == |l.tables.participants| + Linkable(ps, events)
    decreases |ps|
  {
    if |ps| > 0 {
      AddParticipantOk(l, ps[0], chunkIds, events, document);
      AddParticipantsOk(AddParticipant(l, ps[0], chunkIds, events, document), ps[1..], chunkIds, events, document);
    }
  }

  // ----- createRelations -----

  /** The relation loop's state: the linking state and the hashes seen for this document. */
  datatype Dedup = Dedup(link: Linking, seen: set<string>)

  /** The hashes of the relations already stored for a document. */
  function DocHashes(t: Tables, documentId: Uuid): set<string> {
    set k | 0 <= k < |t.relations| && t.relations[k].documentId == Some(documentId) :: StoredHash(t.entities, t.relations[k])
  }

  /** The linking state is consistent and `seen` holds the hash of every relation of the document. */
  predicate DedupOk(d: Dedup, documentId: Uuid) {
    && LinkOk(d.link)
    && forall k | 0 <= k < |d.link.tables.relations| && d.link.tables.relations[k].documentId == Some(documentId) ::
         StoredHash(d.link.tables.entities, d.link.tables.relations[k]) in d.seen
  }

  /** A relation's two ends after resolution, with the linking state they leave. */
  datatype Ends = Ends(link: Linking, subject: EntityId, obj: Option<EntityId>)

  /**
   * The subject is resolved first, then the object when it is named (a
   * blank object name leaves only the object text).
   */
  function ResolveEnds(l: Linking, subjectName: string, objectName: Option<string>): (e: Ends)
    requires MemoOk(l.memo, l.tables.entities)
    ensures MemoOk(e.link.memo, e.link.tables.entities)
    ensures l.tables.entities <= e.link.tables.entities
    ensures e.link.tables == l.tables.(entities := e.link.tables.entities)
    ensures e.subject < |e.link.tables.entities|
    ensures e.obj.Some? ==> e.obj.value < |e.link.tables.entities|
    ensures e.obj.Some? <==> objectName.Some? && !IsBlank(objectName.value)
  {
    var (afterSubject, subject) := Resolve(l, subjectName);
    if objectName.Some? && !IsBlank(objectName.value) then
      var (afterObject, obj) := Resolve(afterSubject, objectName.value);
      Ends(afterObject, subject, Some(obj))
    else
      Ends(afterSubject, subject, None)
  }

  /** The linking state after resolving one name. */
  function Resolve(l: Linking, name: string): (r: (Linking, EntityId))
    requires MemoOk(l.memo, l.tables.entities)
    ensures MemoOk(r.0.memo, r.0.tables.entities)
    ensures r.0.tables == l.tables.(entities := r.0.tables.entities)
    ensures l.tables.entities <= r.0.tables.entities && r.1 < |r.0.tables.entities|
  {
    var res := ResolveEntity(name, l.memo, l.tables.entities);
    (Linking(l.tables.(entities := res.entities), res.memo), res.id)
  }

  /** Resolving a name keeps the linking state sound. */
  lemma ResolveOk(l: Linking, name: string)
    requires LinkOk(l)
    ensures LinkOk(Resolve(l, name).0)
  {
    ResolveKeepsKeysUnique(name, l.memo, l.tables.entities);
    Grow(l.tables, Resolve(l, name).0.tables, [], []);
  }

  /** Resolving a relation's ends keeps the linking state sound. */
  lemma ResolveEndsOk(l: Linking, subjectName: string, objectName: Option<string>)
    requires LinkOk(l)
    ensures LinkOk(ResolveEnds(l, subjectName, objectName).link)
  {
    ResolveOk(l, subjectName);
    if objectName.Some? && !IsBlank(objectName.value) {
      ResolveOk(Resolve(l, subjectName).0, objectName.value);
    }
  }

  /**
   * One iteration of `createRelations`: with a subject name and a
   * predicate, the subject and any named object are resolved; the relation
   * is saved unless its hash was already seen for this document.
   */
  function AddRelation(d: Dedup, r: ExtractedRelation, chunkIds: map<int, Uuid>, documentId: Uuid): (out: Dedup)
    requires MemoOk(d.link.memo, d.link.tables.entities)
    ensures MemoOk(out.link.memo, out.link.tables.entities)
    ensures Extends(d.link.tables, out.link.tables) && out.link.tables.participants == d.link.tables.participants
            && out.link.tables.aliases == d.link.tables.aliases && out.link.tables.events == d.link.tables.events
    ensures |out.link.tables.relations| <= |d.link.tables.relations| + 1
    ensures |out.link.tables.relations| == |d.link.tables.relations| + 1 ==>
              && out.link.tables.relations[|d.link.tables.relations|].documentId == Some(documentId)
              && StoredHash(out.link.tables.entities, out.link.tables.relations[|d.link.tables.relations|]) !in d.seen
    ensures |out.link.tables.relations| == |d.link.tables.relations| + 1 <==> out.seen != d.seen
  {
    if r.subjectName.None? || r.predicateName.None? then d
    else
      var e := ResolveEnds(d.link, r.subjectName.value, r.objectName);
      var es := e.link.tables.entities;
      var hash := RelationHash(es, Some(e.subject), r.predicateName, r.objectText, e.obj);
      if hash in d.seen then Dedup(e.link, d.seen)
      else
        var row := Relation(Some(e.subject), r.predicateName, e.obj, r.objectText, Some(documentId),
                            ChunkIdFor(chunkIds, r.chunkIndex));
        var t := e.link.tables;
        Dedup(Linking(t.(relations := t.relations + [row]), e.link.memo), d.seen + {hash})
  }

  /** Saving a relation whose hash was not seen keeps the tables consistent and `seen` complete. */
  lemma SaveRelationOk(l: Linking, seen: set<string>, row: Relation, documentId: Uuid)
    requires DedupOk(Dedup(l, seen), documentId)
    requires row.documentId == Some(documentId) && RelationInRange(row, |l.tables.entities|)
    requires StoredHash(l.tables.entities, row) !in seen
    ensures DedupOk(Dedup(l.(tables := l.tables.(relations := l.tables.relations + [row])),
                          seen + {StoredHash(l.tables.entities, row)}), documentId)
  {
    GrowRelation(l.tables, row);
  }

  /** A relation step keeps the tables consistent and `seen` complete. */
  lemma AddRelationOk(d: Dedup, r: ExtractedRelation, chunkIds: map<int, Uuid>, documentId: Uuid)
    requires DedupOk(d, documentId)
    ensures DedupOk(AddRelation(d, r, chunkIds, documentId), documentId)
  {
    if r.subjectName.Some? && r.predicateName.Some? {
      var t := d.link.tables;
      var e := ResolveEnds(d.link, r.subjectName.value, r.objectName);
      ResolveEndsOk(d.link, r.subjectName.value, r.objectName);
      HashesDistinctGrows(t.entities, e.link.tables.entities, t.relations);
      assert DedupOk(Dedup(e.link, d.seen), documentId);
      var out := AddRelation(d, r, chunkIds, documentId);
      if out.seen != d.seen {
        var row := out.link.tables.relations[|t.relations|];
        SaveRelationOk(e.link, d.seen, row, documentId);
      }
    }
  }

  /** The relation loop. */
  function AddRelations(d: Dedup, rs: seq<ExtractedRelation>, chunkIds: map<int, Uuid>, documentId: Uuid): (out: Dedup)
    requires MemoOk(d.link.memo, d.link.tables.entities)
    ensures MemoOk(out.link.memo, out.link.tables.entities)
    ensures Extends(d.link.tables, out.link.tables) && out.link.tables.participants == d.link.tables.participants
            && out.link.tables.aliases == d.link.tables.aliases && out.link.tables.events == d.link.tables.events
    decreases |rs|
  {
    if |rs| == 0 then d
    else AddRelations(AddRelation(d, rs[0], chunkIds, documentId), rs[1..], chunkIds, documentId)
  }

  /**
   * The relation loop keeps the tables consistent: no relation it saves
   * repeats the hash of one already stored for the document, or of one
   * saved earlier in the loop.
   */
  lemma {:induction false} AddRelationsOk(d: Dedup, rs: seq<ExtractedRelation>, chunkIds: map<int, Uuid>, documentId: Uuid)
    requires DedupOk(d, documentId)
    ensures DedupOk(AddRelations(d, rs, chunkIds, documentId), documentId)
    decreases |rs|
  {
    if |rs| > 0 {
      AddRelationOk(d, rs[0], chunkIds, documentId);
      AddRelationsOk(AddRelation(d, rs[0], chunkIds, documentId), rs[1..], chunkIds, documentId);
    }
  }

  // ----- processDocument -----

  /** The participant and relation loops, sharing the lookup maps built from the entities table. */
  function Link(t: Tables, documentId: Uuid, document: Option<Uuid>, chunks: seq<ChunkRow>, events: map<string, EventId>,
                participants: seq<ExtractedParticipant>, relations: Option<seq<ExtractedRelation>>): (r: Tables)
    ensures Extends(t, r)
  {
    var chunkIds := ChunkMap(chunks);
    var l := AddParticipants(Linking(t, BuildMemo(t.entities)), participants, chunkIds, events, document);
    if relations.None? then l.tables
    else AddRelations(Dedup(l, DocHashes(l.tables, documentId)), relations.value, chunkIds, documentId).link.tables
  }

  /**
   * `processDocument` for a document's chunk rows and its extraction:
   * entities first, then the lookup maps from the whole entities table,
   * then events, participants and relations. A null relation list is
   * skipped; the other null lists throw.
   */
  function ProcessDocument(t: Tables, docs: Documents, documentId: Uuid, chunks: seq<ChunkRow>,
                           extraction: ExtractionResult): (r: Step)
    ensures Extends(t, r.tables)
    ensures extraction.entities.None? ==> r == Step(t, Some(NullEntities))
  {
    var up := UpsertEntities(t, extraction.entities);
    if up.fault.Some? then up
    else AfterEntities(up.tables, docs, documentId, chunks, extraction)
  }

  /** The rest of the pass once the entities are in. */
  function AfterEntities(t: Tables, docs: Documents, documentId: Uuid, chunks: seq<ChunkRow>,
                         extraction: ExtractionResult): (r: Step)
    ensures Extends(t, r.tables)
  {
    var document := if documentId in docs then Some(documentId) else None;
    var created := CreateEvents(t, extraction.events, document);
    if created.Failure? then Step(t, Some(created.error))
    else
      var t2 := created.value.0;
      if extraction.participants.None? then Step(t2, Some(NullParticipants))
      else Step(Link(t2, documentId, document, chunks, created.value.1, extraction.participants.value, extraction.relations), None)
  }

  /** `createEvents` keeps the tables consistent, and every id in its map names one of the new events. */
  lemma CreateEventsOk(t: Tables, events: seq<ExtractedEvent>, document: Option<Uuid>)
    requires Consistent(t)
    ensures Consistent(CreateEvents(t, Some(events), document).value.0)
    ensures EventsIn(CreateEvents(t, Some(events), document).value.1, |CreateEvents(t, Some(events), document).value.0.events|)
  {
    var names := EventNames(EventRows(events, document));
    Grow(t, CreateEvents(t, Some(events), document).value.0, [], []);
    forall name | name in NameMap(names, |t.events|) ensures NameMap(names, |t.events|)[name] < |t.events| + |names| {
      NumberedLastWins(names, |t.events|, name);
    }
  }

  /**
   * A document pass keeps the graph tables consistent: entity keys stay
   * unique, references stay in range and relation hashes stay distinct
   * within each document. It throws exactly when a list it iterates is
   * null (never for a duplicate key), and a pass that completes leaves
   * every named entity's key in the table.
   */
  lemma ProcessDocumentOk(t: Tables, docs: Documents, documentId: Uuid, chunks: seq<ChunkRow>, extraction: ExtractionResult)
    requires Consistent(t)
    ensures Consistent(ProcessDocument(t, docs, documentId, chunks, extraction).tables)
    ensures ProcessDocument(t, docs, documentId, chunks, extraction).fault.None? <==>
              extraction.entities.Some? && extraction.events.Some? && extraction.participants.Some?
    ensures ProcessDocument(t, docs, documentId, chunks, extraction).fault.Some? ==>
              !ProcessDocument(t, docs, documentId, chunks, extraction).fault.value.DuplicateKey?
    ensures ProcessDocument(t, docs, documentId, chunks, extraction).fault.None? ==>
              forall k | 0 <= k < |extraction.entities.value| && !NullOrBlank(extraction.entities.value[k].name) ::
                HasKey(ProcessDocument(t, docs, documentId, chunks, extraction).tables.entities, EntityKey(extraction.entities.value[k]))
  {
    if extraction.entities.Some? {
      var xs := extraction.entities.value;
      UpsertAllStoresKeys(t, xs);
      var up := UpsertAll(t, xs).tables;
      AfterEntitiesOk(up, docs, documentId, chunks, extraction);
      var final := AfterEntities(up, docs, documentId, chunks, extraction).tables;
      forall k | 0 <= k < |xs| && !NullOrBlank(xs[k].name) ensures HasKey(final.entities, EntityKey(xs[k])) {
        HasKeyGrows(up.entities, final.entities, EntityKey(xs[k]));
      }
    }
  }

  /** Events, participants and relations keep consistent tables consistent; only a null list throws. */
  lemma AfterEntitiesOk(t: Tables, docs: Documents, documentId: Uuid, chunks: seq<ChunkRow>, extraction: ExtractionResult)
    requires Consistent(t)
    ensures Consistent(AfterEntities(t, docs, documentId, chunks, extraction).tables)
    ensures AfterEntities(t, docs, documentId, chunks, extraction).fault.None? <==>
              extraction.events.Some? && extraction.participants.Some?
    ensures AfterEntities(t, docs, documentId, chunks, extraction).fault.Some? ==>
              !AfterEntities(t, docs, documentId, chunks, extraction).fault.value.DuplicateKey?
  {
    if extraction.events.Some? {
      var document := if documentId in docs then Some(documentId) else None;
      CreateEventsOk(t, extraction.events.value, document);
      var created := CreateEvents(t, extraction.events, document).value;
      if extraction.participants.Some? {
        LinkKeepsConsistent(created.0, documentId, document, chunks, created.1, extraction.participants.value, extraction.relations);
      }
    }
  }

  /** The participant and relation loops keep consistent tables consistent. */
  lemma LinkKeepsConsistent(t: Tables, documentId: Uuid, document: Option<Uuid>, chunks: seq<ChunkRow>, events: map<string, EventId>,
                participants: seq<ExtractedParticipant>, relations: Option<seq<ExtractedRelation>>)
    requires Consistent(t) && EventsIn(events, |t.events|)
    ensures Consistent(Link(t, documentId, document, chunks, events, participants, relations))
  {
    var chunkIds := ChunkMap(chunks);
    var start := Linking(t, BuildMemo(t.entities));
    BuildMemoCovers(t.entities);
    AddParticipantsOk(start, participants, chunkIds, events, document);
    var l := AddParticipants(start, participants, chunkIds, events, document);
    if relations.Some? {
      var d := Dedup(l, DocHashes(l.tables, documentId));
      assert DedupOk(d, documentId);
      AddRelationsOk(d, relations.value, chunkIds, documentId);
    }
  }
}

=== FILE: ingestion.dfy ===
/**
 * `KgIngestionJob.runOnce`: open a run in the history, claim up to `limit`
 * pending documents, pass each through `processDocument` between
 * `PROCESSING` and `COMPLETED`/`FAILED` marks, and close the run.
 */
module Ingestion {
  import opened Wrappers
  import opened Model
  import opened Graph
  import opened Extraction
  import opened GraphWrites
  import RunHistory

  /** The calls `runOnce` makes that the model takes as given. */
  datatype Services = Services(
    chunksOf: Uuid -> seq<ChunkRow>,                 // the chunk query, ordered by chunk index
    complete: string -> CallReply,                   // the chat completion call
    decodeCompletion: string -> Option<Completion>,  // Jackson on the completion body
    decode: string -> Option<ExtractionResult>,      // Jackson on the model's JSON
    describe: Fault -> Option<string>)               // an exception's `getMessage()`

  /** What `kgExtractionService.extract` returns for a document's chunk rows. */
  function Extracted(svc: Services, chunks: seq<ChunkRow>): ExtractionResult {
    Extract(Some(chunks), svc.complete, svc.decodeCompletion, svc.decode).0
  }

  // ----- markStatus -----

  /**
   * `markStatus`: a missing document is left alone; otherwise its status
   * and error are set, `PROCESSING` stamps the start, `COMPLETED` and
   * `FAILED` stamp the completion.
   */
  function MarkStatus(docs: Documents, id: Uuid, status: string, error: Option<string>, now: Time): (r: Documents)
    ensures r.Keys == docs.Keys
    ensures forall other | other in docs && other != id :: r[other] == docs[other]
    ensures id in docs ==> && r[id].kgStatus == Some(status) && r[id].kgError == error
                           && r[id].kgStartedAt == (if status == PROCESSING then Some(now) else docs[id].kgStartedAt)
                           && r[id].kgCompletedAt == (if status == COMPLETED || status == FAILED then Some(now) else docs[id].kgCompletedAt)
                           && r[id] == docs[id].(kgStatus := r[id].kgStatus, kgError := error,
                                                 kgStartedAt := r[id].kgStartedAt, kgCompletedAt := r[id].kgCompletedAt)
  {
    if id !in docs then docs
    else
      var d := docs[id];
      docs[id := d.(kgStatus := Some(status),
                    kgStartedAt := if status == PROCESSING then Some(now) else d.kgStartedAt,
                    kgCompletedAt := if status == COMPLETED || status == FAILED then Some(now) else d.kgCompletedAt,
                    kgError := error)]
  }

  // ----- the document loop -----

  /** The loop's state: documents, graph tables and the count of completed documents. */
  datatype Progress = Progress(docs: Documents, tables: Tables, processed: nat)

  /** What the loop does with one document once it is marked `PROCESSING`. */
  type Processor = (Tables, Documents, Uuid) -> Step

  /** `processDocument` on the document's chunks and what extraction makes of them. */
  function Processing(svc: Services): Processor {
    (t: Tables, docs: Documents, id: Uuid) =>
      var chunks := svc.chunksOf(id);
      ProcessDocument(t, docs, id, chunks, Extracted(svc, chunks))
  }

  /**
   * What `runOnce` does beyond the claim: the step for one document and
   * the message a failure leaves on it.
   */
  datatype Job = Job(process: Processor, describe: Fault -> Option<string>)

  /** The job `KgIngestionJob` runs. */
  function JobOf(svc: Services): Job {
    Job(Processing(svc), svc.describe)
  }

  /**
   * One claimed document: marked `PROCESSING`, processed, then marked
   * `COMPLETED` and counted, or `FAILED` with the exception's message.
   */
  function IngestOne(p: Progress, id: Uuid, now: Time, job: Job): (r: Progress)
    ensures r.docs.Keys == p.docs.Keys
    ensures forall other | other in p.docs && other != id :: r.docs[other] == p.docs[other]
  {
    var docs := MarkStatus(p.docs, id, PROCESSING, None, now);
    var step := job.process(p.tables, docs, id);
    if step.fault.None? then Progress(MarkStatus(docs, id, COMPLETED, None, now), step.tables, p.processed + 1)
    else Progress(MarkStatus(docs, id, FAILED, job.describe(step.fault.value), now), step.tables, p.processed)
  }

  /** The claimed documents in order. */
  function IngestAll(p: Progress, ids: seq<Uuid>, now: Time, job: Job): (r: Progress)
    ensures r.docs.Keys == p.docs.Keys
    decreases |ids|
  {
    if |ids| == 0 then p else IngestAll(IngestOne(p, ids[0], now, job), ids[1..], now, job)
  }

  /** Distinct ids. */
  predicate Distinct(ids: seq<Uuid>) {
    forall i, j | 0 <= i < j < |ids| :: ids[i] != ids[j]
  }

  /** How a finished document looks: done or failed, stamped at `now`, with an error only if failed. */
  predicate Settled(d: Document, now: Time) {
    && (d.kgStatus == Some(COMPLETED) || d.kgStatus == Some(FAILED))
    && d.kgStartedAt == Some(now) && d.kgCompletedAt == Some(now)
    && (d.kgStatus == Some(COMPLETED) ==> d.kgError.None?)
  }

  /** How many of the ids name a completed document. */
  function CountCompleted(docs: Documents, ids: seq<Uuid>): nat
    decreases |ids|
  {
    if |ids| == 0 then 0
    else (if ids[0] in docs && docs[ids[0]].kgStatus == Some(COMPLETED) then 1 else 0) + CountCompleted(docs, ids[1..])
  }

  /** One document: it settles, and the count goes up exactly when it completed. */
  lemma IngestOneSettles(p: Progress, id: Uuid, now: Time, job: Job)
    requires id in p.docs
    ensures Settled(IngestOne(p, id, now, job).docs[id], now)
    ensures IngestOne(p, id, now, job).processed
            == p.processed + (if IngestOne(p, id, now, job).docs[id].kgStatus == Some(COMPLETED) then 1 else 0)
  {
  }

  /**
   * The loop over distinct claimed documents settles each of them, leaves
   * every other document as it was, and counts exactly the completed ones.
   */
  lemma {:induction false} IngestAllSettles(p: Progress, ids: seq<Uuid>, now: Time, job: Job)
    requires Distinct(ids) && forall i | 0 <= i < |ids| :: ids[i] in p.docs
    ensures forall id | id in p.docs && id !in ids :: IngestAll(p, ids, now, job).docs[id] == p.docs[id]
    ensures forall i | 0 <= i < |ids| :: Settled(IngestAll(p, ids, now, job).docs[ids[i]], now)
    ensures IngestAll(p, ids, now, job).processed
            == p.processed + CountCompleted(IngestAll(p, ids, now, job).docs, ids)
    decreases |ids|
  {
    if |ids| > 0 {
      var p1 := IngestOne(p, ids[0], now, job);
      var rest := ids[1..];
      IngestOneSettles(p, ids[0], now, job);
      assert forall i | 0 <= i < |rest| :: rest[i] == ids[i + 1];
      assert Distinct(rest);
      IngestAllSettles(p1, rest, now, job);
      var final := IngestAll(p1, rest, now, job);
      assert ids[0] !in rest;
      assert final.docs[ids[0]] == p1.docs[ids[0]];
      forall i | 0 <= i < |ids| ensures Settled(final.docs[ids[i]], now) {
        if i > 0 {
          assert ids[i] == rest[i - 1];
        }
      }
    }
  }

  /** The loop counts at most one completion per document. */
  lemma {:induction false} IngestAllBound(p: Progress, ids: seq<Uuid>, now: Time, job: Job)
    ensures IngestAll(p, ids, now, job).processed <= p.processed + |ids|
    decreases |ids|
  {
    if |ids| > 0 {
      IngestAllBound(IngestOne(p, ids[0], now, job), ids[1..], now, job);
    }
  }

  /** A step that keeps the tables consistent. */
  ghost predicate KeepsConsistent(process: Processor) {
    forall t: Tables, docs: Documents, id: Uuid | Consistent(t) :: Consistent(process(t, docs, id).tables)
  }

  /** `processDocument` keeps the graph tables consistent, whatever its outcome. */
  lemma ProcessingKeepsConsistent(svc: Services)
    ensures KeepsConsistent(Processing(svc))
  {
    forall t: Tables, docs: Documents, id: Uuid | Consistent(t) ensures Consistent(Processing(svc)(t, docs, id).tables) {
      var chunks := svc.chunksOf(id);
      ProcessDocumentOk(t, docs, id, chunks, Extracted(svc, chunks));
    }
  }

  /** The loop keeps the graph tables consistent when each step does. */
  lemma {:induction false} IngestAllConsistent(p: Progress, ids: seq<Uuid>, now: Time, job: Job)
    requires KeepsConsistent(job.process) && Consistent(p.tables)
    ensures Consistent(IngestAll(p, ids, now, job).tables)
    decreases |ids|
  {
    if |ids| > 0 {
      var docs := MarkStatus(p.docs, ids[0], PROCESSING, None, now);
      assert Consistent(job.process(p.tables, docs, ids[0]).tables);
      IngestAllConsistent(IngestOne(p, ids[0], now, job), ids[1..], now, job);
    }
  }

  // ----- runOnce -----

  /** The database: documents, graph tables and run history. */
  datatype State = State(docs: Documents, tables: Tables, history: RunHistory.History)

  /** `KgRunResult`. */
  datatype RunResult = RunResult(runId: nat, processedCount: nat, error: Option<string>)

  /**
   * What the claim query can return for a non-negative limit: at most
   * `limit` distinct documents, each with a NULL or `PENDING` status.
   * Which of those it returns (rows locked elsewhere are skipped) is up
   * to the database.
   */
  predicate ValidClaim(docs: Documents, picked: seq<Uuid>, limit: int) {
    && |picked| <= limit
    && Distinct(picked)
    && forall i | 0 <= i < |picked| :: picked[i] in docs && IsClaimable(docs[picked[i]])
  }

  /**
   * How `runOnce` fails as a whole. PostgreSQL refuses a negative `LIMIT`,
   * which aborts the transaction; the `finishRun` in the catch block is
   * then refused as well, so the exception leaves `runOnce` and the
   * rollback takes the `STARTED` row with it.
   */
  datatype RunFault = TransactionAborted

  /** The run `runOnce` commits: the run row opened, the documents processed, the row closed. */
  function CommittedRun(s: State, picked: seq<Uuid>, now: Time, job: Job): (State, RunResult) {
    var (started, runId) := RunHistory.StartRun(s.history, now);
    var p := IngestAll(Progress(s.docs, s.tables, 0), picked, now, job);
    (State(p.docs, p.tables, RunHistory.FinishRun(started, runId, COMPLETED, p.processed, None, now)),
     RunResult(runId, p.processed, None))
  }

  /**
   * `runOnce(limit)` with the claim query returning `picked`. A negative
   * limit fails the whole run and nothing is committed: the caller keeps
   * the state it had.
   */
  function RunOnce(s: State, limit: int, picked: seq<Uuid>, now: Time, job: Job): (r: Result<(State, RunResult), RunFault>)
    requires limit >= 0 ==> ValidClaim(s.docs, picked, limit)
    ensures r.Failure? <==> limit < 0
    ensures r.Success? ==> && r.value.1.runId == s.history.nextId
                           && r.value.1.error.None? && r.value.1.processedCount <= |picked|
  {
    if limit < 0 then Failure(TransactionAborted)
    else
      IngestAllBound(Progress(s.docs, s.tables, 0), picked, now, job);
      Success(CommittedRun(s, picked, now, job))
  }

  /**
   * After a run every claimed document is `COMPLETED` or `FAILED` with both
   * stamps set, so no later run claims it again; every other document is
   * unchanged; the result counts exactly the completed ones.
   */
  lemma RunOnceSettles(s: State, limit: int, picked: seq<Uuid>, now: Time, job: Job)
    requires limit >= 0 && ValidClaim(s.docs, picked, limit)
    ensures RunOnce(s, limit, picked, now, job).value.0.docs.Keys == s.docs.Keys
    ensures forall id | id in s.docs && id !in picked :: RunOnce(s, limit, picked, now, job).value.0.docs[id] == s.docs[id]
    ensures forall i | 0 <= i < |picked| ::
              && Settled(RunOnce(s, limit, picked, now, job).value.0.docs[picked[i]], now)
              && !IsClaimable(RunOnce(s, limit, picked, now, job).value.0.docs[picked[i]])
    ensures RunOnce(s, limit, picked, now, job).value.1.processedCount
            == CountCompleted(RunOnce(s, limit, picked, now, job).value.0.docs, picked)
  {
    assert RunOnce(s, limit, picked, now, job).value == CommittedRun(s, picked, now, job);
    CommittedRunSettles(s, picked, now, job);
  }

  /** `RunOnceSettles` for the run that commits. */
  lemma CommittedRunSettles(s: State, picked: seq<Uuid>, now: Time, job: Job)
    requires Distinct(picked) && forall i | 0 <= i < |picked| :: picked[i] in s.docs
    ensures CommittedRun(s, picked, now, job).0.docs.Keys == s.docs.Keys
    ensures forall id | id in s.docs && id !in picked :: CommittedRun(s, picked, now, job).0.docs[id] == s.docs[id]
    ensures forall i | 0 <= i < |picked| ::
              && Settled(CommittedRun(s, picked, now, job).0.docs[picked[i]], now)
              && !IsClaimable(CommittedRun(s, picked, now, job).0.docs[picked[i]])
    ensures CommittedRun(s, picked, now, job).1.processedCount
            == CountCompleted(CommittedRun(s, picked, now, job).0.docs, picked)
  {
    var p := IngestAll(Progress(s.docs, s.tables, 0), picked, now, job);
    IngestAllSettles(Progress(s.docs, s.tables, 0), picked, now, job);
    SettledNotClaimable(p.docs, picked, now);
    var r := CommittedRun(s, picked, now, job);
    assert r.0.docs == p.docs && r.1.processedCount == p.processed;
  }

  /** A settled document is no longer claimable. */
  lemma SettledNotClaimable(docs: Documents, ids: seq<Uuid>, now: Time)
    requires forall i | 0 <= i < |ids| :: ids[i] in docs && Settled(docs[ids[i]], now)
    ensures forall i | 0 <= i < |ids| :: !IsClaimable(docs[ids[i]])
  {
  }

  /** A committed run whose step keeps the graph tables consistent keeps them consistent; `processDocument` does. */
  lemma RunOnceConsistent(s: State, limit: int, picked: seq<Uuid>, now: Time, job: Job)
    requires limit >= 0 ==> ValidClaim(s.docs, picked, limit)
    requires KeepsConsistent(job.process) && Consistent(s.tables)
    ensures RunOnce(s, limit, picked, now, job).Success? ==> Consistent(RunOnce(s, limit, picked, now, job).value.0.tables)
  {
    if limit >= 0 {
      IngestAllConsistent(Progress(s.docs, s.tables, 0), picked, now, job);
    }
  }

  /**
   * A committed run adds exactly one row to the history, already closed:
   * stamped at `now`, `COMPLETED`, with the processed count and no error.
   */
  lemma RunOnceRecorded(s: State, limit: int, picked: seq<Uuid>, now: Time, job: Job)
    requires limit >= 0 ==> ValidClaim(s.docs, picked, limit)
    requires RunHistory.Ordered(s.history)
    ensures RunOnce(s, limit, picked, now, job).Success? ==>
              && RunHistory.Ordered(RunOnce(s, limit, picked, now, job).value.0.history)
              && RunOnce(s, limit, picked, now, job).value.0.history.rows
                 == s.history.rows + [RunHistory.RunRow(s.history.nextId, Some(now), Some(now), Some(COMPLETED),
                                                        Some(RunOnce(s, limit, picked, now, job).value.1.processedCount), None)]
  {
    if limit >= 0 {
      var (started, runId) := RunHistory.StartRun(s.history, now);
      var r := RunOnce(s, limit, picked, now, job).value;
      RunHistory.FinishRunOrdered(started, runId, COMPLETED, r.1.processedCount, None, now);
      var rows := r.0.history.rows;
      assert forall i | 0 <= i < |s.history.rows| :: rows[i] == s.history.rows[i];
    }
  }
}

=== FILE: kg_admin.dfy ===
/**
 * `KgAdminController`: trigger a run, report how many documents sit in
 * each knowledge-graph status, and list the run history.
 */
module KgAdmin {
  import opened Wrappers
  import opened Model
  import RunHistory
  import Ingestion

  /** `limit` when `POST /admin/ingest/kg` gives none. */
  const DEFAULT_RUN_LIMIT: int := 5
  /** `limit` when `GET /admin/ingest/kg/runs` gives none. */
  const DEFAULT_RUNS_LIMIT: int := 20
  /** How many runs the status report lists. */
  const STATUS_RUNS: int := 5

  /**
   * `POST /admin/ingest/kg`: one ingestion run with the given or default
   * limit. A failed run is an exception, answered with status 500.
   */
  function Run(s: Ingestion.State, limit: Option<int>, picked: seq<Uuid>, now: Time, job: Ingestion.Job): (r: Result<(Ingestion.State, Ingestion.RunResult), Ingestion.RunFault>)
    requires limit.GetOr(DEFAULT_RUN_LIMIT) >= 0 ==> Ingestion.ValidClaim(s.docs, picked, limit.GetOr(DEFAULT_RUN_LIMIT))
    ensures limit.None? ==> r.Success? && |picked| <= DEFAULT_RUN_LIMIT && r.value.1.error.None?
    ensures r.Failure? <==> limit.Some? && limit.value < 0
    ensures r.Success? ==> r.value.1.runId == s.history.nextId
  {
    Ingestion.RunOnce(s, limit.GetOr(DEFAULT_RUN_LIMIT), picked, now, job)
  }

  /** `GET /admin/ingest/kg/runs`: the newest runs, twenty unless told otherwise. */
  function Runs(h: RunHistory.History, limit: Option<int>): (r: Result<seq<RunHistory.RunRecord>, RunHistory.QueryError>)
    ensures limit.None? ==> r.Success? && |r.value| == if |h.rows| < DEFAULT_RUNS_LIMIT then |h.rows| else DEFAULT_RUNS_LIMIT
    ensures limit.Some? ==> (r.Failure? <==> limit.value < 0)
  {
    RunHistory.RecentRuns(h, limit.GetOr(DEFAULT_RUNS_LIMIT))
  }

  /** Documents the claim query would pick: status NULL or `PENDING`. */
  function Pending(docs: Documents): set<Uuid> {
    set id | id in docs && IsClaimable(docs[id])
  }

  /** Documents whose status is exactly `status`. */
  function WithStatus(docs: Documents, status: string): set<Uuid> {
    set id | id in docs && docs[id].kgStatus == Some(status)
  }

  /** Documents no count of the report covers: a status other than the four known ones. */
  function Unreported(docs: Documents): set<Uuid> {
    set id | id in docs && docs[id].kgStatus.Some? && docs[id].kgStatus.value !in {PENDING, PROCESSING, COMPLETED, FAILED}
  }

  /** The body of `GET /admin/ingest/kg/status`. */
  datatype StatusReport = StatusReport(pending: nat, processing: nat, completed: nat, failed: nat,
                                       recentRuns: seq<RunHistory.RunRecord>)

  /**
   * `GET /admin/ingest/kg/status`: one count per status and the five
   * newest runs. No document is counted twice, so the counts never add up
   * to more than there are documents.
   */
  function Status(docs: Documents, h: RunHistory.History): (r: StatusReport)
    ensures r.pending == |Pending(docs)| && r.processing == |WithStatus(docs, PROCESSING)|
    ensures r.completed == |WithStatus(docs, COMPLETED)| && r.failed == |WithStatus(docs, FAILED)|
    ensures r.pending + r.processing + r.completed + r.failed <= |docs|
    ensures |r.recentRuns| <= STATUS_RUNS && |r.recentRuns| <= |h.rows|
    ensures Success(r.recentRuns) == RunHistory.RecentRuns(h, STATUS_RUNS)
  {
    GroupSizes(docs);
    StatusReport(|Pending(docs)|, |WithStatus(docs, PROCESSING)|, |WithStatus(docs, COMPLETED)|,
                 |WithStatus(docs, FAILED)|, RunHistory.RecentRuns(h, STATUS_RUNS).value)
  }

  /** Disjoint sets add up. */
  lemma CardDisjointUnion<T>(a: set<T>, b: set<T>)
    requires a !! b
    ensures |a + b| == |a| + |b|
  {
    assert a * b == {};
  }

  /** The five groups do not overlap. */
  lemma StatusGroupsDisjoint(docs: Documents)
    ensures Pending(docs) !! WithStatus(docs, PROCESSING)
    ensures Pending(docs) + WithStatus(docs, PROCESSING) !! WithStatus(docs, COMPLETED)
    ensures Pending(docs) + WithStatus(docs, PROCESSING) + WithStatus(docs, COMPLETED) !! WithStatus(docs, FAILED)
    ensures Pending(docs) + WithStatus(docs, PROCESSING) + WithStatus(docs, COMPLETED) + WithStatus(docs, FAILED)
            !! Unreported(docs)
  {
  }

  /** Every document is in one of the five groups. */
  lemma StatusGroupsCover(docs: Documents)
    ensures Pending(docs) + WithStatus(docs, PROCESSING) + WithStatus(docs, COMPLETED) + WithStatus(docs, FAILED)
            + Unreported(docs) == docs.Keys
  {
  }

  /** The five groups' sizes add up to the number of documents. */
  lemma GroupSizes(docs: Documents)
    ensures |Pending(docs)| + |WithStatus(docs, PROCESSING)| + |WithStatus(docs, COMPLETED)| + |WithStatus(docs, FAILED)|
            + |Unreported(docs)| == |docs|
  {
    var p, g, c, f, u := Pending(docs), WithStatus(docs, PROCESSING), WithStatus(docs, COMPLETED),
                         WithStatus(docs, FAILED), Unreported(docs);
    StatusGroupsDisjoint(docs);
    StatusGroupsCover(docs);
    CardDisjointUnion(p, g);
    CardDisjointUnion(p + g, c);
    CardDisjointUnion(p + g + c, f);
    CardDisjointUnion(p + g + c + f, u);
  }

  /**
   * The four counts and the unreported documents partition the documents,
   * so the counts add up to the number of documents exactly when every
   * status is NULL or one of the four.
   */
  lemma StatusPartition(docs: Documents, h: RunHistory.History)
    ensures Status(docs, h).pending + Status(docs, h).processing + Status(docs, h).completed + Status(docs, h).failed
            + |Unreported(docs)| == |docs|
    ensures (Status(docs, h).pending + Status(docs, h).processing + Status(docs, h).completed + Status(docs, h).failed
             == |docs|) <==> Unreported(docs) == {}
  {
    GroupSizes(docs);
  }

  /** The ids of a sequence as a set. */
  function Ids(ids: seq<Uuid>): set<Uuid> {
    set id | id in ids
  }

  lemma {:induction false} IdsOfDistinct(ids: seq<Uuid>)
    requires Ingestion.Distinct(ids)
    ensures |Ids(ids)| == |ids|
    decreases |ids|
  {
    if |ids| > 0 {
      var rest := ids[1..];
      assert forall i | 0 <= i < |rest| :: rest[i] == ids[i + 1];
      assert Ingestion.Distinct(rest);
      IdsOfDistinct(rest);
      assert Ids(ids) == {ids[0]} + Ids(rest);
      assert ids[0] !in Ids(rest);
    }
  }

  /** The claimed documents were pending and end settled; the rest are as they were. */
  lemma ClaimedSettle(s: Ingestion.State, limit: int, picked: seq<Uuid>, now: Time, job: Ingestion.Job)
    requires limit >= 0 && Ingestion.ValidClaim(s.docs, picked, limit)
    ensures Ingestion.RunOnce(s, limit, picked, now, job).value.0.docs.Keys == s.docs.Keys
    ensures forall id | id in Ids(picked) :: && id in s.docs && IsClaimable(s.docs[id])
                                             && Ingestion.Settled(Ingestion.RunOnce(s, limit, picked, now, job).value.0.docs[id], now)
    ensures forall id | id in s.docs && id !in Ids(picked) :: Ingestion.RunOnce(s, limit, picked, now, job).value.0.docs[id] == s.docs[id]
  {
    Ingestion.RunOnceSettles(s, limit, picked, now, job);
    forall id | id in Ids(picked)
      ensures id in s.docs && IsClaimable(s.docs[id]) && Ingestion.Settled(Ingestion.RunOnce(s, limit, picked, now, job).value.0.docs[id], now)
    {
      var i :| 0 <= i < |picked| && picked[i] == id;
    }
  }

  /** How the groups of a settled run relate to those before it. */
  lemma SettledGroups(docs: Documents, after: Documents, claimed: set<Uuid>, now: Time)
    requires after.Keys == docs.Keys
    requires forall id | id in claimed :: id in docs && IsClaimable(docs[id]) && Ingestion.Settled(after[id], now)
    requires forall id | id in docs && id !in claimed :: after[id] == docs[id]
    ensures Pending(after) == Pending(docs) - claimed && claimed <= Pending(docs)
    ensures WithStatus(after, PROCESSING) == WithStatus(docs, PROCESSING)
    ensures WithStatus(after, COMPLETED) + WithStatus(after, FAILED)
            == (WithStatus(docs, COMPLETED) + WithStatus(docs, FAILED)) + claimed
    ensures WithStatus(docs, COMPLETED) + WithStatus(docs, FAILED) !! claimed
  {
  }

  /** Taking claimed pending documents out of the pending set. */
  lemma PendingCount(before: set<Uuid>, after: set<Uuid>, claimed: set<Uuid>)
    requires after == before - claimed && claimed <= before
    ensures |after| == |before| - |claimed|
  {
    CardDisjointUnion(before - claimed, claimed);
    assert (before - claimed) + claimed == before;
  }

  /** Adding claimed documents, none finished before, to the finished ones. */
  lemma FinishedCount(docs: Documents, after: Documents, claimed: set<Uuid>)
    requires WithStatus(after, COMPLETED) + WithStatus(after, FAILED)
             == (WithStatus(docs, COMPLETED) + WithStatus(docs, FAILED)) + claimed
    requires WithStatus(docs, COMPLETED) + WithStatus(docs, FAILED) !! claimed
    ensures |WithStatus(after, COMPLETED)| + |WithStatus(after, FAILED)|
            == |WithStatus(docs, COMPLETED)| + |WithStatus(docs, FAILED)| + |claimed|
  {
    StatusGroupsDisjoint(docs);
    StatusGroupsDisjoint(after);
    CardDisjointUnion(WithStatus(docs, COMPLETED), WithStatus(docs, FAILED));
    CardDisjointUnion(WithStatus(after, COMPLETED), WithStatus(after, FAILED));
    CardDisjointUnion(WithStatus(docs, COMPLETED) + WithStatus(docs, FAILED), claimed);
  }

  /**
   * A run moves exactly the documents it claimed out of the pending count;
   * nothing enters or leaves `PROCESSING`, and the finished counts grow by
   * as many documents as were claimed.
   */
  lemma RunDrainsPending(s: Ingestion.State, limit: int, picked: seq<Uuid>, now: Time, job: Ingestion.Job)
    requires limit >= 0 && Ingestion.ValidClaim(s.docs, picked, limit)
    ensures |Pending(Ingestion.RunOnce(s, limit, picked, now, job).value.0.docs)| == |Pending(s.docs)| - |picked|
    ensures WithStatus(Ingestion.RunOnce(s, limit, picked, now, job).value.0.docs, PROCESSING) == WithStatus(s.docs, PROCESSING)
    ensures |WithStatus(Ingestion.RunOnce(s, limit, picked, now, job).value.0.docs, COMPLETED)|
            + |WithStatus(Ingestion.RunOnce(s, limit, picked, now, job).value.0.docs, FAILED)|
            == |WithStatus(s.docs, COMPLETED)| + |WithStatus(s.docs, FAILED)| + |picked|
  {
    var after := Ingestion.RunOnce(s, limit, picked, now, job).value.0.docs;
    ClaimedSettle(s, limit, picked, now, job);
    IdsOfDistinct(picked);
    SettledGroups(s.docs, after, Ids(picked), now);
    PendingCount(Pending(s.docs), Pending(after), Ids(picked));
    FinishedCount(s.docs, after, Ids(picked));
  }
}

=== FILE: kg_query.dfy ===
/**
 * The read side of the knowledge graph: `KnowledgeGraphService` resolves a
 * name to an entity and answers two count questions through the JPQL
 * queries of `EventParticipantRepository` and `RelationRepository`.
 */
module KgQuery {
  import opened Wrappers
  import opened Model
  import opened Chars
  import opened Graph
  import opened GraphWrites
  import Extraction

  /** The outcome and event type `countBattlesLostByCharacter` asks for. */
  const LOSS_OUTCOME: string := "loss"
  const EVENT_TYPE_BATTLE: string := "battle"

  /** The predicates a family-word phrase stands for. */
  const CHILD_PREDICATES: seq<string> := ["child", "son", "daughter", "children"]

  // ----- canonicalKey -----

  /**
   * `canonicalKey`: trimmed, upper-cased, every whitespace run turned into
   * `_`. The result has no `\s` whitespace and no lower-case letters.
   */
  function CanonicalKey(input: string): (k: string)
    ensures forall i | 0 <= i < |k| :: !IsRegexSpace(k[i]) && !IsAsciiLower(k[i])
  {
    var upper := Upper(Trim(input));
    var k := ReplaceSpaceRuns(upper, '_');
    ReplaceSpaceRunsFrom(upper, '_');
    assert forall i | 0 <= i < |k| :: k[i] == '_' || k[i] in upper;
    k
  }

  /** The query-side key is the key ingestion files a name under, upper-cased. */
  lemma CanonicalIsUpperNormalized(input: string)
    ensures CanonicalKey(input) == Upper(NormalizeKey(Some(input)))
  {
    var trimmed := Trim(input);
    ReplaceSpaceRunsUpper(Lower(trimmed), '_');
    UpperOfLower(trimmed);
  }

  /**
   * The two keys of one name agree exactly when that key holds no ASCII
   * letter: for every name with a letter in it, the lookup by the
   * query-side key cannot find the key ingestion stored.
   */
  lemma KeysAgreeIffNoLetter(input: string)
    ensures CanonicalKey(input) == NormalizeKey(Some(input)) <==> !HasAsciiLetter(NormalizeKey(Some(input)))
  {
    var k := NormalizeKey(Some(input));
    CanonicalIsUpperNormalized(input);
    NormalizeKeyLowerFree(Some(input));
    if HasAsciiLetter(k) {
      var i :| 0 <= i < |k| && IsAsciiLetter(k[i]);
      assert Upper(k)[i] != k[i];
    } else {
      assert Upper(k) == k;
    }
  }

  /** The keys ingestion stores have no upper-case letters. */
  predicate KeysLowerCase(es: seq<GraphEntity>) {
    forall i | 0 <= i < |es| && es[i].canonicalKey.Some? :: NoAsciiUpper(es[i].canonicalKey.value)
  }

  /** Both keys `KgIngestionJob` files an entity under are free of upper-case letters. */
  lemma IngestedKeysLowerCase(e: Extraction.ExtractedEntity, name: Option<string>)
    requires e.name.Some?
    ensures NoAsciiUpper(EntityKey(e)) && NoAsciiUpper(NormalizeKey(name))
  {
    NormalizeKeyLowerFree(e.name);
    NormalizeKeyLowerFree(name);
  }

  /**
   * On a table of lower-case keys the key lookup misses for every name
   * with an ASCII letter, so resolution falls through to names and aliases.
   */
  lemma KeyLookupMisses(es: seq<GraphEntity>, input: string)
    requires KeysLowerCase(es)
    requires exists i | 0 <= i < |input| :: IsAsciiLetter(input[i])
    ensures FindByCanonicalKey(es, CanonicalKey(input)).Missing?
  {
    var i :| 0 <= i < |input| && IsAsciiLetter(input[i]);
    var k := CanonicalKey(input);
    TrimKeeps(input, i);
    var j :| 0 <= j < |Trim(input)| && Trim(input)[j] == input[i];
    var upper := Upper(Trim(input));
    assert IsAsciiUpper(upper[j]);
    ReplaceSpaceRunsKeeps(upper, '_', j);
    var m :| 0 <= m < |k| && k[m] == upper[j];
    assert !NoAsciiUpper(k);
  }

  // ----- resolveEntity -----

  /**
   * `findByNameIgnoreCase(name).get(0)` and `findByAliasIgnoreCase(alias).get(0)`:
   * the first row, by id, whose `text` equals `s` ignoring case.
   */
  function FirstIgnoringCase<T>(rows: seq<T>, text: T -> string, s: string): (r: Option<nat>)
    ensures r.None? <==> forall i | 0 <= i < |rows| :: !EqualsIgnoreCase(text(rows[i]), s)
    ensures r.Some? ==> && r.value < |rows| && EqualsIgnoreCase(text(rows[r.value]), s)
                        && forall i | 0 <= i < r.value :: !EqualsIgnoreCase(text(rows[i]), s)
    decreases |rows|
  {
    if |rows| == 0 then None
    else if EqualsIgnoreCase(text(rows[0]), s) then Some(0)
    else
      match FirstIgnoringCase(rows[1..], text, s)
      case None => None
      case Some(i) => Some(i + 1)
  }

  function EntityName(e: GraphEntity): string {
    e.name
  }

  function AliasText(a: EntityAlias): string {
    a.alias
  }

  /** What Spring Data raises when a single-result query finds several rows. */
  datatype QueryFault = AmbiguousKey(key: string)

  /** The name and alias steps of resolution, for when the key lookup finds nothing. */
  function ByNameOrAlias(t: Tables, name: string): (r: Option<EntityId>)
    requires AliasesIn(t.aliases, |t.entities|)
    ensures r.Some? ==> r.value < |t.entities|
  {
    match FirstIgnoringCase(t.entities, EntityName, name)
    case Some(id) => Some(id)
    case None =>
      match FirstIgnoringCase(t.aliases, AliasText, name)
      case Some(k) => Some(t.aliases[k].entity)
      case None => None
  }

  /**
   * `resolveEntity`: nothing for a null or blank name; otherwise the entity
   * with the canonical key, else the first with that name ignoring case,
   * else the entity of the first alias with that text ignoring case.
   */
  function ResolveName(t: Tables, nameOrAlias: Option<string>): (r: Result<Option<EntityId>, QueryFault>)
    requires AliasesIn(t.aliases, |t.entities|)
    ensures NullOrBlank(nameOrAlias) ==> r == Success(None)
    ensures r.Success? && r.value.Some? ==> r.value.value < |t.entities|
    ensures r.Failure? ==> !NullOrBlank(nameOrAlias) && !UniqueKeys(t.entities)
    ensures !NullOrBlank(nameOrAlias) && HasKey(t.entities, CanonicalKey(nameOrAlias.value)) && UniqueKeys(t.entities) ==>
              r.Success? && r.value.Some? && t.entities[r.value.value].canonicalKey == Some(CanonicalKey(nameOrAlias.value))
    ensures !NullOrBlank(nameOrAlias) && !HasKey(t.entities, CanonicalKey(nameOrAlias.value)) ==>
              r == Success(ByNameOrAlias(t, nameOrAlias.value))
  {
    if NullOrBlank(nameOrAlias) then Success(None)
    else
      var key := CanonicalKey(nameOrAlias.value);
      match FindByCanonicalKey(t.entities, key)
      case Ambiguous => Failure(AmbiguousKey(key))
      case Found(id) => Success(Some(id))
      case Missing => Success(ByNameOrAlias(t, nameOrAlias.value))
  }

  /**
   * On tables ingestion filled, a name with a letter never resolves through
   * the key: it resolves to the first entity with that name, or through
   * the first alias, or not at all.
   */
  lemma ResolveSkipsKey(t: Tables, name: string)
    requires AliasesIn(t.aliases, |t.entities|) && KeysLowerCase(t.entities)
    requires exists i | 0 <= i < |name| :: IsAsciiLetter(name[i])
    ensures ResolveName(t, Some(name)) == Success(ByNameOrAlias(t, name))
  {
    var i :| 0 <= i < |name| && IsAsciiLetter(name[i]);
    assert !IsJavaWhitespace(name[i]);
    KeyLookupMisses(t.entities, name);
  }

  // ----- predicateSynonyms -----

  /**
   * `predicateSynonyms`: the phrase trimmed and lower-cased ("" for null);
   * one that contains "son", "child" or "daughter" anywhere stands for the
   * four family predicates, any other stands for itself.
   */
  function PredicateSynonyms(objectPhrase: Option<string>): (r: seq<string>)
    ensures var cleaned := if objectPhrase.None? then "" else Lower(Trim(objectPhrase.value));
            && (Contains(cleaned, "son") || Contains(cleaned, "child") || Contains(cleaned, "daughter") <==> r == CHILD_PREDICATES)
            && (r != CHILD_PREDICATES ==> r == [cleaned])
    ensures forall k | 0 <= k < |r| :: NoAsciiUpper(r[k])
  {
    var cleaned := if objectPhrase.None? then "" else Lower(Trim(objectPhrase.value));
    if Contains(cleaned, "son") || Contains(cleaned, "child") || Contains(cleaned, "daughter") then CHILD_PREDICATES
    else [cleaned]
  }

  /** The test is a substring test: "person" stands for the family predicates. */
  lemma PersonIsFamily()
    ensures PredicateSynonyms(Some("person")) == CHILD_PREDICATES
  {
    TrimNoop("person");
    assert Lower("person") == "person";
    ContainsAt("person", "son", 3);
  }

  // ----- the count queries -----

  /** Positions of the rows that satisfy `p`: what a `WHERE` clause selects. */
  function Where<T>(rows: seq<T>, p: T -> bool): set<nat> {
    set k | 0 <= k < |rows| && p(rows[k])
  }

  /** A new row is selected exactly when it satisfies the clause. */
  lemma WhereSnoc<T>(rows: seq<T>, row: T, p: T -> bool)
    ensures Where(rows + [row], p) == Where(rows, p) + (if p(row) then {|rows|} else {})
  {
    var rows' := rows + [row];
    assert forall k | 0 <= k < |rows| :: rows'[k] == rows[k];
    assert rows'[|rows|] == row;
  }

  /** A weaker clause selects more rows. */
  lemma WhereWeaker<T>(rows: seq<T>, p: T -> bool, q: T -> bool)
    requires forall k | 0 <= k < |rows| :: p(rows[k]) ==> q(rows[k])
    ensures Where(rows, p) <= Where(rows, q)
  {
  }

  // countDistinctEventsByActorOutcomeAndType

  /** The participant rows the event count considers; no document means every document. */
  predicate ParticipantMatches(events: seq<Event>, p: Participant, actor: EntityId, outcome: string, eventType: string,
                               documentId: Option<Uuid>) {
    && p.actor == actor && p.outcome == Some(outcome)
    && p.event < |events| && events[p.event].eventType == Some(eventType)
    && (documentId.None? || p.document == documentId)
  }

  /** Positions of the matching participant rows. */
  function MatchingParticipants(t: Tables, actor: EntityId, outcome: string, eventType: string,
                                documentId: Option<Uuid>): set<nat> {
    Where(t.participants, (p: Participant) => ParticipantMatches(t.events, p, actor, outcome, eventType, documentId))
  }

  /** The events of matching rows. */
  function MatchedEvents(t: Tables, actor: EntityId, outcome: string, eventType: string,
                         documentId: Option<Uuid>): set<EventId> {
    set k | k in MatchingParticipants(t, actor, outcome, eventType, documentId) && k < |t.participants|
      :: t.participants[k].event
  }

  /** `countDistinctEventsByActorOutcomeAndType`: how many distinct events the matching rows name. */
  function CountDistinctEvents(t: Tables, actor: EntityId, outcome: string, eventType: string,
                               documentId: Option<Uuid>): nat {
    |MatchedEvents(t, actor, outcome, eventType, documentId)|
  }

  /** An image is no larger than its domain. */
  lemma {:induction false} ImageBound(ks: set<nat>, ps: seq<Participant>)
    ensures |set k | k in ks && k < |ps| :: ps[k].event| <= |ks|
    decreases |ks|
  {
    if ks != {} {
      var k :| k in ks;
      var rest := ks - {k};
      ImageBound(rest, ps);
      var image := set j | j in ks && j < |ps| :: ps[j].event;
      var image' := set j | j in rest && j < |ps| :: ps[j].event;
      assert image <= image' + (if k < |ps| then {ps[k].event} else {});
      SubsetCard(image, image' + (if k < |ps| then {ps[k].event} else {}));
    }
  }

  /** The count is at most the number of matching participant rows. */
  lemma CountDistinctEventsBound(t: Tables, actor: EntityId, outcome: string, eventType: string, documentId: Option<Uuid>)
    ensures CountDistinctEvents(t, actor, outcome, eventType, documentId)
            <= |MatchingParticipants(t, actor, outcome, eventType, documentId)|
  {
    ImageBound(MatchingParticipants(t, actor, outcome, eventType, documentId), t.participants);
  }

  /**
   * Rows are counted by event: another matching row for an event already
   * counted leaves the count as it is, one for a new event adds one.
   */
  lemma ParticipantAddedOnce(t: Tables, p: Participant, actor: EntityId, outcome: string, eventType: string,
                             documentId: Option<Uuid>)
    requires ParticipantMatches(t.events, p, actor, outcome, eventType, documentId)
    ensures MatchedEvents(t.(participants := t.participants + [p]), actor, outcome, eventType, documentId)
            == MatchedEvents(t, actor, outcome, eventType, documentId) + {p.event}
    ensures CountDistinctEvents(t.(participants := t.participants + [p]), actor, outcome, eventType, documentId)
            == CountDistinctEvents(t, actor, outcome, eventType, documentId)
               + (if p.event in MatchedEvents(t, actor, outcome, eventType, documentId) then 0 else 1)
  {
    var t' := t.(participants := t.participants + [p]);
    var n := |t.participants|;
    WhereSnoc(t.participants, p, (q: Participant) => ParticipantMatches(t.events, q, actor, outcome, eventType, documentId));
    assert MatchingParticipants(t', actor, outcome, eventType, documentId)
           == MatchingParticipants(t, actor, outcome, eventType, documentId) + {n};
    assert forall k | 0 <= k < n :: t'.participants[k] == t.participants[k];
    assert t'.participants[n] == p;
  }

  /** Naming a document only narrows the count. */
  lemma EventCountNarrows(t: Tables, actor: EntityId, outcome: string, eventType: string, documentId: Uuid)
    ensures MatchedEvents(t, actor, outcome, eventType, Some(documentId)) <= MatchedEvents(t, actor, outcome, eventType, None)
    ensures CountDistinctEvents(t, actor, outcome, eventType, Some(documentId))
            <= CountDistinctEvents(t, actor, outcome, eventType, None)
  {
    WhereWeaker(t.participants, (p: Participant) => ParticipantMatches(t.events, p, actor, outcome, eventType, Some(documentId)),
                (p: Participant) => ParticipantMatches(t.events, p, actor, outcome, eventType, None));
    SubsetCard(MatchedEvents(t, actor, outcome, eventType, Some(documentId)), MatchedEvents(t, actor, outcome, eventType, None));
  }

  // countBySubjectAndPredicates

  /**
   * The relation rows the relation count considers: a subject whose name
   * equals the given one ignoring case, a lower-cased predicate in the list
   * as given, and the document if one is named.
   */
  predicate RelationMatches(es: seq<GraphEntity>, r: Relation, subject: string, predicates: seq<string>, documentId: Option<Uuid>) {
    && r.subject.Some? && r.subject.value < |es| && EqualsIgnoreCase(es[r.subject.value].name, subject)
    && r.predicateName.Some? && Lower(r.predicateName.value) in predicates
    && (documentId.None? || r.documentId == documentId)
  }

  /** Positions of the matching relation rows. */
  function MatchingRelations(t: Tables, subject: string, predicates: seq<string>, documentId: Option<Uuid>): set<nat> {
    Where(t.relations, (r: Relation) => RelationMatches(t.entities, r, subject, predicates, documentId))
  }

  /** `countBySubjectAndPredicates`: the number of matching rows, duplicates included. */
  function CountBySubjectAndPredicates(t: Tables, subject: string, predicates: seq<string>, documentId: Option<Uuid>): nat {
    |MatchingRelations(t, subject, predicates, documentId)|
  }

  /** Rows, not distinct triples, are counted: every matching row adds one. */
  lemma RelationAddedCounts(t: Tables, r: Relation, subject: string, predicates: seq<string>, documentId: Option<Uuid>)
    ensures CountBySubjectAndPredicates(t.(relations := t.relations + [r]), subject, predicates, documentId)
            == CountBySubjectAndPredicates(t, subject, predicates, documentId)
               + (if RelationMatches(t.entities, r, subject, predicates, documentId) then 1 else 0)
  {
    WhereSnoc(t.relations, r, (x: Relation) => RelationMatches(t.entities, x, subject, predicates, documentId));
  }

  /** The predicate is lower-cased before the membership test, so list entries with a capital never match. */
  lemma CapitalPredicatesNeverMatch(t: Tables, subject: string, predicates: seq<string>, documentId: Option<Uuid>)
    requires forall k | 0 <= k < |predicates| :: !NoAsciiUpper(predicates[k])
    ensures CountBySubjectAndPredicates(t, subject, predicates, documentId) == 0
  {
    assert MatchingRelations(t, subject, predicates, documentId) == {};
  }

  /** Naming a document only narrows the relation count. */
  lemma RelationCountNarrows(t: Tables, subject: string, predicates: seq<string>, documentId: Uuid)
    ensures CountBySubjectAndPredicates(t, subject, predicates, Some(documentId))
            <= CountBySubjectAndPredicates(t, subject, predicates, None)
  {
    WhereWeaker(t.relations, (r: Relation) => RelationMatches(t.entities, r, subject, predicates, Some(documentId)),
                (r: Relation) => RelationMatches(t.entities, r, subject, predicates, None));
    SubsetCard(MatchingRelations(t, subject, predicates, Some(documentId)), MatchingRelations(t, subject, predicates, None));
  }

  // ----- the two questions -----

  /** `KgCountAnswer`. */
  datatype CountAnswer = CountAnswer(characterName: string, count: nat, documentId: Option<Uuid>)

  /**
   * `countBattlesLostByCharacter`: nothing when the name does not resolve;
   * otherwise the entity's stored name and the number of distinct battles
   * it took part in with outcome "loss".
   */
  function CountBattlesLost(t: Tables, nameOrAlias: Option<string>, documentId: Option<Uuid>): (r: Result<Option<CountAnswer>, QueryFault>)
    requires AliasesIn(t.aliases, |t.entities|)
    ensures r.Failure? <==> ResolveName(t, nameOrAlias).Failure?
    ensures r.Success? ==> (r.value.None? <==> ResolveName(t, nameOrAlias).value.None?)
    ensures r.Success? && r.value.Some? ==>
              var id := ResolveName(t, nameOrAlias).value.value;
              && r.value.value.characterName == t.entities[id].name
              && r.value.value.documentId == documentId
              && r.value.value.count == |MatchedEvents(t, id, LOSS_OUTCOME, EVENT_TYPE_BATTLE, documentId)|
  {
    match ResolveName(t, nameOrAlias)
    case Failure(e) => Failure(e)
    case Success(None) => Success(None)
    case Success(Some(id)) =>
      Success(Some(CountAnswer(t.entities[id].name, CountDistinctEvents(t, id, LOSS_OUTCOME, EVENT_TYPE_BATTLE, documentId), documentId)))
  }

  /**
   * `countRelations`: nothing when the subject does not resolve; otherwise
   * the resolved entity's stored name and the count of relations whose
   * subject has that name ignoring case (so every same-named entity's
   * relations count) with a predicate the phrase stands for.
   */
  function CountRelations(t: Tables, subjectName: Option<string>, objectPhrase: Option<string>, documentId: Option<Uuid>)
    : (r: Result<Option<CountAnswer>, QueryFault>)
    requires AliasesIn(t.aliases, |t.entities|)
    ensures r.Failure? <==> ResolveName(t, subjectName).Failure?
    ensures r.Success? ==> (r.value.None? <==> ResolveName(t, subjectName).value.None?)
    ensures r.Success? && r.value.Some? ==>
              var name := t.entities[ResolveName(t, subjectName).value.value].name;
              && r.value.value.characterName == name
              && r.value.value.documentId == documentId
              && r.value.value.count == |MatchingRelations(t, name, PredicateSynonyms(objectPhrase), documentId)|
  {
    match ResolveName(t, subjectName)
    case Failure(e) => Failure(e)
    case Success(None) => Success(None)
    case Success(Some(id)) =>
      var name := t.entities[id].name;
      Success(Some(CountAnswer(name, CountBySubjectAndPredicates(t, name, PredicateSynonyms(objectPhrase), documentId), documentId)))
  }
}

=== FILE: model.dfy ===
/**
 * Rows shared by the upload, vector-store and ingestion components: documents
 * and chunks. Identifiers that the service draws as random UUIDs are `nat`s
 * supplied by the caller; wall-clock instants are plain integers.
 */
module Model {
  import opened Wrappers
  import Bytes

  /** A `java.util.UUID`. */
  type Uuid = nat

  /** A timestamp (`LocalDateTime.now()` or epoch millis), always supplied as a parameter. */
  type Time = int

  /** A Java `float`, as its 32-bit IEEE-754 pattern; arithmetic on it is never needed. */
  type Float = Bytes.U32

  /** An embedding vector (`float[]`). */
  type Vec = seq<Float>

  /**
   * The codes Spring 6's `HttpStatus` enum names. A WebClient error's
   * `getStatusCode()` is one of its constants for these codes and a plain
   * `HttpStatusCode` for any other, so the services' cast to `HttpStatus`
   * succeeds exactly for these.
   */
  predicate IsHttpStatus(code: int) {
    || 100 <= code <= 103
    || 200 <= code <= 208 || code == 226
    || 300 <= code <= 305 || code == 307 || code == 308
    || 400 <= code <= 426 || code == 428 || code == 429 || code == 431 || code == 451
    || 500 <= code <= 511
  }

  /** The knowledge-graph status values written to `documents.kg_status`. */
  const PENDING: string := "PENDING"
  const PROCESSING: string := "PROCESSING"
  const COMPLETED: string := "COMPLETED"
  const FAILED: string := "FAILED"

  /** A row of `documents`. The status is a free string column; `None` is SQL NULL. */
  datatype Document = Document(
    title: Option<string>,
    sourceType: Option<string>,
    externalId: Option<string>,
    category: Option<string>,
    kgStatus: Option<string>,
    kgStartedAt: Option<Time>,
    kgCompletedAt: Option<Time>,
    kgError: Option<string>)

  /** The documents table, keyed by id. */
  type Documents = map<Uuid, Document>

  /** The claim query's predicate: `kg_status IS NULL OR kg_status = 'PENDING'`. */
  predicate IsClaimable(d: Document) {
    d.kgStatus.None? || d.kgStatus == Some(PENDING)
  }

  /** An in-memory chunk (`model.Chunk`); the embedding is attached after chunking. */
  datatype Chunk = Chunk(
    id: Option<Uuid>,
    documentId: Uuid,
    chunkIndex: int,
    content: string,
    embedding: Option<Vec>)

  /** A row of `chunks` as the vector store keeps it. */
  datatype StoredChunk = StoredChunk(documentId: Uuid, chunkIndex: int, content: string, embedding: Vec)

  /** The chunks table, keyed by chunk id. */
  type ChunkTable = map<Uuid, StoredChunk>

  /** A chunk as the extraction service reads it (`KgExtractionService.ChunkRow`). */
  datatype ChunkRow = ChunkRow(id: Uuid, chunkIndex: int, content: string)

  /** One nearest-neighbour hit (`ChunkSearchResult`); the similarity comes from the database. */
  datatype SearchResult = SearchResult(id: Uuid, documentId: Uuid, chunkIndex: int, content: string, similarity: real)

  /** A subset is no larger than the set holding it. */
  lemma SubsetCard<T>(a: set<T>, b: set<T>)
    requires a <= b
    ensures |a| <= |b|
  {
    assert b == a + (b - a);
  }
}

=== FILE: policies.dfy ===
/**
 * Small request policies: `QueryRequest`'s top-k default and validation
 * bounds, and `CategoryClassifierService`, which asks the chat model for a
 * label and falls back to a given default whenever it cannot get one.
 */
module Policies {
  import opened Wrappers
  import opened Chars

  // ----- QueryRequest -----

  const DEFAULT_TOP_K: int := 5
  const MIN_TOP_K: int := 1
  const MAX_TOP_K: int := 20

  /** A `/query` request body; `None` stands for a JSON null or absent field. */
  datatype QueryRequest = QueryRequest(query: Option<string>, topK: Option<int>, category: Option<string>)

  /**
   * The bean-validation constraints: `NotBlank` on the query (not null and
   * not empty once trimmed) and `Min(1)` and `Max(20)` on `topK` when present.
   */
  predicate ValidRequest(req: QueryRequest) {
    && req.query.Some? && Trim(req.query.value) != ""
    && (req.topK.Some? ==> MIN_TOP_K <= req.topK.value <= MAX_TOP_K)
  }

  /** `resolvedTopK`: the given `topK`, or 5 when it is absent. */
  function ResolvedTopK(req: QueryRequest): (k: int)
    ensures req.topK.None? ==> k == DEFAULT_TOP_K
    ensures req.topK.Some? ==> k == req.topK.value
  {
    if req.topK.None? then DEFAULT_TOP_K else req.topK.value
  }

  /** A request that passed validation always searches for between 1 and 20 chunks. */
  lemma ValidTopKInRange(req: QueryRequest)
    requires ValidRequest(req)
    ensures MIN_TOP_K <= ResolvedTopK(req) <= MAX_TOP_K
  {
  }

  // ----- CategoryClassifierService -----

  /** The `category.labels` default. */
  const DEFAULT_LABELS: string :=
    "HISTORY,CHILDCARE,LEGAL,TECHNOLOGY,FINANCE,SCIENCE,HEALTH,LITERATURE,FICTION,BUSINESS,EDUCATION,OTHER"

  /** How much of the document the classifier is shown. */
  const SAMPLE_LIMIT: nat := 2000

  /** A chat message as the completion returns it; its content may be null. */
  datatype Message = Message(content: Option<string>)

  /**
   * What the chat completion call gives back: a body (whose `choices` may be
   * null, and whose first choice may carry a null message), no body at all,
   * or an exception (HTTP error, timeout, decoding failure).
   */
  datatype ChatReply = Completion(choices: Option<seq<Option<Message>>>) | NoBody | CallFailed

  /** The chat model, given the system prompt and the user message. */
  type ChatModel = (string, string) -> ChatReply

  /** The system prompt naming the allowed labels. */
  function ClassifyPrompt(labelList: string): string {
    "Classify the document into one of: " + labelList + ". Reply with the single label only."
  }

  /** The first 2000 characters of the text, or all of it when shorter. */
  function Sample(text: string): (r: string)
    ensures |r| == if |text| > SAMPLE_LIMIT then SAMPLE_LIMIT else |text|
    ensures r <= text
  {
    if |text| > SAMPLE_LIMIT then text[..SAMPLE_LIMIT] else text
  }

  /** The first configured label equal to `cleaned` ignoring case, lower-cased. */
  function FirstMatch(cleaned: string, labels: seq<string>): (r: Option<string>)
    ensures r.Some? ==> exists k | 0 <= k < |labels| :: r.value == Lower(Trim(labels[k]))
                                                    && EqualsIgnoreCase(cleaned, Trim(labels[k]))
    ensures r.None? ==> forall k | 0 <= k < |labels| :: !EqualsIgnoreCase(cleaned, Trim(labels[k]))
  {
    if |labels| == 0 then None
    else if EqualsIgnoreCase(cleaned, Trim(labels[0])) then Some(Lower(Trim(labels[0])))
    else
      var r := FirstMatch(cleaned, labels[1..]);
      assert forall k | 1 <= k < |labels| :: labels[1..][k - 1] == labels[k];
      r
  }

  /**
   * `normalize`: a null or blank label gives the fallback; otherwise the
   * trimmed, lower-cased label, replaced by the configured label it equals
   * ignoring case if there is one.
   */
  function Normalize(value: Option<string>, fallback: string, labelList: string): string {
    if NullOrBlank(value) then fallback
    else
      var cleaned := Lower(Trim(value.value));
      match FirstMatch(cleaned, Split(labelList, ','))
      case Some(found) => found
      case None => cleaned
  }

  /**
   * The label list never restricts the outcome: a label that is not blank
   * always normalises to its own trimmed, lower-cased form, whatever the
   * configured list holds.
   */
  lemma NormalizeIgnoresLabels(value: Option<string>, fallback: string, labelList: string)
    ensures NullOrBlank(value) ==> Normalize(value, fallback, labelList) == fallback
    ensures !NullOrBlank(value) ==> Normalize(value, fallback, labelList) == Lower(Trim(value.value))
  {
    if !NullOrBlank(value) {
      var cleaned := Lower(Trim(value.value));
      LowerIdempotent(Trim(value.value));
      var m := FirstMatch(cleaned, Split(labelList, ','));
      if m.Some? {
        var labels := Split(labelList, ',');
        var k :| 0 <= k < |labels| && m.value == Lower(Trim(labels[k])) && EqualsIgnoreCase(cleaned, Trim(labels[k]));
        assert Lower(cleaned) == Lower(Trim(labels[k]));
      }
    }
  }

  /**
   * `classify`. The result is the classified label, paired with the text
   * sample sent to the model (`None` when no call was made).
   */
  function Classify(text: Option<string>, fallback: string, labelList: string, chat: ChatModel)
    : (r: (string, Option<string>))
    ensures NullOrBlank(text) ==> r == (fallback, None)
    ensures !NullOrBlank(text) ==> r.1 == Some(Sample(text.value))
  {
    if NullOrBlank(text) then (fallback, None)
    else
      var sample := Sample(text.value);
      var answer :=
        match chat(ClassifyPrompt(labelList), sample)
        case Completion(Some(choices)) =>
          if |choices| == 0 then fallback
          else if choices[0].None? then fallback // a null message is dereferenced: the exception handler answers
          else Normalize(choices[0].value.content, fallback, labelList)
        case _ => fallback;
      (answer, Some(sample))
  }

  /**
   * What the classifier answers: the fallback unless the model's first
   * choice carries a label that is not blank, in which case that label,
   * trimmed and lower-cased; the model sees at most 2000 characters.
   */
  lemma ClassifyOutcome(text: Option<string>, fallback: string, labelList: string, chat: ChatModel)
    requires !NullOrBlank(text)
    ensures |Classify(text, fallback, labelList, chat).1.value| <= SAMPLE_LIMIT
    ensures NullOrBlank(ModelLabel(chat(ClassifyPrompt(labelList), Sample(text.value)))) ==>
              Classify(text, fallback, labelList, chat).0 == fallback
    ensures !NullOrBlank(ModelLabel(chat(ClassifyPrompt(labelList), Sample(text.value)))) ==>
              Classify(text, fallback, labelList, chat).0
              == Lower(Trim(ModelLabel(chat(ClassifyPrompt(labelList), Sample(text.value))).value))
  {
    var reply := chat(ClassifyPrompt(labelList), Sample(text.value));
    NormalizeIgnoresLabels(ModelLabel(reply), fallback, labelList);
  }

  /** The label a reply carries: the first choice's message content, if any. */
  function ModelLabel(reply: ChatReply): Option<string> {
    match reply
    case Completion(Some(choices)) =>
      if |choices| == 0 || choices[0].None? then None else choices[0].value.content
    case _ => None
  }
}

=== FILE: query.dfy ===
/**
 * `QueryService`: answer a question either from the knowledge graph, when
 * the router finds a confident relation count, or from the chunks nearest
 * to the question's embedding, and the same two paths as a stream of
 * fragments parsed out of server-sent events.
 */
module Query {
  import opened Wrappers
  import opened Chars
  import opened Model
  import Policies
  import Embedding
  import VectorStore
  import Extraction
  import Graph
  import KgQuery
  import Router

  /** The answer when retrieval finds nothing. */
  const NO_MATCH: string := "I could not find relevant information in the knowledge base."
  /** The message of the exception for a completion without choices. */
  const EMPTY_COMPLETION: string := "OpenAI returned empty completion"
  /** The status that exception carries. */
  const INTERNAL_SERVER_ERROR: int := 500

  const PROMPT_HEAD: string := "Use ONLY the following retrieved information to answer the user's question.\n\n"
  const PROMPT_FOOT: string :=
    "Answer in a concise paragraph and cite the supporting chunk index in brackets, e.g., [chunk 0]."
  const KG_PROMPT_HEAD: string := "You are given a structured fact from a knowledge graph.\n"
  const KG_PROMPT_FOOT: string :=
    "Explain this to the user in natural language and note that it is based on structured battle data, not long text scanning."

  /** The prefix of a server-sent data line, and the payload that ends the stream. */
  const DATA_PREFIX: string := "data:"
  const DONE: string := "[DONE]"

  // ----- results and collaborators -----

  /** `QueryResponseSource`. */
  datatype Source = Source(chunkIndex: int, similarity: real)

  /** `QueryResponse`; the answer is whatever the completion carried, null included. */
  datatype QueryResponse = QueryResponse(answer: Option<string>, sources: seq<Source>)

  /**
   * Why a query fails: the embedding call, the search, the chat completion
   * (an HTTP error's status and body, or the empty-completion exception),
   * the `ClassCastException` of an HTTP error whose code `HttpStatus` does
   * not name, a choice without a message, or a null fragment handed to the
   * stream.
   */
  datatype QueryError =
    | EmbeddingFailed(cause: Embedding.EmbeddingError)
    | SearchFailed(message: string)
    | OpenAi(status: int, message: string)
    | UncastableStatus(status: int)
    | NullMessage
    | NullFragment

  /** `ChatCompletionResponse`: its choices, each possibly without a message. */
  datatype ChatResponse = ChatResponse(choices: Option<seq<Option<Policies.Message>>>)

  /** The blocking completion call: an HTTP error, or a body that may be null. */
  datatype ChatCall = ChatHttpError(status: int, body: string) | ChatBody(response: Option<ChatResponse>)

  /** The streaming completion call: an HTTP error, or the body's text chunks in arrival order. */
  datatype StreamCall = StreamHttpError(status: int, body: string) | StreamBody(chunks: seq<string>)

  /** What the router needs: the graph, the predicate table and the classifier with its decoder. */
  datatype KgRoute = KgRoute(
    t: Graph.Tables,
    table: Router.PredicateTable,
    classify: string -> Router.IntentCall,
    decode: string -> Option<Router.IntentPayload>)

  predicate ValidRoute(kg: KgRoute) {
    Graph.AliasesIn(kg.t.aliases, |kg.t.entities|)
  }

  /**
   * The collaborators of the retrieval path: `embed` stands for
   * `EmbeddingService.embed`, `search` for `VectorStoreService.searchSimilar`
   * with its cache and database, `chat` and `stream` for the two completion calls.
   */
  datatype Services = Services(
    embed: Option<string> -> Result<Vec, Embedding.EmbeddingError>,
    search: (Vec, int, Option<string>) -> Result<seq<SearchResult>, string>,
    chat: string -> ChatCall,
    stream: string -> StreamCall)

  // ----- prompts -----

  /** A match as the extraction prompt would show a chunk: the same `[chunk i] text` entry. */
  function Rows(matches: seq<SearchResult>): (r: seq<ChunkRow>)
    ensures |r| == |matches|
    ensures forall i | 0 <= i < |r| :: r[i].chunkIndex == matches[i].chunkIndex && r[i].content == matches[i].content
  {
    seq(|matches|, i requires 0 <= i < |matches| => ChunkRow(matches[i].id, matches[i].chunkIndex, matches[i].content))
  }

  /** `StringBuilder.append` of a possibly null string. */
  function Shown(s: Option<string>): string {
    if s.None? then "null" else s.value
  }

  /** The lines after the matches: the question and the citation rule. */
  function QuestionLines(question: Option<string>): string {
    "Question: " + Shown(question) + "\n" + PROMPT_FOOT
  }

  /** `buildPrompt`: the instruction, one entry per match in order, the question and the citation rule. */
  function BuildPrompt(question: Option<string>, matches: seq<SearchResult>): (r: string)
    ensures StartsWith(r, PROMPT_HEAD)
  {
    PROMPT_HEAD + Extraction.PromptBody(Rows(matches)) + QuestionLines(question)
  }

  /** The entry a match gets in the prompt. */
  function Entry(m: SearchResult): string {
    "[chunk " + IntToString(m.chunkIndex) + "] " + m.content + "\n\n"
  }

  /** A string occurs in any concatenation with it in the middle. */
  lemma ContainsInfix(a: string, b: string, c: string)
    ensures Contains(a + b + c, b)
  {
    var s := a + b + c;
    assert s[|a|..|a| + |b|] == b;
    ContainsAt(s, b, |a|);
  }

  lemma Regroup(h: string, b1: string, e: string, b2: string, t: string)
    ensures h + (b1 + e + b2) + t == (h + b1) + e + (b2 + t)
  {
  }

  /**
   * Every match is quoted in the prompt with its chunk index, and the
   * question and the citation rule close it.
   */
  lemma PromptCitesEveryMatch(question: Option<string>, matches: seq<SearchResult>, k: nat)
    requires k < |matches|
    ensures Contains(BuildPrompt(question, matches), Entry(matches[k]))
    ensures Contains(BuildPrompt(question, matches), QuestionLines(question))
  {
    var rows := Rows(matches);
    var b1, e, b2 := Extraction.PromptBody(rows[..k]), Extraction.ChunkEntry(rows[k]), Extraction.PromptBody(rows[k + 1..]);
    var t := QuestionLines(question);
    Extraction.PromptBodyAt(rows, k);
    assert e == Entry(matches[k]);
    Regroup(PROMPT_HEAD, b1, e, b2, t);
    ContainsInfix(PROMPT_HEAD + b1, e, b2 + t);
    ContainsInfix(PROMPT_HEAD + Extraction.PromptBody(rows), t, "");
    assert PROMPT_HEAD + Extraction.PromptBody(rows) + t + "" == BuildPrompt(question, matches);
  }

  /** The line naming the entity. */
  function CharacterLine(a: Router.RoutedAnswer): string {
    "Character: " + a.answer.characterName + "\n"
  }

  /** The line with the scope and the count. */
  function CountLine(a: Router.RoutedAnswer): string {
    "Lost battles " + Router.ScopeLabel(a) + ": " + IntToString(a.answer.count) + "\n"
  }

  /** `buildKgPrompt`: the fact, its scope and the instruction to explain it. */
  function KgPrompt(a: Router.RoutedAnswer): (r: string)
    ensures StartsWith(r, KG_PROMPT_HEAD)
  {
    KG_PROMPT_HEAD + CharacterLine(a) + CountLine(a) + KG_PROMPT_FOOT
  }

  lemma ContainsMiddles(a: string, b: string, c: string, d: string)
    ensures Contains(a + b + c + d, b) && Contains(a + b + c + d, c)
  {
    assert a + b + c + d == a + b + (c + d);
    ContainsInfix(a, b, c + d);
    ContainsInfix(a + b, c, d);
  }

  /**
   * The graph prompt carries the entity's name, and the scope label with
   * the count, each on its own line. The label reads "Lost battles"
   * whatever was counted.
   */
  lemma KgPromptStatesFact(a: Router.RoutedAnswer)
    ensures Contains(KgPrompt(a), "Character: " + a.answer.characterName + "\n")
    ensures Contains(KgPrompt(a), "Lost battles " + Router.ScopeLabel(a) + ": " + IntToString(a.answer.count) + "\n")
  {
    ContainsMiddles(KG_PROMPT_HEAD, CharacterLine(a), CountLine(a), KG_PROMPT_FOOT);
  }

  // ----- the blocking completion -----

  /**
   * What a `WebClientResponseException` becomes: `new OpenAiException((HttpStatus)
   * e.getStatusCode(), body)`, unless the cast throws first.
   */
  function HttpFailure<T>(status: int, body: string): Result<T, QueryError> {
    if IsHttpStatus(status) then Failure(OpenAi(status, body)) else Failure(UncastableStatus(status))
  }

  /** A Cloudflare-style 520 reaches the caller as a `ClassCastException`, not as an `OpenAiException`. */
  lemma OriginErrorIsUncastable(body: string)
    ensures InvokeChat(ChatHttpError(520, body)) == Failure(UncastableStatus(520))
    ensures InvokeChat(ChatHttpError(503, body)) == Failure(OpenAi(503, body))
  {
  }

  /**
   * `invokeChatCompletion`: an HTTP error keeps its status and body when
   * `HttpStatus` names its code and otherwise fails the cast; a null
   * body, or one without choices, is a 500 "empty completion"; a first
   * choice without a message fails; otherwise its content, which may be null.
   */
  function InvokeChat(call: ChatCall): (r: Result<Option<string>, QueryError>)
    ensures call.ChatHttpError? && IsHttpStatus(call.status) ==> r == Failure(OpenAi(call.status, call.body))
    ensures call.ChatHttpError? && !IsHttpStatus(call.status) ==> r == Failure(UncastableStatus(call.status))
    ensures call.ChatBody? ==>
              (r == Failure(OpenAi(INTERNAL_SERVER_ERROR, EMPTY_COMPLETION)) <==>
                 (|| call.response.None? || call.response.value.choices.None?
                  || |call.response.value.choices.value| == 0))
    ensures r.Success? ==> && call.ChatBody? && call.response.Some? && call.response.value.choices.Some?
                           && |call.response.value.choices.value| > 0
                           && call.response.value.choices.value[0] == Some(Policies.Message(r.value))
  {
    match call
    case ChatHttpError(status, body) => HttpFailure(status, body)
    case ChatBody(response) =>
      if response.None? || response.value.choices.None? || |response.value.choices.value| == 0 then
        Failure(OpenAi(INTERNAL_SERVER_ERROR, EMPTY_COMPLETION))
      else
        match response.value.choices.value[0]
        case None => Failure(NullMessage)
        case Some(m) => Success(m.content)
  }

  // ----- answer -----

  /** `tryKnowledgeGraph`'s routing step. */
  function Route(kg: KgRoute, query: Option<string>): Option<Router.RoutedAnswer>
    requires ValidRoute(kg)
  {
    Router.RouteToKnowledgeGraph(kg.t, query, kg.table, kg.classify, kg.decode)
  }

  /** Embed the query, then search with the resolved top-k and the category. */
  function Retrieve(req: Policies.QueryRequest, svc: Services): (r: Result<seq<SearchResult>, QueryError>)
    ensures svc.embed(req.query).Failure? ==> r == Failure(EmbeddingFailed(svc.embed(req.query).error))
    ensures svc.embed(req.query).Success? ==>
              var found := svc.search(svc.embed(req.query).value, Policies.ResolvedTopK(req), req.category);
              && (found.Success? ==> r == Success(found.value))
              && (found.Failure? ==> r == Failure(SearchFailed(found.error)))
  {
    match svc.embed(req.query)
    case Failure(e) => Failure(EmbeddingFailed(e))
    case Success(v) =>
      match svc.search(v, Policies.ResolvedTopK(req), req.category)
      case Failure(m) => Failure(SearchFailed(m))
      case Success(matches) => Success(matches)
  }

  /** The sources of an answer: each match's chunk index and similarity. */
  function Sources(matches: seq<SearchResult>): (r: seq<Source>)
    ensures |r| == |matches|
  {
    seq(|matches|, i requires 0 <= i < |matches| => Source(matches[i].chunkIndex, matches[i].similarity))
  }

  /** What one call did: its result, whether it retrieved chunks, and the answer prompts it sent to the chat model (the router's intent call is not among them). */
  datatype Answered = Answered(result: Result<QueryResponse, QueryError>, retrieved: bool, prompts: seq<string>)

  /** A completion turned into a response with the given sources. */
  function Respond(reply: Result<Option<string>, QueryError>, sources: seq<Source>): Result<QueryResponse, QueryError> {
    match reply
    case Failure(e) => Failure(e)
    case Success(c) => Success(QueryResponse(c, sources))
  }

  /**
   * `answer` once `tryKnowledgeGraph` has routed or not: a routed question
   * is answered from the graph prompt with no sources; otherwise the query
   * is embedded and searched, no match gives the fixed sentence, and any
   * match goes into the prompt and the sources.
   */
  function AnswerWith(req: Policies.QueryRequest, routed: Option<Router.RoutedAnswer>, svc: Services): (r: Answered)
    ensures r.retrieved <==> routed.None?
    ensures |r.prompts| <= 1
    ensures r.result.Success? && |r.result.value.sources| > 0 ==> r.retrieved && |r.prompts| == 1
    ensures r.result.Failure? && r.prompts == [] ==> r.retrieved
  {
    match routed
    case Some(a) =>
      var prompt := KgPrompt(a);
      Answered(Respond(InvokeChat(svc.chat(prompt)), []), false, [prompt])
    case None =>
      match Retrieve(req, svc)
      case Failure(e) => Answered(Failure(e), true, [])
      case Success(matches) =>
        if |matches| == 0 then Answered(Success(QueryResponse(Some(NO_MATCH), [])), true, [])
        else
          var prompt := BuildPrompt(req.query, matches);
          Answered(Respond(InvokeChat(svc.chat(prompt)), Sources(matches)), true, [prompt])
  }

  /**
   * `answer`: route first, then answer. A null or blank query is never
   * routed; a routed one is counted across all documents.
   */
  function Answer(req: Policies.QueryRequest, kg: KgRoute, svc: Services): (r: Answered)
    requires ValidRoute(kg)
    ensures r.retrieved <==> Route(kg, req.query).None?
    ensures NullOrBlank(req.query) ==> r == AnswerWith(req, None, svc)
    ensures Route(kg, req.query).Some? ==> Router.ScopeLabel(Route(kg, req.query).value) == Router.ALL_DOCUMENTS
  {
    AnswerWith(req, Route(kg, req.query), svc)
  }

  /**
   * A routed question never reaches retrieval: one graph prompt is sent,
   * and a successful answer is its completion with no sources.
   */
  lemma RoutedSkipsRetrieval(req: Policies.QueryRequest, routed: Router.RoutedAnswer, svc: Services)
    ensures !AnswerWith(req, Some(routed), svc).retrieved
    ensures AnswerWith(req, Some(routed), svc).prompts == [KgPrompt(routed)]
    ensures InvokeChat(svc.chat(KgPrompt(routed))).Success? <==> AnswerWith(req, Some(routed), svc).result.Success?
    ensures AnswerWith(req, Some(routed), svc).result.Success? ==>
              AnswerWith(req, Some(routed), svc).result.value == QueryResponse(InvokeChat(svc.chat(KgPrompt(routed))).value, [])
  {
  }

  /** Retrieval that finds nothing answers with the fixed sentence, no sources, and no chat call. */
  lemma NoMatchAnswer(req: Policies.QueryRequest, svc: Services)
    requires Retrieve(req, svc) == Success([])
    ensures AnswerWith(req, None, svc) == Answered(Success(QueryResponse(Some(NO_MATCH), [])), true, [])
  {
  }

  /**
   * With matches, the one prompt sent quotes every match, and a successful
   * answer lists one source per match, in order, with its chunk index and
   * similarity.
   */
  lemma SourcesMirrorMatches(req: Policies.QueryRequest, svc: Services)
    requires Retrieve(req, svc).Success? && |Retrieve(req, svc).value| > 0
    ensures var matches := Retrieve(req, svc).value;
            var r := AnswerWith(req, None, svc);
            && r.prompts == [BuildPrompt(req.query, matches)]
            && (forall k | 0 <= k < |matches| :: Contains(r.prompts[0], Entry(matches[k])))
            && (r.result.Success? <==> InvokeChat(svc.chat(r.prompts[0])).Success?)
            && (r.result.Success? ==>
                  && r.result.value.answer == InvokeChat(svc.chat(r.prompts[0])).value
                  && |r.result.value.sources| == |matches|
                  && forall k | 0 <= k < |matches| ::
                       r.result.value.sources[k] == Source(matches[k].chunkIndex, matches[k].similarity))
  {
    var matches := Retrieve(req, svc).value;
    forall k | 0 <= k < |matches|
      ensures Contains(BuildPrompt(req.query, matches), Entry(matches[k]))
    {
      PromptCitesEveryMatch(req.query, matches, k);
    }
  }

  /** A failure of retrieval is the failure of the whole answer, before any chat call. */
  lemma FailuresPropagate(req: Policies.QueryRequest, svc: Services)
    requires Retrieve(req, svc).Failure?
    ensures AnswerWith(req, None, svc) == Answered(Failure(Retrieve(req, svc).error), true, [])
  {
  }

  // ----- the service stack -----

  /**
   * What `answer` runs on: the embeddings API, the vector store's
   * configuration, database and the two clock readings of its cache, and
   * the two completion calls.
   */
  datatype Backend = Backend(
    api: seq<string> -> Embedding.ApiReply,
    config: VectorStore.Config,
    db: VectorStore.Db,
    lookupAt: int,
    storeAt: int,
    chat: string -> ChatCall,
    stream: string -> StreamCall)

  /** `searchSimilar` with a category over the cache as it stands; the refilled cache is `CacheAfter`'s concern. */
  function Searched(b: Backend, cache: VectorStore.Cache, v: Vec, topK: int, category: Option<string>)
    : Result<seq<SearchResult>, string>
  {
    VectorStore.Search(b.config, cache, Some(v), topK, category, b.lookupAt, b.storeAt, b.db).0
  }

  /** The collaborators `answer` sees: `EmbeddingService.embed` and `VectorStoreService.searchSimilar`. */
  function Stack(b: Backend, cache: VectorStore.Cache): Services {
    Services(text => Embedding.EmbedResult(text, b.api),
             (v, topK, category) => Searched(b, cache, v, topK, category),
             b.chat, b.stream)
  }

  /**
   * The cache once `answer` is done: changed only by a search that ran,
   * which refills it or, failing, has still dropped an expired entry.
   */
  function CacheAfter(req: Policies.QueryRequest, routed: bool, b: Backend, cache: VectorStore.Cache): (c: VectorStore.Cache)
    ensures c != cache ==> !routed && b.config.cacheEnabled
  {
    if routed then cache
    else
      match Embedding.EmbedResult(req.query, b.api)
      case Failure(_) => cache
      case Success(v) =>
        VectorStore.Search(b.config, cache, Some(v), Policies.ResolvedTopK(req), req.category, b.lookupAt, b.storeAt, b.db).1
  }

  /**
   * `answer` on the stack, with the cache it leaves. Only a search can
   * change the cache, and only when caching is on; a failed chat call after
   * it does not undo the refill.
   */
  function AnswerAt(req: Policies.QueryRequest, kg: KgRoute, b: Backend, cache: VectorStore.Cache): (r: (Answered, VectorStore.Cache))
    requires ValidRoute(kg)
    ensures r.0 == Answer(req, kg, Stack(b, cache))
    ensures r.1 != cache ==> r.0.retrieved && b.config.cacheEnabled
  {
    var answered := Answer(req, kg, Stack(b, cache));
    (answered, CacheAfter(req, !answered.retrieved, b, cache))
  }

  /**
   * With the cache off, a question that embeds to a non-empty vector is
   * answered from the database's nearest rows for that vector, turned into
   * similarities: the stack is `searchSimilar(embed(query), topK, category)`.
   * A negative `topK` reaches the database and fails there.
   */
  lemma UncachedRetrieval(req: Policies.QueryRequest, b: Backend, cache: VectorStore.Cache)
    requires !b.config.cacheEnabled
    requires Embedding.EmbedResult(req.query, b.api).Success? && |Embedding.EmbedResult(req.query, b.api).value| > 0
    requires |VectorStore.CategoryBytes(req.category)| <= VectorStore.CATEGORY_RESERVE
    ensures var v := Embedding.EmbedResult(req.query, b.api).value;
            Policies.ResolvedTopK(req) >= 0 ==>
              Retrieve(req, Stack(b, cache))
              == Success(VectorStore.ToResults(b.db(v, Policies.ResolvedTopK(req), VectorStore.Filter(req.category))))
    ensures Policies.ResolvedTopK(req) < 0 ==>
              Retrieve(req, Stack(b, cache)) == Failure(SearchFailed(VectorStore.NEGATIVE_LIMIT))
  {
  }

  /** A null question fails in `embed` before any search or chat call, and the cache stays as it was. */
  lemma NullQuestionFails(req: Policies.QueryRequest, kg: KgRoute, b: Backend, cache: VectorStore.Cache)
    requires ValidRoute(kg) && req.query.None?
    ensures AnswerAt(req, kg, b, cache) == (Answered(Failure(EmbeddingFailed(Embedding.NullText)), true, []), cache)
  {
  }

  /**
   * A blank question is never routed, embeds to the empty vector, finds no
   * chunk and gets the fixed sentence, with no chat call and the cache
   * unchanged.
   */
  lemma BlankQuestionNoMatch(req: Policies.QueryRequest, kg: KgRoute, b: Backend, cache: VectorStore.Cache)
    requires ValidRoute(kg) && req.query.Some? && IsBlank(req.query.value)
    ensures AnswerAt(req, kg, b, cache) == (Answered(Success(QueryResponse(Some(NO_MATCH), [])), true, []), cache)
  {
  }

  // ----- parseStreamPayload -----

  /** `Delta`, `StreamChoice` and `ChatCompletionChunk`, with Jackson's nulls. */
  datatype Delta = Delta(content: Option<string>)
  datatype StreamChoice = StreamChoice(delta: Option<Delta>)
  datatype StreamChunk = StreamChunk(choices: Option<seq<StreamChoice>>)

  /** What reading a payload as a chunk gives: an exception, the JSON literal `null`, or a chunk. */
  datatype Decoded = Unreadable | NullChunk | Read(chunk: StreamChunk)

  /** The payload of a trimmed line: after `data:`, trimmed again, or the whole line. */
  function Payload(line: string): string {
    if StartsWith(line, DATA_PREFIX) then Trim(line[|DATA_PREFIX|..]) else line
  }

  /**
   * One line of a chunk: nothing for an empty line, an empty payload or
   * `[DONE]`; the first choice's delta content when the payload reads as a
   * chunk (nothing when there is no choice or the content is null);
   * otherwise, the exception handler included, the payload itself.
   */
  function LineFragments(line: string, decode: string -> Decoded): (r: seq<string>)
    ensures |r| <= 1
    ensures Trim(line) == "" || Payload(Trim(line)) == "" || Payload(Trim(line)) == DONE ==> r == []
    ensures |r| == 1 && r[0] != Payload(Trim(line)) ==> decode(Payload(Trim(line))).Read?
  {
    var l := Trim(line);
    if l == "" then []
    else
      var payload := Payload(l);
      if payload == "" || payload == DONE then []
      else
        match decode(payload)
        case Unreadable => [payload]
        case NullChunk => [payload]
        case Read(chunk) =>
          if chunk.choices.None? || |chunk.choices.value| == 0 then []
          else if chunk.choices.value[0].delta.None? then [payload]
          else if chunk.choices.value[0].delta.value.content.None? then []
          else [chunk.choices.value[0].delta.value.content.value]
  }

  /** Each item's fragments, in item order (`Flux.flatMap` over a finite source). */
  function FlatMap(xs: seq<string>, f: string -> seq<string>): seq<string> {
    if |xs| == 0 then [] else FlatMap(xs[..|xs| - 1], f) + f(xs[|xs| - 1])
  }

  /** `LineFragments` as the function `flatMap` is given. */
  function LineParser(decode: string -> Decoded): (f: string -> seq<string>)
    ensures forall line :: f(line) == LineFragments(line, decode)
  {
    line => LineFragments(line, decode)
  }

  /**
   * `parseStreamPayload`: nothing for a null or blank chunk; otherwise the
   * fragments of its lines. The lines are split on `\n` alone: a `\r` left
   * at a line's end is removed by the `trim` every line goes through, as
   * `\r?\n` would have removed it.
   */
  function ParseStreamPayload(raw: Option<string>, decode: string -> Decoded): (r: seq<string>)
    ensures NullOrBlank(raw) ==> r == []
  {
    if NullOrBlank(raw) then [] else FlatMap(Split(raw.value, '\n'), LineParser(decode))
  }

  /** Trailing empty items add nothing when the empty string has no fragments. */
  lemma {:induction false} FlatMapDropTrailing(xs: seq<string>, f: string -> seq<string>)
    requires f("") == []
    ensures FlatMap(DropTrailingEmpty(xs), f) == FlatMap(xs, f)
    decreases |xs|
  {
    if |xs| > 0 && xs[|xs| - 1] == "" {
      var init := xs[..|xs| - 1];
      assert DropTrailingEmpty(xs) == DropTrailingEmpty(init);
      assert FlatMap(xs, f) == FlatMap(init, f) + [];
      FlatMapDropTrailing(init, f);
    }
  }

  /** Splitting the `\n`-join of lines without `\n` and dropping what the split drops gives back their fragments. */
  lemma SplitJoinFlatMap(xs: seq<string>, f: string -> seq<string>)
    requires |xs| >= 1 && f("") == []
    requires forall k | 0 <= k < |xs| :: '\n' !in xs[k]
    ensures FlatMap(Split(Join(xs, '\n'), '\n'), f) == FlatMap(xs, f)
  {
    var s := Join(xs, '\n');
    if |xs| == 1 {
      assert s == xs[0];
      assert Split(s, '\n') == [s];
    } else {
      assert s == xs[0] + ['\n'] + Join(xs[1..], '\n');
      assert s[|xs[0]|] == '\n';
      PiecesOfJoin(xs, '\n');
      FlatMapDropTrailing(xs, f);
    }
  }

  /**
   * Events batched into one chunk give the same fragments as the same
   * events one at a time: a non-blank chunk of lines joined by `\n` yields
   * each line's fragments in order.
   */
  lemma StreamBatching(xs: seq<string>, decode: string -> Decoded)
    requires forall k | 0 <= k < |xs| :: '\n' !in xs[k]
    requires !IsBlank(Join(xs, '\n'))
    ensures ParseStreamPayload(Some(Join(xs, '\n')), decode) == FlatMap(xs, LineParser(decode))
  {
    assert |xs| >= 1;
    assert LineFragments("", decode) == [];
    SplitJoinFlatMap(xs, LineParser(decode));
  }

  /** A non-empty payload that `trim` leaves as it is. */
  predicate Trimmed(p: string) {
    |p| > 0 && !IsTrimmable(p[0]) && !IsTrimmable(p[|p| - 1])
  }

  /** The server-sent line carrying a payload. */
  function DataLine(p: string): string {
    DATA_PREFIX + " " + p
  }

  /** The payload of a `data:` line is what was written after the prefix. */
  lemma DataLinePayload(p: string)
    requires Trimmed(p)
    ensures Trim(DataLine(p)) == DataLine(p) && Payload(DataLine(p)) == p
  {
    var line := DataLine(p);
    assert line[|line| - 1] == p[|p| - 1];
    TrimNoop(line);
    assert StartsWith(line, DATA_PREFIX);
    var rest := line[|DATA_PREFIX|..];
    assert rest == " " + p;
    assert TrimStart(rest) == 1 by {
      assert rest[1..] == p;
      assert TrimStart(p) == 0;
    }
    assert TrimStop(rest) == |rest|;
    assert Trim(rest) == rest[1..] == p;
  }

  /** A `data:` line whose payload reads as a chunk with delta content gives exactly that content. */
  lemma DataLineContent(p: string, content: string, decode: string -> Decoded)
    requires Trimmed(p) && p != DONE
    requires decode(p) == Read(StreamChunk(Some([StreamChoice(Some(Delta(Some(content))))])))
    ensures LineFragments(DataLine(p), decode) == [content]
  {
    DataLinePayload(p);
  }

  /** A data line has no line break when its payload has none, and starts with `d`. */
  lemma DataLineShape(p: string)
    requires '\n' !in p
    ensures '\n' !in DataLine(p) && |DataLine(p)| > 0 && DataLine(p)[0] == 'd'
  {
  }

  /** Items that give one fragment each give those fragments in order. */
  lemma {:induction false} FlatMapSingles(xs: seq<string>, ys: seq<string>, f: string -> seq<string>)
    requires |xs| == |ys|
    requires forall k | 0 <= k < |xs| :: f(xs[k]) == [ys[k]]
    ensures FlatMap(xs, f) == ys
    decreases |xs|
  {
    if |xs| > 0 {
      var n := |xs| - 1;
      FlatMapSingles(xs[..n], ys[..n], f);
      assert ys == ys[..n] + [ys[n]];
    }
  }

  /** Payloads, one line each, that decode to chunks whose first delta carries `contents[k]`. */
  predicate Deltas(ps: seq<string>, contents: seq<string>, decode: string -> Decoded) {
    && |ps| == |contents|
    && (forall k | 0 <= k < |ps| :: Trimmed(ps[k]) && ps[k] != DONE && '\n' !in ps[k])
    && (forall k | 0 <= k < |ps| ::
          decode(ps[k]) == Read(StreamChunk(Some([StreamChoice(Some(Delta(Some(contents[k]))))]))))
  }

  lemma DataLinesSingles(lines: seq<string>, ps: seq<string>, contents: seq<string>, decode: string -> Decoded)
    requires Deltas(ps, contents, decode)
    requires |lines| == |ps| && forall k | 0 <= k < |ps| :: lines[k] == DataLine(ps[k])
    ensures forall k | 0 <= k < |lines| :: LineParser(decode)(lines[k]) == [contents[k]] && '\n' !in lines[k]
    ensures |lines| > 0 ==> |lines[0]| > 0 && !IsJavaWhitespace(lines[0][0])
  {
    forall k | 0 <= k < |lines|
      ensures LineParser(decode)(lines[k]) == [contents[k]] && '\n' !in lines[k]
    {
      DataLineContent(ps[k], contents[k], decode);
      DataLineShape(ps[k]);
    }
    if |lines| > 0 {
      DataLineShape(ps[0]);
    }
  }

  /** A join whose first item starts with a non-whitespace character is not blank. */
  lemma JoinNotBlank(lines: seq<string>)
    requires |lines| >= 1 && |lines[0]| > 0 && !IsJavaWhitespace(lines[0][0])
    ensures !IsBlank(Join(lines, '\n'))
  {
    JoinStartsWith(lines, '\n');
    assert Join(lines, '\n')[0] == lines[0][0];
  }

  /**
   * A chunk of `data:` lines, one per delta, streams the deltas' contents
   * in order: batching loses no token and adds none.
   */
  lemma DataChunkStreamsContents(lines: seq<string>, ps: seq<string>, contents: seq<string>, decode: string -> Decoded)
    requires Deltas(ps, contents, decode) && |ps| >= 1
    requires |lines| == |ps| && forall k | 0 <= k < |ps| :: lines[k] == DataLine(ps[k])
    ensures ParseStreamPayload(Some(Join(lines, '\n')), decode) == contents
  {
    DataLinesSingles(lines, ps, contents, decode);
    FlatMapSingles(lines, contents, LineParser(decode));
    JoinNotBlank(lines);
    StreamBatching(lines, decode);
  }

  // ----- answerStream -----

  /** What one streaming call did, as `Answered` for `answer`. */
  datatype Streamed = Streamed(result: Result<seq<string>, QueryError>, retrieved: bool, prompts: seq<string>)

  /** `parseStreamPayload` as the function `flatMap` is given. */
  function ChunkParser(decode: string -> Decoded): (f: string -> seq<string>)
    ensures forall chunk :: f(chunk) == ParseStreamPayload(Some(chunk), decode)
  {
    chunk => ParseStreamPayload(Some(chunk), decode)
  }

  /**
   * `streamChatCompletion`: an HTTP error whose code `HttpStatus` names keeps
   * its status and body, any other fails the cast; a body streams its fragments.
   */
  function StreamChat(call: StreamCall, decode: string -> Decoded): (r: Result<seq<string>, QueryError>)
    ensures call.StreamHttpError? <==> r.Failure?
    ensures r.Failure? ==> (r.error.OpenAi? <==> IsHttpStatus(call.status))
    ensures r.Failure? && r.error.OpenAi? ==> r.error == OpenAi(call.status, call.body)
    ensures r.Failure? && !r.error.OpenAi? ==> r.error == UncastableStatus(call.status)
  {
    match call
    case StreamHttpError(status, body) => HttpFailure(status, body)
    case StreamBody(chunks) => Success(FlatMap(chunks, ChunkParser(decode)))
  }

  /**
   * `answerStream` once routed or not: the graph route streams its one
   * answer (a null one cannot be streamed); no match streams the fixed
   * sentence; otherwise the completion is streamed from the same prompt
   * `answer` would send.
   */
  function StreamWith(req: Policies.QueryRequest, routed: Option<Router.RoutedAnswer>, svc: Services,
                      decode: string -> Decoded): (r: Streamed)
    ensures r.retrieved <==> routed.None?
  {
    match routed
    case Some(a) =>
      var prompt := KgPrompt(a);
      (match InvokeChat(svc.chat(prompt))
       case Failure(e) => Streamed(Failure(e), false, [prompt])
       case Success(None) => Streamed(Failure(NullFragment), false, [prompt])
       case Success(Some(text)) => Streamed(Success([text]), false, [prompt]))
    case None =>
      match Retrieve(req, svc)
      case Failure(e) => Streamed(Failure(e), true, [])
      case Success(matches) =>
        if |matches| == 0 then Streamed(Success([NO_MATCH]), true, [])
        else
          var prompt := BuildPrompt(req.query, matches);
          Streamed(StreamChat(svc.stream(prompt), decode), true, [prompt])
  }

  /** `answerStream`: route as `answer` does, then stream. */
  function AnswerStream(req: Policies.QueryRequest, kg: KgRoute, svc: Services, decode: string -> Decoded): (r: Streamed)
    requires ValidRoute(kg)
    ensures r.retrieved <==> Route(kg, req.query).None?
    ensures NullOrBlank(req.query) ==> r == StreamWith(req, None, svc, decode)
  {
    StreamWith(req, Route(kg, req.query), svc, decode)
  }

  /** Both endpoints, routed alike, retrieve alike and send the same prompt. */
  lemma StreamSendsSamePrompt(req: Policies.QueryRequest, routed: Option<Router.RoutedAnswer>, svc: Services,
                              decode: string -> Decoded)
    ensures StreamWith(req, routed, svc, decode).retrieved == AnswerWith(req, routed, svc).retrieved
    ensures StreamWith(req, routed, svc, decode).prompts == AnswerWith(req, routed, svc).prompts
  {
  }

  /**
   * On the graph route the stream is the one text `answer` replies with,
   * and fails exactly when that reply fails or is null.
   */
  lemma RoutedStreamIsAnswer(req: Policies.QueryRequest, routed: Router.RoutedAnswer, svc: Services, decode: string -> Decoded)
    ensures AnswerWith(req, Some(routed), svc).result.Success? && AnswerWith(req, Some(routed), svc).result.value.answer.Some?
            <==> StreamWith(req, Some(routed), svc, decode).result.Success?
    ensures StreamWith(req, Some(routed), svc, decode).result.Success? ==>
              StreamWith(req, Some(routed), svc, decode).result.value == [AnswerWith(req, Some(routed), svc).result.value.answer.value]
  {
  }

  /** With no match, both endpoints give the fixed sentence. */
  lemma NoMatchStreamIsAnswer(req: Policies.QueryRequest, svc: Services, decode: string -> Decoded)
    requires Retrieve(req, svc) == Success([])
    ensures StreamWith(req, None, svc, decode).result == Success([NO_MATCH])
    ensures AnswerWith(req, None, svc).result == Success(QueryResponse(Some(NO_MATCH), []))
  {
  }
}

=== FILE: router.dfy ===
/**
 * `QuestionRouterService`: ask the chat model to classify a question and,
 * for a confident `relation_count` intent, answer it from the knowledge
 * graph instead of from retrieval.
 */
module Router {
  import opened Wrappers
  import opened Chars
  import opened Graph
  import opened KgQuery

  /** Below this confidence an intent is ignored. */
  const MIN_CONFIDENCE: real := 0.4
  /** The one intent the router acts on, compared ignoring case. */
  const RELATION_COUNT: string := "relation_count"
  /** The scope of an answer not tied to a document. */
  const ALL_DOCUMENTS: string := "across all documents"

  /** `IntentPayload`, the JSON the classifier is asked for; `confidence` is a `double` read exactly. */
  datatype IntentPayload = IntentPayload(
    intent: Option<string>,
    subject: Option<string>,
    predicateName: Option<string>,
    objectPhrase: Option<string>,
    confidence: real)

  datatype IntentMessage = IntentMessage(role: Option<string>, content: Option<string>)
  datatype IntentChoice = IntentChoice(message: Option<IntentMessage>)
  /** The chat completion reply; `choices` may be missing. */
  datatype IntentResponse = IntentResponse(choices: Option<seq<IntentChoice>>)

  /** What `callIntent` does: throw, or return a reply (`block()` may give null). */
  datatype IntentCall = IntentThrew | IntentReturned(response: Option<IntentResponse>)

  /** The reply's first choice carries message content. */
  predicate HasContent(resp: IntentResponse) {
    && resp.choices.Some? && |resp.choices.value| > 0
    && resp.choices.value[0].message.Some? && resp.choices.value[0].message.value.content.Some?
  }

  /**
   * `IntentResponse.payload`: the first choice's message content decoded
   * as a payload; nothing when there is no such content or it does not decode.
   */
  function Payload(resp: IntentResponse, decode: string -> Option<IntentPayload>): (r: Option<IntentPayload>)
    ensures HasContent(resp) ==> r == decode(resp.choices.value[0].message.value.content.value)
    ensures !HasContent(resp) ==> r.None?
  {
    if resp.choices.None? || |resp.choices.value| == 0 then None
    else
      var first := resp.choices.value[0];
      if first.message.None? || first.message.value.content.None? then None
      else decode(first.message.value.content.value)
  }

  // ----- mapPredicates -----

  /** The configured predicate table, in its iteration order: predicate and its trigger words. */
  type PredicateTable = seq<(string, seq<string>)>

  /** An entry fires when the key contains one of its words, lower-cased. */
  predicate Fires(entry: (string, seq<string>), key: string) {
    exists k | 0 <= k < |entry.1| :: Contains(key, Lower(entry.1[k]))
  }

  /** The position of the first entry that fires. */
  function FirstFiring(table: PredicateTable, key: string): (r: Option<nat>)
    ensures r.None? <==> forall i | 0 <= i < |table| :: !Fires(table[i], key)
    ensures r.Some? ==> r.value < |table| && Fires(table[r.value], key)
                        && forall i | 0 <= i < r.value :: !Fires(table[i], key)
    decreases |table|
  {
    if |table| == 0 then None
    else if Fires(table[0], key) then Some(0)
    else
      match FirstFiring(table[1..], key)
      case None => None
      case Some(i) => Some(i + 1)
  }

  /**
   * `mapPredicates`: an explicit non-blank predicate wins, lower-cased;
   * otherwise the predicate of the first entry whose words occur in the
   * lower-cased object; otherwise the lower-cased object itself unless it
   * is blank.
   */
  function MapPredicates(table: PredicateTable, objectPhrase: Option<string>, predicateName: Option<string>): (r: seq<string>)
    ensures |r| <= 1
    ensures !NullOrBlank(predicateName) ==> r == [Lower(predicateName.value)]
    ensures NullOrBlank(predicateName) ==>
              var key := if objectPhrase.None? then "" else Lower(objectPhrase.value);
              && (FirstFiring(table, key).Some? ==> r == [table[FirstFiring(table, key).value].0])
              && (FirstFiring(table, key).None? ==> r == if IsBlank(key) then [] else [key])
  {
    if !NullOrBlank(predicateName) then [Lower(predicateName.value)]
    else
      var key := if objectPhrase.None? then "" else Lower(objectPhrase.value);
      match FirstFiring(table, key)
      case Some(i) => [table[i].0]
      case None => if IsBlank(key) then [] else [key]
  }

  /** The list is empty exactly when nothing names a predicate: no explicit one, no entry fires, a blank object. */
  lemma MapPredicatesEmpty(table: PredicateTable, objectPhrase: Option<string>, predicateName: Option<string>)
    ensures MapPredicates(table, objectPhrase, predicateName) == [] <==>
              && NullOrBlank(predicateName)
              && (forall i | 0 <= i < |table| :: !Fires(table[i], if objectPhrase.None? then "" else Lower(objectPhrase.value)))
              && IsBlank(if objectPhrase.None? then "" else Lower(objectPhrase.value))
  {
  }

  // ----- routing -----

  /** `KgRoutedAnswer`: a count and the title of the document it is limited to, if any. */
  datatype RoutedAnswer = RoutedAnswer(answer: CountAnswer, documentTitle: Option<string>)

  /** `scopeLabel`. */
  function ScopeLabel(a: RoutedAnswer): (r: string)
    ensures a.documentTitle.None? <==> r == ALL_DOCUMENTS
  {
    if a.documentTitle.None? then ALL_DOCUMENTS
    else
      var r := "within \"" + a.documentTitle.value + "\"";
      assert r[0] != ALL_DOCUMENTS[0];
      r
  }

  /** The payload the classifier gives for a question, if the call returns one. */
  function Classified(question: string, classify: string -> IntentCall, decode: string -> Option<IntentPayload>): Option<IntentPayload> {
    match classify(question)
    case IntentThrew => None
    case IntentReturned(None) => None
    case IntentReturned(Some(resp)) => Payload(resp, decode)
  }

  /** A payload the router acts on: a `relation_count` intent at confidence 0.4 or more. */
  predicate Actionable(p: IntentPayload) {
    p.intent.Some? && p.confidence >= MIN_CONFIDENCE && Lower(p.intent.value) == RELATION_COUNT
  }

  /** Trim an optional field. */
  function TrimOpt(s: Option<string>): Option<string> {
    if s.None? then None else Some(Trim(s.value))
  }

  /** The predicates an actionable payload maps to. */
  function PayloadPredicates(table: PredicateTable, p: IntentPayload): seq<string> {
    MapPredicates(table, TrimOpt(p.objectPhrase), TrimOpt(p.predicateName))
  }

  /**
   * `routeViaIntent`: for an actionable payload with a subject and at least
   * one predicate, `countRelations` on the trimmed subject and the first
   * predicate across all documents; every failure, an exception included,
   * means no route.
   */
  function RouteViaIntent(t: Tables, question: string, table: PredicateTable,
                          classify: string -> IntentCall, decode: string -> Option<IntentPayload>): (r: Option<RoutedAnswer>)
    requires AliasesIn(t.aliases, |t.entities|)
    ensures r.Some? ==> && Classified(question, classify, decode).Some?
                        && Actionable(Classified(question, classify, decode).value)
                        && Classified(question, classify, decode).value.subject.Some?
                        && |PayloadPredicates(table, Classified(question, classify, decode).value)| == 1
    ensures r.Some? ==> r.value.documentTitle.None? && r.value.answer.documentId.None?
  {
    match Classified(question, classify, decode)
    case None => None
    case Some(p) =>
      if !Actionable(p) then None
      else
        var predicates := PayloadPredicates(table, p);
        if p.subject.None? || |predicates| == 0 then None
        else
          match CountRelations(t, Some(Trim(p.subject.value)), Some(predicates[0]), None)
          case Failure(_) => None
          case Success(None) => None
          case Success(Some(a)) => Some(RoutedAnswer(a, None))
  }

  /** `routeToKnowledgeGraph`: a null or blank question is never routed; any other is classified trimmed. */
  function RouteToKnowledgeGraph(t: Tables, question: Option<string>, table: PredicateTable,
                                 classify: string -> IntentCall, decode: string -> Option<IntentPayload>): (r: Option<RoutedAnswer>)
    requires AliasesIn(t.aliases, |t.entities|)
    ensures NullOrBlank(question) ==> r.None?
    ensures r.Some? ==> ScopeLabel(r.value) == ALL_DOCUMENTS
  {
    if NullOrBlank(question) then None
    else RouteViaIntent(t, Trim(question.value), table, classify, decode)
  }

  /**
   * A routed answer is the relation count for the trimmed subject and the
   * first mapped predicate, which `countRelations` widens again through its
   * synonym rule.
   */
  lemma RoutedAnswerCounts(t: Tables, question: string, table: PredicateTable,
                           classify: string -> IntentCall, decode: string -> Option<IntentPayload>)
    requires AliasesIn(t.aliases, |t.entities|)
    requires RouteViaIntent(t, question, table, classify, decode).Some?
    ensures var p := Classified(question, classify, decode).value;
            CountRelations(t, Some(Trim(p.subject.value)), Some(PayloadPredicates(table, p)[0]), None)
            == Success(Some(RouteViaIntent(t, question, table, classify, decode).value.answer))
  {
  }

  /**
   * The converse: an actionable payload with a subject and a mapped
   * predicate whose relation count finds the subject routes to that count.
   */
  lemma ActionableRoutes(t: Tables, question: string, table: PredicateTable,
                         classify: string -> IntentCall, decode: string -> Option<IntentPayload>, a: CountAnswer)
    requires AliasesIn(t.aliases, |t.entities|)
    requires Classified(question, classify, decode).Some?
    requires var p := Classified(question, classify, decode).value;
             && Actionable(p) && p.subject.Some? && |PayloadPredicates(table, p)| >= 1
             && CountRelations(t, Some(Trim(p.subject.value)), Some(PayloadPredicates(table, p)[0]), None) == Success(Some(a))
    ensures RouteViaIntent(t, question, table, classify, decode) == Some(RoutedAnswer(a, None))
  {
  }

  /** Only a `relation_count` intent, in any case, at confidence 0.4 or more can route. */
  lemma OnlyConfidentRelationCountRoutes(t: Tables, question: string, table: PredicateTable,
                                         classify: string -> IntentCall, decode: string -> Option<IntentPayload>)
    requires AliasesIn(t.aliases, |t.entities|)
    requires Classified(question, classify, decode).Some? ==> !Actionable(Classified(question, classify, decode).value)
    ensures RouteViaIntent(t, question, table, classify, decode).None?
  {
  }

  // ----- clean -----

  /** The characters `clean` strips from the end: `?。，、！!;；`. */
  predicate IsTrailingPunct(c: char) {
    c == '?' || c == '。' || c == '，' || c == '、' || c == '！' || c == '!' || c == ';' || c == '；'
  }

  /** Where the trailing run of such characters starts. */
  function PunctRunStart(s: string): (k: nat)
    ensures k <= |s|
    ensures forall i | k <= i < |s| :: IsTrailingPunct(s[i])
    ensures k > 0 ==> !IsTrailingPunct(s[k - 1])
  {
    if |s| == 0 || !IsTrailingPunct(s[|s| - 1]) then |s| else PunctRunStart(s[..|s| - 1])
  }

  /**
   * The line terminators `trim` keeps (it drops only characters up to
   * U+0020). Without MULTILINE, Java's `$` also matches just before one
   * final line terminator, so the run may end there.
   */
  predicate IsKeptTerminator(c: char) {
    c == '\U{0085}' || c == '\U{2028}' || c == '\U{2029}'
  }

  /** Where `$` ends the punctuation run: before a final kept terminator, else at the end. */
  function RunEnd(t: string): (e: nat)
    ensures e <= |t|
    ensures e == |t| || (e == |t| - 1 && IsKeptTerminator(t[e]))
    ensures e < |t| <==> |t| > 0 && IsKeptTerminator(t[|t| - 1])
  {
    if |t| > 0 && IsKeptTerminator(t[|t| - 1]) then |t| - 1 else |t|
  }

  /**
   * `replaceAll("[?。，、！!;；]+$", "")`: the maximal run of such characters
   * ending at `$` goes, and whatever follows the anchor stays.
   */
  function StripPunctRun(t: string): (r: string)
    ensures var e := RunEnd(t); var k := PunctRunStart(t[..e]);
            && r == t[..k] + t[e..]
            && (forall i | k <= i < e :: IsTrailingPunct(t[i]))
            && (k > 0 ==> !IsTrailingPunct(t[k - 1]))
    ensures |t| > 0 && !IsKeptTerminator(t[|t| - 1]) ==> r == t[..PunctRunStart(t)]
  {
    var e := RunEnd(t);
    t[..PunctRunStart(t[..e])] + t[e..]
  }

  /**
   * `clean`: trim, drop the trailing run of punctuation, trim again; null
   * stays null. The router never calls it.
   */
  function Clean(input: Option<string>): (r: Option<string>)
    ensures input.None? <==> r.None?
    ensures r.Some? ==> Trim(r.value) == r.value
    ensures r.Some? ==> r.value == Trim(StripPunctRun(Trim(input.value)))
  {
    if input.None? then None
    else
      var stripped := StripPunctRun(Trim(input.value));
      TrimIdempotent(stripped);
      Some(Trim(stripped))
  }

  /** A final U+2028 stays, and the punctuation before it goes. */
  lemma CleanBeforeTerminator()
    ensures Clean(Some("a?\U{2028}")) == Some("a\U{2028}")
  {
    var s := "a?\U{2028}";
    TrimNoop(s);
    assert RunEnd(s) == 2;
    assert s[..2] == "a?";
    assert PunctRunStart("a?"[..1]) == 1;
    assert PunctRunStart("a?") == 1;
    assert StripPunctRun(s) == "a\U{2028}";
    TrimNoop("a\U{2028}");
    assert Clean(Some(s)) == Some(Trim(StripPunctRun(Trim(s))));
  }

  /** Stripping happens once: punctuation before a space survives a single clean. */
  lemma CleanNotIdempotent()
    ensures Clean(Some("a! ?")) == Some("a!")
    ensures Clean(Clean(Some("a! ?"))) == Some("a")
  {
    CleanKeepsInnerPunct();
    CleanDropsPunct();
  }

  lemma CleanKeepsInnerPunct()
    ensures Clean(Some("a! ?")) == Some("a!")
  {
    var s := "a! ?";
    TrimNoop(s);
    assert PunctRunStart(s[..3]) == 3;
    assert PunctRunStart(s) == 3;
    assert StripPunctRun(s) == "a! " by {
      assert !IsKeptTerminator(s[3]);
      assert s[..3] == "a! ";
    }
    assert Trim("a! ") == "a!" by {
      assert TrimStart("a! ") == 0;
      assert TrimStop("a! ") == 2;
    }
  }

  lemma CleanDropsPunct()
    ensures Clean(Some("a!")) == Some("a")
  {
    TrimNoop("a!");
    assert PunctRunStart("a!"[..1]) == 1;
    assert PunctRunStart("a!") == 1;
    assert StripPunctRun("a!") == "a" by {
      assert !IsKeptTerminator("a!"[1]);
      assert "a!"[..1] == "a";
    }
    TrimNoop("a");
  }


}

=== FILE: run_history.dfy ===
/**
 * `KgRunHistoryRepository`: one row per ingestion run in `kg_run_history`.
 * The table is kept in insertion order; the database hands out ids in
 * increasing order, which `nextId` stands for.
 */
module RunHistory {
  import opened Wrappers
  import opened Model

  /** The status a run is inserted with. */
  const STARTED: string := "STARTED"

  /** A stored row; every column but the id may be NULL. */
  datatype RunRow = RunRow(
    id: nat,
    startedAt: Option<Time>,
    completedAt: Option<Time>,
    status: Option<string>,
    processedCount: Option<int>,
    errorSummary: Option<string>)

  /** The table and the next id its sequence will hand out. */
  datatype History = History(rows: seq<RunRow>, nextId: nat)

  /** Ids increase along the table and stay below the next id. */
  predicate Ordered(h: History) {
    && (forall i, j | 0 <= i < j < |h.rows| :: h.rows[i].id < h.rows[j].id)
    && (forall i | 0 <= i < |h.rows| :: h.rows[i].id < h.nextId)
  }

  /** `startRun`: inserts a `STARTED` row stamped `now` and returns its id. */
  function StartRun(h: History, now: Time): (r: (History, nat))
    ensures r.1 == h.nextId
    ensures r.0.rows == h.rows + [RunRow(r.1, Some(now), None, Some(STARTED), None, None)]
    ensures Ordered(h) ==> Ordered(r.0)
  {
    (History(h.rows + [RunRow(h.nextId, Some(now), None, Some(STARTED), None, None)], h.nextId + 1), h.nextId)
  }

  /** The row a run gets when `finishRun` reaches it. */
  function Finished(row: RunRow, status: string, processedCount: int, errorSummary: Option<string>, now: Time): RunRow {
    row.(completedAt := Some(now), status := Some(status), processedCount := Some(processedCount), errorSummary := errorSummary)
  }

  /** `finishRun`: stamps completion, status, count and error on the row with that id. */
  function FinishRun(h: History, id: nat, status: string, processedCount: int,
                     errorSummary: Option<string>, now: Time): (r: History)
    ensures |r.rows| == |h.rows| && r.nextId == h.nextId
    ensures forall i | 0 <= i < |h.rows| ::
              r.rows[i] == if h.rows[i].id == id then Finished(h.rows[i], status, processedCount, errorSummary, now) else h.rows[i]
  {
    History(seq(|h.rows|, i requires 0 <= i < |h.rows| =>
      if h.rows[i].id == id then Finished(h.rows[i], status, processedCount, errorSummary, now) else h.rows[i]), h.nextId)
  }

  /** Finishing a run keeps the ids, so the table stays ordered. */
  lemma FinishRunOrdered(h: History, id: nat, status: string, processedCount: int,
                         errorSummary: Option<string>, now: Time)
    requires Ordered(h)
    ensures Ordered(FinishRun(h, id, status, processedCount, errorSummary, now))
  {
    var r := FinishRun(h, id, status, processedCount, errorSummary, now);
    assert forall i | 0 <= i < |h.rows| :: r.rows[i].id == h.rows[i].id;
  }

  /** What `recentRuns` returns for a row: `getInt` reads a NULL count as 0. */
  datatype RunRecord = RunRecord(
    id: nat,
    startedAt: Option<Time>,
    completedAt: Option<Time>,
    status: Option<string>,
    processedCount: int,
    errorSummary: Option<string>)

  function View(row: RunRow): RunRecord {
    RunRecord(row.id, row.startedAt, row.completedAt, row.status, row.processedCount.GetOr(0), row.errorSummary)
  }

  /** The database refuses a negative `LIMIT`. */
  datatype QueryError = NegativeLimit

  /** `recentRuns`: the rows by descending id, at most `limit` of them. */
  function RecentRuns(h: History, limit: int): (r: Result<seq<RunRecord>, QueryError>)
    ensures limit < 0 <==> r.Failure?
    ensures r.Success? ==> |r.value| == if limit < |h.rows| then limit else |h.rows|
    ensures r.Success? ==> forall k | 0 <= k < |r.value| :: r.value[k] == View(h.rows[|h.rows| - 1 - k])
  {
    if limit < 0 then Failure(NegativeLimit)
    else
      var n := if limit < |h.rows| then limit else |h.rows|;
      Success(seq(n, k requires 0 <= k < n => View(h.rows[|h.rows| - 1 - k])))
  }

  /**
   * On an ordered table `recentRuns` lists the newest runs first: ids
   * strictly decrease, and no row left out is newer than one listed.
   */
  lemma RecentRunsNewestFirst(h: History, limit: int)
    requires Ordered(h) && limit >= 0
    ensures forall a, b | 0 <= a < b < |RecentRuns(h, limit).value| ::
              RecentRuns(h, limit).value[a].id > RecentRuns(h, limit).value[b].id
    ensures forall i, k | 0 <= i < |h.rows| && 0 <= k < |RecentRuns(h, limit).value| ::
              h.rows[i].id > RecentRuns(h, limit).value[k].id ==> View(h.rows[i]) in RecentRuns(h, limit).value
  {
    var out := RecentRuns(h, limit).value;
    forall i, k | 0 <= i < |h.rows| && 0 <= k < |out| && h.rows[i].id > out[k].id
      ensures View(h.rows[i]) in out
    {
      var j := |h.rows| - 1 - k;
      assert out[k].id == h.rows[j].id;
      assert i > j;
      assert out[|h.rows| - 1 - i] == View(h.rows[i]);
    }
  }

  /**
   * A run just started is the newest: `recentRuns(1)` shows exactly it,
   * `STARTED`, with no completion time and a count of 0.
   */
  lemma StartedRunIsNewest(h: History, now: Time)
    ensures RecentRuns(StartRun(h, now).0, 1)
            == Success([RunRecord(h.nextId, Some(now), None, Some(STARTED), 0, None)])
  {
    var h' := StartRun(h, now).0;
    var out := RecentRuns(h', 1).value;
    assert |out| == 1;
    assert out[0] == View(h'.rows[|h.rows|]);
    assert h'.rows[|h.rows|] == RunRow(h.nextId, Some(now), None, Some(STARTED), None, None);
    assert out == [RunRecord(h.nextId, Some(now), None, Some(STARTED), 0, None)];
  }
}

=== FILE: upload.dfy ===
/**
 * `UploadController.upload`: a PDF goes through fingerprinting, duplicate
 * detection, text extraction, category resolution, chunking, embedding and
 * storage, and then triggers a knowledge-graph ingestion run. The database
 * is the pair of tables it writes; the digest, the PDF reader, the chat and
 * embedding endpoints and the random ids are parameters.
 */
module Upload {
  import opened Wrappers
  import opened Chars
  import opened Bytes
  import opened Model
  import Policies
  import Chunker
  import Embedding
  import VectorStore

  /** The category the classifier falls back to. */
  const FALLBACK_CATEGORY: string := "other"

  /** The `source_type` of uploaded documents. */
  const SOURCE_UPLOAD: string := "upload"

  /** How many pending documents the ingestion run triggered by an upload claims. */
  const KG_TRIGGER_LIMIT: int := 5

  /** The size of a SHA-256 digest, in bytes. */
  const DIGEST_BYTES: nat := 32

  /** The multipart file part; `readable` is false when reading its bytes fails. */
  datatype FilePart = FilePart(filename: Option<string>, bytes: seq<Byte>, readable: bool)

  /** The two tables an upload writes. */
  datatype Store = Store(docs: Documents, chunks: ChunkTable)

  /** The HTTP outcome: the `UploadResponse` body, or an error status with its reason. */
  datatype Response =
    | Ok(documentId: Uuid, chunkCount: nat)
    | Conflict(existingId: Uuid)
    | BadRequest(reason: string)
    | ServerError(reason: string)

  /**
   * The exception behind an error response: the PDF reader's, the embedding
   * client's, or the one `findByExternalId` throws when more than one row
   * carries the fingerprint, which nothing in `upload` catches.
   */
  datatype Failure =
    | ExtractionFailed
    | EmbeddingFailed(error: Embedding.EmbeddingError)
    | NonUniqueResult

  /** The reason Spring Boot's error handling gives an exception no handler catches. */
  const UNHANDLED_ERROR: string := "Internal Server Error"

  /** Configuration and collaborators. */
  datatype Services = Services(
    chunkSize: int,
    chunkOverlap: int,
    batchSize: int,
    labelList: string,
    sha256: seq<Byte> -> seq<Byte>,
    extractText: seq<Byte> -> Option<string>,
    chat: Policies.ChatModel,
    embeddingApi: seq<string> -> Embedding.ApiReply)

  /** The `%02x` rendering of the file's digest, stored as the document's `external_id`. */
  function Fingerprint(sha256: seq<Byte> -> seq<Byte>, bytes: seq<Byte>): (fp: string)
    ensures |fp| == 2 * |sha256(bytes)|
    ensures |sha256(bytes)| == DIGEST_BYTES ==> |fp| == 64
  {
    Hex(sha256(bytes))
  }

  /**
   * Two files share a fingerprint exactly when their digests are equal:
   * duplicate detection is as precise as the digest.
   */
  lemma FingerprintIffDigest(sha256: seq<Byte> -> seq<Byte>, a: seq<Byte>, b: seq<Byte>)
    ensures Fingerprint(sha256, a) == Fingerprint(sha256, b) <==> sha256(a) == sha256(b)
  {
    if Fingerprint(sha256, a) == Fingerprint(sha256, b) {
      HexInjective(sha256(a), sha256(b));
    }
  }

  /** `findByExternalId` finds a row. */
  predicate HasExternalId(docs: Documents, fp: string) {
    exists id | id in docs :: docs[id].externalId == Some(fp)
  }

  /**
   * The rows `findByExternalId` matches. Its result is an `Optional`, so it
   * returns the row when there is one and throws when there are several.
   */
  function Holders(docs: Documents, fp: string): (h: set<Uuid>)
    ensures h <= docs.Keys
    ensures forall id | id in docs :: id in h <==> docs[id].externalId == Some(fp)
  {
    set id | id in docs && docs[id].externalId == Some(fp)
  }

  /** Some row matches exactly when the set of matching rows is not empty. */
  lemma HoldersNonEmpty(docs: Documents, fp: string)
    ensures HasExternalId(docs, fp) <==> Holders(docs, fp) != {}
  {
    if HasExternalId(docs, fp) {
      var id :| id in docs && docs[id].externalId == Some(fp);
      assert id in Holders(docs, fp);
    }
  }

  /** No two documents share an external id. The table itself does not enforce this. */
  predicate UniqueExternalIds(docs: Documents) {
    forall a, b | a in docs && b in docs && docs[a].externalId.Some? && docs[a].externalId == docs[b].externalId :: a == b
  }

  /** On such a table at most one row matches any fingerprint. */
  lemma UniqueHolder(docs: Documents, fp: string)
    requires UniqueExternalIds(docs)
    ensures |Holders(docs, fp)| <= 1
  {
    var h := Holders(docs, fp);
    if h != {} {
      var x :| x in h;
      assert h == {x};
    }
  }

  /** Two documents with the same fingerprint make the lookup ambiguous. */
  lemma SharedFingerprintIsAmbiguous(docs: Documents, fp: string, a: Uuid, b: Uuid)
    requires a in docs && b in docs && a != b
    requires docs[a].externalId == Some(fp) && docs[b].externalId == Some(fp)
    ensures |Holders(docs, fp)| >= 2
  {
    assert {a, b} <= Holders(docs, fp);
    assert |{a, b}| == 2;
    SubsetCard({a, b}, Holders(docs, fp));
  }

  lemma SingletonHolder(h: set<Uuid>, x: Uuid)
    requires |h| == 1 && x in h
    ensures h == {x}
  {
    assert |h - {x}| == 0;
  }

  /** `resolveCategory`: a non-blank category given with the request wins; otherwise the classifier decides. */
  function ResolveCategory(provided: Option<string>, text: string, labelList: string, chat: Policies.ChatModel): (c: string)
    ensures !NullOrBlank(provided) ==> c == provided.value
    ensures NullOrBlank(provided) ==> c == Policies.Classify(Some(text), FALLBACK_CATEGORY, labelList, chat).0
    ensures NullOrBlank(provided) && IsBlank(text) ==> c == FALLBACK_CATEGORY
  {
    if !NullOrBlank(provided) then provided.value
    else Policies.Classify(Some(text), FALLBACK_CATEGORY, labelList, chat).0
  }

  /** `persistDocument`: the new row, with no knowledge-graph status yet. */
  function NewDocument(filename: Option<string>, category: string, fingerprint: string): (d: Document)
    ensures IsClaimable(d)
    ensures d.externalId == Some(fingerprint)
  {
    Document(filename, Some(SOURCE_UPLOAD), Some(fingerprint), Some(category), None, None, None, None)
  }

  /** Chunk `i` gets embedding `i`. */
  function AttachEmbeddings(chunks: seq<Chunk>, vectors: seq<Vec>): (r: seq<Chunk>)
    requires |vectors| == |chunks|
    ensures |r| == |chunks|
    ensures forall i | 0 <= i < |r| :: r[i] == chunks[i].(embedding := Some(vectors[i]))
  {
    seq(|chunks|, i requires 0 <= i < |chunks| => chunks[i].(embedding := Some(vectors[i])))
  }

  /** The chunk contents handed to `embedBatch`. */
  function Contents(chunks: seq<Chunk>): (r: seq<Option<string>>)
    ensures |r| == |chunks|
    ensures forall i | 0 <= i < |r| :: r[i] == Some(chunks[i].content)
  {
    seq(|chunks|, i requires 0 <= i < |chunks| => Some(chunks[i].content))
  }

  /** `chunk` applied to the extracted text. */
  function TextChunks(svc: Services, documentId: Uuid, text: string, chunkIds: nat -> Uuid): seq<Chunk>
    requires svc.chunkSize >= 1
  {
    Chunker.ChunkText(documentId, Some(text), svc.chunkSize, svc.chunkOverlap, chunkIds)
  }

  /** The outcome of embedding the chunk contents when every batch is answered in one go. */
  function Embedded(svc: Services, chunks: seq<Chunk>): Result<seq<Vec>, Embedding.EmbeddingError> {
    Embedding.CallAll(Embedding.Plan(Some(Contents(chunks)), svc.batchSize), svc.embeddingApi)
  }

  /**
   * The vector each chunk receives: the empty vector for a blank content,
   * otherwise the reply entry at the chunk's place among those sent.
   */
  function ExpectedVectors(svc: Services, chunks: seq<Chunk>): (r: seq<Vec>)
    requires Embedded(svc, chunks).Success?
    ensures |r| == |chunks|
  {
    var ts := Contents(chunks);
    seq(|ts|, j requires 0 <= j < |ts| =>
      if Embedding.Skipped(ts[j]) then [] else Embedded(svc, chunks).value[Embedding.Rank(ts, j)])
  }

  /** `embedBatch` over the chunk contents, as the controller calls it. */
  method EmbedChunks(svc: Services, chunks: seq<Chunk>) returns (r: Result<seq<Vec>, Embedding.EmbeddingError>)
    ensures r.Success? <==> Embedded(svc, chunks).Success?
    ensures r.Success? ==> r.value == ExpectedVectors(svc, chunks)
    ensures r.Failure? ==> r.error == Embedded(svc, chunks).error
  {
    var ts := Some(Contents(chunks));
    var calls;
    r, calls := Embedding.EmbedBatch(ts, svc.batchSize, svc.embeddingApi);
    if r.Success? {
      assert |r.value| == |chunks|;
      forall j | 0 <= j < |chunks| ensures r.value[j] == ExpectedVectors(svc, chunks)[j] {
        assert Embedding.Items(ts)[j] == Contents(chunks)[j];
      }
    }
  }

  /** What `persistChunks` makes of the text's chunks with their vectors attached. */
  function StoredChunks(svc: Services, table: ChunkTable, documentId: Uuid, text: string, chunkIds: nat -> Uuid): (ChunkTable, nat)
    requires svc.chunkSize >= 1
    requires Embedded(svc, TextChunks(svc, documentId, text, chunkIds)).Success?
  {
    var chunks := TextChunks(svc, documentId, text, chunkIds);
    VectorStore.PersistChunks(table, Some(AttachEmbeddings(chunks, ExpectedVectors(svc, chunks))), chunkIds)
  }

  /** Steps 2 to 4 of the pipeline: chunk the text, embed the chunks, store them. */
  method IngestText(svc: Services, table: ChunkTable, documentId: Uuid, text: string, chunkIds: nat -> Uuid)
    returns (r: Result<(ChunkTable, nat), Embedding.EmbeddingError>)
    requires svc.chunkSize >= 1
    ensures r.Success? <==> Embedded(svc, TextChunks(svc, documentId, text, chunkIds)).Success?
    ensures r.Success? ==> r.value == StoredChunks(svc, table, documentId, text, chunkIds)
    ensures r.Failure? ==> r.error == Embedded(svc, TextChunks(svc, documentId, text, chunkIds)).error
  {
    var chunks := TextChunks(svc, documentId, text, chunkIds);
    var embedded := EmbedChunks(svc, chunks);
    if embedded.Failure? {
      return Failure(embedded.error);
    }
    var withVectors := AttachEmbeddings(chunks, embedded.value);
    return Success(VectorStore.PersistChunks(table, Some(withVectors), chunkIds));
  }

  /**
   * `upload`. Returns the response, the tables afterwards, and the claim
   * limit of the ingestion run started in the background (`None` if none).
   * The random document id and the chunk ids are parameters.
   */
  method HandleUpload(store: Store, file: Option<FilePart>, category: Option<string>,
                      documentId: Uuid, chunkIds: nat -> Uuid, svc: Services)
    returns (resp: Response, after: Store, kgRun: Option<int>, failure: Option<Failure>)
    requires svc.chunkSize >= 1
    ensures file.None? || |file.value.bytes| == 0 ==>
              resp == BadRequest("PDF file is required") && after == store && kgRun.None?
    ensures resp.Conflict? ==>
              && file.Some? && file.value.readable
              && Holders(store.docs, Fingerprint(svc.sha256, file.value.bytes)) == {resp.existingId}
              && after == store && kgRun.None?
    ensures file.Some? && |file.value.bytes| > 0 && file.value.readable ==>
              (resp.Conflict? <==> |Holders(store.docs, Fingerprint(svc.sha256, file.value.bytes))| == 1)
    ensures file.Some? && |file.value.bytes| > 0 && file.value.readable ==>
              (failure == Some(NonUniqueResult) <==> |Holders(store.docs, Fingerprint(svc.sha256, file.value.bytes))| >= 2)
    ensures failure == Some(NonUniqueResult) ==> resp == ServerError(UNHANDLED_ERROR) && after == store && kgRun.None?
    ensures file.Some? && |file.value.bytes| > 0 && !file.value.readable ==>
              resp == ServerError("Unable to read uploaded PDF") && after == store && kgRun.None?
    ensures failure == Some(ExtractionFailed) ==> after == store && resp.ServerError? && kgRun.None?
    ensures failure.Some? && failure.value.EmbeddingFailed? ==>
              && resp.ServerError? && kgRun.None?
              && after.chunks == store.chunks
    ensures resp.Ok? || (failure.Some? && failure.value.EmbeddingFailed?) ==>
              && file.Some? && svc.extractText(file.value.bytes).Some?
              && after.docs == store.docs[documentId := NewDocument(
                   file.value.filename,
                   ResolveCategory(category, svc.extractText(file.value.bytes).value, svc.labelList, svc.chat),
                   Fingerprint(svc.sha256, file.value.bytes))]
    ensures failure.Some? && failure.value.EmbeddingFailed? ==>
              && Embedded(svc, TextChunks(svc, documentId, svc.extractText(file.value.bytes).value, chunkIds)).Failure?
              && failure.value.error == Embedded(svc, TextChunks(svc, documentId, svc.extractText(file.value.bytes).value, chunkIds)).error
    ensures resp.Ok? ==>
              && resp.documentId == documentId
              && kgRun == Some(KG_TRIGGER_LIMIT)
              && failure.None?
              && Embedded(svc, TextChunks(svc, documentId, svc.extractText(file.value.bytes).value, chunkIds)).Success?
              && (after.chunks, resp.chunkCount)
                 == StoredChunks(svc, store.chunks, documentId, svc.extractText(file.value.bytes).value, chunkIds)
  {
    if file.None? || |file.value.bytes| == 0 {
      return BadRequest("PDF file is required"), store, None, None;
    }
    var part := file.value;
    if !part.readable {
      return ServerError("Unable to read uploaded PDF"), store, None, None;
    }
    var fingerprint := Fingerprint(svc.sha256, part.bytes);
    var holders := Holders(store.docs, fingerprint);
    if |holders| >= 2 {
      return ServerError(UNHANDLED_ERROR), store, None, Some(NonUniqueResult);
    }
    if |holders| == 1 {
      var existing :| existing in holders;
      SingletonHolder(holders, existing);
      return Conflict(existing), store, None, None;
    }
    var extracted := svc.extractText(part.bytes);
    if extracted.None? {
      return ServerError("Unable to read PDF content"), store, None, Some(ExtractionFailed);
    }
    var text := extracted.value;
    var resolved := ResolveCategory(category, text, svc.labelList, svc.chat);
    var docs := store.docs[documentId := NewDocument(part.filename, resolved, fingerprint)];
    var stored := IngestText(svc, store.chunks, documentId, text, chunkIds);
    if stored.Failure? {
      return ServerError("embedding failed"), Store(docs, store.chunks), None, Some(EmbeddingFailed(stored.error));
    }
    var (table, count) := stored.value;
    return Ok(documentId, count), Store(docs, table), Some(KG_TRIGGER_LIMIT), None;
  }

  /**
   * The document an upload saves is the one a second upload of the same file
   * finds; when no row held the fingerprint before, it is the only one.
   */
  lemma SavedUploadIsDuplicate(docs: Documents, documentId: Uuid, filename: Option<string>, category: string, fp: string)
    ensures HasExternalId(docs[documentId := NewDocument(filename, category, fp)], fp)
    ensures IsClaimable(docs[documentId := NewDocument(filename, category, fp)][documentId])
    ensures !HasExternalId(docs, fp) ==> Holders(docs[documentId := NewDocument(filename, category, fp)], fp) == {documentId}
  {
    var saved := docs[documentId := NewDocument(filename, category, fp)];
    assert saved[documentId].externalId == Some(fp);
    if !HasExternalId(docs, fp) {
      forall id | id in saved && id != documentId
        ensures saved[id].externalId != Some(fp)
      {
        assert id in docs && saved[id] == docs[id];
      }
    }
  }

  /**
   * Uploads one after another never make the lookup ambiguous: a document is
   * saved only when no row holds its fingerprint, so unique external ids stay
   * unique. Only two uploads racing past the check can save the same one twice.
   */
  lemma UploadKeepsFingerprintsUnique(docs: Documents, documentId: Uuid, filename: Option<string>, category: string, fp: string)
    requires UniqueExternalIds(docs) && !HasExternalId(docs, fp)
    ensures UniqueExternalIds(docs[documentId := NewDocument(filename, category, fp)])
  {
    var saved := docs[documentId := NewDocument(filename, category, fp)];
    forall a, b | a in saved && b in saved && saved[a].externalId.Some? && saved[a].externalId == saved[b].externalId
      ensures a == b
    {
      if a != documentId && b != documentId {
        assert saved[a] == docs[a] && saved[b] == docs[b];
      }
    }
  }

  /** Chunk `i` of the text carries id `chunkIds(i)`. */
  lemma TextChunkIds(svc: Services, documentId: Uuid, text: string, chunkIds: nat -> Uuid)
    requires svc.chunkSize >= 1
    ensures forall i | 0 <= i < |TextChunks(svc, documentId, text, chunkIds)| ::
              TextChunks(svc, documentId, text, chunkIds)[i].id == Some(chunkIds(i))
  {
    var s := Chunker.Sanitize(Some(text));
    var ws := Chunker.TextWindows(s, svc.chunkSize, svc.chunkOverlap);
    assert TextChunks(svc, documentId, text, chunkIds) == Chunker.ChunksOf(documentId, s, ws, chunkIds);
  }

  /**
   * With distinct chunk ids, the count in the response is the number of
   * rows the upload wrote, and the table gained exactly those rows.
   */
  lemma UploadCountIsRowsWritten(svc: Services, table: ChunkTable, documentId: Uuid, text: string, chunkIds: nat -> Uuid)
    requires svc.chunkSize >= 1
    requires Embedded(svc, TextChunks(svc, documentId, text, chunkIds)).Success?
    requires forall i: nat, j: nat | i < j :: chunkIds(i) != chunkIds(j)
    ensures StoredChunks(svc, table, documentId, text, chunkIds).1
            == |VectorStore.Written(AttachEmbeddings(TextChunks(svc, documentId, text, chunkIds),
                                                     ExpectedVectors(svc, TextChunks(svc, documentId, text, chunkIds))), chunkIds)|
    ensures StoredChunks(svc, table, documentId, text, chunkIds).0.Keys
            == table.Keys + VectorStore.Written(AttachEmbeddings(TextChunks(svc, documentId, text, chunkIds),
                                                     ExpectedVectors(svc, TextChunks(svc, documentId, text, chunkIds))), chunkIds)
  {
    var chunks := TextChunks(svc, documentId, text, chunkIds);
    var cs := AttachEmbeddings(chunks, ExpectedVectors(svc, chunks));
    TextChunkIds(svc, documentId, text, chunkIds);
    assert forall k | 0 <= k < |cs| :: VectorStore.RowId(cs, k, chunkIds) == chunkIds(k);
    assert VectorStore.DistinctRows(cs, chunkIds);
    VectorStore.CountIsRowsWritten(cs, chunkIds);
    VectorStore.PersistFrame(table, cs, chunkIds);
  }
}

=== FILE: vector_store.dfy ===
/**
 * `VectorStoreService`: chunk upserts into the `chunks` table, nearest-
 * neighbour search through a database oracle, and the in-memory TTL cache
 * of search results keyed by the query's bytes.
 */
module VectorStore {
  import opened Wrappers
  import opened Chars
  import opened Bytes
  import opened Model

  /** `vector.cache.enabled` and `vector.cache.ttl-seconds` defaults. */
  const DEFAULT_CACHE_ENABLED: bool := true
  const DEFAULT_TTL_SECONDS: int := 300

  /** Bytes the cache key reserves for the category after the vector and `topK`. */
  const CATEGORY_RESERVE: nat := 64

  datatype Config = Config(cacheEnabled: bool, ttlSeconds: int)

  /** `cacheTtlSeconds * 1000`. */
  function TtlMillis(c: Config): int {
    c.ttlSeconds * 1000
  }

  // ----- persistChunks -----

  /** Only chunks with a non-empty embedding are written. */
  predicate Embedded(c: Chunk) {
    c.embedding.Some? && |c.embedding.value| > 0
  }

  /** The id a chunk is written under: its own, or a fresh random one. */
  function RowId(cs: seq<Chunk>, k: nat, freshId: nat -> Uuid): Uuid
    requires k < |cs|
  {
    cs[k].id.GetOr(freshId(k))
  }

  /**
   * `INSERT ... ON CONFLICT (id) DO UPDATE SET content, embedding`: a new id
   * gets a full row, an existing one only its content and embedding.
   */
  function Upsert(t: ChunkTable, id: Uuid, c: Chunk): (r: ChunkTable)
    requires Embedded(c)
    ensures r.Keys == t.Keys + {id}
    ensures r[id].content == c.content && r[id].embedding == c.embedding.value
    ensures id in t ==> r[id].documentId == t[id].documentId && r[id].chunkIndex == t[id].chunkIndex
    ensures id !in t ==> r[id].documentId == c.documentId && r[id].chunkIndex == c.chunkIndex
    ensures forall other | other in t && other != id :: r[other] == t[other]
  {
    if id in t then t[id := t[id].(content := c.content, embedding := c.embedding.value)]
    else t[id := StoredChunk(c.documentId, c.chunkIndex, c.content, c.embedding.value)]
  }

  /** The ids the chunks with an embedding are written under. */
  function Written(cs: seq<Chunk>, freshId: nat -> Uuid): set<Uuid> {
    set k | 0 <= k < |cs| && Embedded(cs[k]) :: RowId(cs, k, freshId)
  }

  /** No later chunk with an embedding is written under the same id as chunk `k`. */
  predicate LastWriter(cs: seq<Chunk>, k: nat, freshId: nat -> Uuid)
    requires k < |cs|
  {
    forall k' | k < k' < |cs| && Embedded(cs[k']) :: RowId(cs, k', freshId) != RowId(cs, k, freshId)
  }

  lemma WrittenSnoc(cs: seq<Chunk>, freshId: nat -> Uuid)
    requires |cs| > 0
    ensures forall k | 0 <= k < |cs| - 1 :: RowId(cs[..|cs| - 1], k, freshId) == RowId(cs, k, freshId)
    ensures Written(cs, freshId) == Written(cs[..|cs| - 1], freshId)
              + (if Embedded(cs[|cs| - 1]) then {RowId(cs, |cs| - 1, freshId)} else {})
  {
    var n := |cs| - 1;
    var init := cs[..n];
    assert forall k | 0 <= k < n :: RowId(init, k, freshId) == RowId(cs, k, freshId);
    var lhs := Written(cs, freshId);
    var rhs := Written(init, freshId) + (if Embedded(cs[n]) then {RowId(cs, n, freshId)} else {});
    forall id | id in lhs ensures id in rhs {
      var k :| 0 <= k < |cs| && Embedded(cs[k]) && RowId(cs, k, freshId) == id;
      if k < n {
        assert RowId(init, k, freshId) == id;
      }
    }
    forall id | id in rhs ensures id in lhs {
      if id in Written(init, freshId) {
        var k :| 0 <= k < n && Embedded(init[k]) && RowId(init, k, freshId) == id;
        assert Embedded(cs[k]) && RowId(cs, k, freshId) == id;
      }
    }
  }

  /** The table after upserting the chunks with an embedding, in order. */
  function Persist(t: ChunkTable, cs: seq<Chunk>, freshId: nat -> Uuid): ChunkTable
  {
    if |cs| == 0 then t
    else
      var n := |cs| - 1;
      var prev := Persist(t, cs[..n], freshId);
      if Embedded(cs[n]) then Upsert(prev, RowId(cs, n, freshId), cs[n]) else prev
  }

  /**
   * Persisting adds exactly the written ids; rows no chunk is written to are
   * untouched, and an existing row keeps its document and index.
   */
  lemma {:induction false} PersistFrame(t: ChunkTable, cs: seq<Chunk>, freshId: nat -> Uuid)
    ensures Persist(t, cs, freshId).Keys == t.Keys + Written(cs, freshId)
    ensures forall id | id in t && id !in Written(cs, freshId) :: Persist(t, cs, freshId)[id] == t[id]
    ensures forall id | id in t ::
              && Persist(t, cs, freshId)[id].documentId == t[id].documentId
              && Persist(t, cs, freshId)[id].chunkIndex == t[id].chunkIndex
    decreases |cs|
  {
    if |cs| > 0 {
      PersistStep(t, cs, freshId);
      WrittenSnoc(cs, freshId);
      PersistFrame(t, cs[..|cs| - 1], freshId);
    }
  }

  lemma PersistStep(t: ChunkTable, cs: seq<Chunk>, freshId: nat -> Uuid)
    requires |cs| > 0
    ensures Persist(t, cs, freshId)
            == if Embedded(cs[|cs| - 1])
               then Upsert(Persist(t, cs[..|cs| - 1], freshId), RowId(cs, |cs| - 1, freshId), cs[|cs| - 1])
               else Persist(t, cs[..|cs| - 1], freshId)
  {
  }

  lemma LastWriterInit(cs: seq<Chunk>, k: nat, freshId: nat -> Uuid)
    requires k < |cs| - 1 && LastWriter(cs, k, freshId)
    ensures cs[..|cs| - 1][k] == cs[k]
    ensures RowId(cs[..|cs| - 1], k, freshId) == RowId(cs, k, freshId)
    ensures LastWriter(cs[..|cs| - 1], k, freshId)
  {
    var init := cs[..|cs| - 1];
    forall k' | k < k' < |init| && Embedded(init[k'])
      ensures RowId(init, k', freshId) != RowId(init, k, freshId)
    {
      assert init[k'] == cs[k'];
    }
  }

  /** Each id holds the content and embedding of the last chunk written under it. */
  lemma {:induction false} PersistLastWriterWins(t: ChunkTable, cs: seq<Chunk>, freshId: nat -> Uuid, k: nat)
    requires k < |cs| && Embedded(cs[k]) && LastWriter(cs, k, freshId)
    ensures RowId(cs, k, freshId) in Persist(t, cs, freshId)
    ensures Persist(t, cs, freshId)[RowId(cs, k, freshId)].content == cs[k].content
    ensures Persist(t, cs, freshId)[RowId(cs, k, freshId)].embedding == cs[k].embedding.value
    decreases |cs|
  {
    var n := |cs| - 1;
    PersistStep(t, cs, freshId);
    if k < n {
      LastWriterInit(cs, k, freshId);
      PersistLastWriterWins(t, cs[..n], freshId, k);
      if Embedded(cs[n]) {
        assert RowId(cs, n, freshId) != RowId(cs, k, freshId);
      }
    }
  }

  /** How many chunks carry an embedding. */
  function CountEmbedded(cs: seq<Chunk>): (n: nat)
    ensures n <= |cs|
  {
    if |cs| == 0 then 0 else CountEmbedded(cs[..|cs| - 1]) + (if Embedded(cs[|cs| - 1]) then 1 else 0)
  }

  /** `persistChunks`: the new table and the count it reports; a null or empty list writes nothing. */
  function PersistChunks(t: ChunkTable, chunks: Option<seq<Chunk>>, freshId: nat -> Uuid): (r: (ChunkTable, nat))
    ensures chunks.None? ==> r == (t, 0)
    ensures chunks.Some? ==> r.0 == Persist(t, chunks.value, freshId) && r.1 == CountEmbedded(chunks.value)
  {
    if chunks.None? || |chunks.value| == 0 then (t, 0)
    else (Persist(t, chunks.value, freshId), CountEmbedded(chunks.value))
  }

  /** No two chunks with an embedding are written under the same id. */
  predicate DistinctRows(cs: seq<Chunk>, freshId: nat -> Uuid) {
    forall k, k' | 0 <= k < k' < |cs| && Embedded(cs[k]) && Embedded(cs[k']) ::
      RowId(cs, k, freshId) != RowId(cs, k', freshId)
  }

  lemma DistinctRowsInit(cs: seq<Chunk>, freshId: nat -> Uuid)
    requires |cs| > 0 && DistinctRows(cs, freshId)
    ensures DistinctRows(cs[..|cs| - 1], freshId)
    ensures Embedded(cs[|cs| - 1]) ==> RowId(cs, |cs| - 1, freshId) !in Written(cs[..|cs| - 1], freshId)
  {
    var n := |cs| - 1;
    var init := cs[..n];
    assert forall k | 0 <= k < n :: init[k] == cs[k];
    if Embedded(cs[n]) {
      forall k | 0 <= k < n && Embedded(init[k]) ensures RowId(init, k, freshId) != RowId(cs, n, freshId) {
        assert RowId(init, k, freshId) == RowId(cs, k, freshId);
      }
    }
  }

  /** With distinct ids, the reported count is the number of rows written. */
  lemma {:induction false} CountIsRowsWritten(cs: seq<Chunk>, freshId: nat -> Uuid)
    requires DistinctRows(cs, freshId)
    ensures |Written(cs, freshId)| == CountEmbedded(cs)
    decreases |cs|
  {
    if |cs| > 0 {
      var n := |cs| - 1;
      WrittenSnoc(cs, freshId);
      DistinctRowsInit(cs, freshId);
      CountIsRowsWritten(cs[..n], freshId);
    }
  }

  // ----- pgvector literal -----

  /** `toPgLiteral`: `[v0,v1,...]`, each float rendered by `Float.toString`. */
  function ToPgLiteral(v: Vec, render: Float -> string): string {
    "[" + Join(seq(|v|, i requires 0 <= i < |v| => render(v[i])), ',') + "]"
  }

  /**
   * The literal is bracketed, holds one comma fewer than the vector has
   * elements, and splitting its inside at commas gives back each rendering.
   */
  lemma PgLiteralShape(v: Vec, render: Float -> string)
    requires |v| > 0
    requires forall f: Float :: ',' !in render(f)
    ensures var lit := ToPgLiteral(v, render);
            && |lit| >= 2 && lit[0] == '[' && lit[|lit| - 1] == ']'
            && Pieces(lit[1..|lit| - 1], ',') == seq(|v|, i requires 0 <= i < |v| => render(v[i]))
            && CountChar(lit[1..|lit| - 1], ',') == |v| - 1
  {
    var parts := seq(|v|, i requires 0 <= i < |v| => render(v[i]));
    var lit := ToPgLiteral(v, render);
    assert lit[1..|lit| - 1] == Join(parts, ',');
    PiecesOfJoin(parts, ',');
    JoinSeparatorCount(parts, ',');
  }

  // ----- cache -----

  datatype CacheEntry = CacheEntry(results: seq<SearchResult>, expiresAt: int)

  /** The cache map, keyed by the (Base64 of the) key bytes; Base64 is injective, so the bytes stand for it. */
  type Cache = map<seq<Byte>, CacheEntry>

  /**
   * `getCached`: an entry still valid at `now` (its expiry not before `now`)
   * is returned; otherwise the key is removed and nothing is returned.
   */
  function GetCached(cache: Cache, key: seq<Byte>, now: int): (r: (Option<seq<SearchResult>>, Cache))
    ensures r.0.Some? <==> key in cache && cache[key].expiresAt >= now
    ensures r.0.Some? ==> r.0.value == cache[key].results && r.1 == cache
    ensures r.0.None? ==> r.1 == cache - {key}
  {
    if key !in cache || cache[key].expiresAt < now then (None, cache - {key})
    else (Some(cache[key].results), cache)
  }

  /** `putCached`: the entry expires `ttlMillis` after `now`. */
  function PutCached(cache: Cache, key: seq<Byte>, results: seq<SearchResult>, now: int, ttlMillis: int): Cache {
    cache[key := CacheEntry(results, now + ttlMillis)]
  }

  /** What is put is found again until its time is up, and other keys are unaffected. */
  lemma CacheRoundTrip(cache: Cache, key: seq<Byte>, results: seq<SearchResult>, now: int, ttlMillis: int, later: int)
    ensures GetCached(PutCached(cache, key, results, now, ttlMillis), key, later).0
            == (if later <= now + ttlMillis then Some(results) else None)
    ensures forall other | other != key ::
              GetCached(PutCached(cache, key, results, now, ttlMillis), other, later).0 == GetCached(cache, other, later).0
  {
  }

  // ----- cache key -----

  /** `category.getBytes()` (UTF-8), nothing for a null category. */
  function CategoryBytes(category: Option<string>): seq<Byte> {
    if category.None? then [] else Utf8(category.value)
  }

  function Zeros(n: nat): (r: seq<Byte>)
    ensures |r| == n && forall i | 0 <= i < n :: r[i] == 0
  {
    seq(n, _ => 0)
  }

  /**
   * `cacheKey`: a zero-filled buffer of `4 * |v| + 4 + 64` bytes holding the
   * floats, then `topK`, then the category's bytes. A category longer than
   * 64 bytes overflows the buffer.
   */
  function CacheKey(v: Vec, topK: int, category: Option<string>): (r: Result<seq<Byte>, string>)
    ensures r.Failure? <==> |CategoryBytes(category)| > CATEGORY_RESERVE
    ensures r.Success? ==> |r.value| == 4 * |v| + 4 + CATEGORY_RESERVE
  {
    var cat := CategoryBytes(category);
    if |cat| > CATEGORY_RESERVE then Failure("BufferOverflowException")
    else Success(KeyBytes(v, topK, cat))
  }

  /** The key's bytes once the category is known to fit. */
  function KeyBytes(v: Vec, topK: int, cat: seq<Byte>): seq<Byte>
    requires |cat| <= CATEGORY_RESERVE
  {
    FloatsBytes(v) + (U32Bytes(topK) + (cat + Zeros(CATEGORY_RESERVE - |cat|)))
  }

  /** The floats at the front of a key decode back to the vector. */
  lemma KeyFloats(v: Vec, rest: seq<Byte>)
    ensures FloatsOf(FloatsBytes(v) + rest, |v|) == v
  {
    FloatsRoundTrip(v, rest);
  }

  /** Slicing a key after a prefix of known length: four bytes of word, then the rest. */
  lemma SliceAfter(front: seq<Byte>, word: seq<Byte>, tail: seq<Byte>)
    requires |word| == 4
    ensures (front + (word + tail))[|front|..|front| + 4] == word
    ensures (front + (word + tail))[|front| + 4..] == tail
  {
    var key := front + (word + tail);
    assert key[|front|..] == word + tail;
  }

  /** The key holds the vector recoverably. */
  lemma CacheKeyDecodesVector(v: Vec, topK: int, category: Option<string>)
    requires CacheKey(v, topK, category).Success?
    ensures FloatsOf(CacheKey(v, topK, category).value, |v|) == v
  {
    var key := KeyBytes(v, topK, CategoryBytes(category));
    assert CacheKey(v, topK, category) == Success(key);
    KeyBytesVector(v, topK, CategoryBytes(category));
  }

  lemma KeyBytesVector(v: Vec, topK: int, cat: seq<Byte>)
    requires |cat| <= CATEGORY_RESERVE
    ensures FloatsOf(KeyBytes(v, topK, cat), |v|) == v
  {
    KeyFloats(v, U32Bytes(topK) + (cat + Zeros(CATEGORY_RESERVE - |cat|)));
  }

  /** The key holds `topK` modulo 2^32 right after the vector, followed by the zero-padded category. */
  lemma CacheKeyDecodesTopK(v: Vec, topK: int, category: Option<string>)
    requires CacheKey(v, topK, category).Success?
    ensures U32Of(CacheKey(v, topK, category).value[4 * |v|..4 * |v| + 4]) == topK % TWO_32
    ensures CacheKey(v, topK, category).value[4 * |v| + 4..]
            == CategoryBytes(category) + Zeros(CATEGORY_RESERVE - |CategoryBytes(category)|)
  {
    var cat := CategoryBytes(category);
    var tail := cat + Zeros(CATEGORY_RESERVE - |cat|);
    SliceAfter(FloatsBytes(v), U32Bytes(topK), tail);
    U32RoundTrip(topK);
  }

  /** Two searches share a cache entry only if they have the same vector and the same `topK` modulo 2^32. */
  lemma CacheKeyInjective(v1: Vec, k1: int, c1: Option<string>, v2: Vec, k2: int, c2: Option<string>)
    requires CacheKey(v1, k1, c1).Success? && CacheKey(v2, k2, c2).Success?
    requires CacheKey(v1, k1, c1).value == CacheKey(v2, k2, c2).value
    ensures v1 == v2 && k1 % TWO_32 == k2 % TWO_32
  {
    CacheKeyDecodesVector(v1, k1, c1);
    CacheKeyDecodesVector(v2, k2, c2);
    CacheKeyDecodesTopK(v1, k1, c1);
    CacheKeyDecodesTopK(v2, k2, c2);
  }

  /** A null category and an empty one give the same key. */
  lemma NullAndEmptyCategoryShareKey(v: Vec, topK: int)
    ensures CacheKey(v, topK, None) == CacheKey(v, topK, Some(""))
  {
  }

  // ----- search -----

  /** A pgvector `<->` distance, never negative. */
  type Distance = d: real | d >= 0.0

  /** A row of the nearest-neighbour query, nearest first. */
  datatype Row = Row(id: Uuid, documentId: Uuid, chunkIndex: int, content: string, distance: Distance)

  /**
   * The database: the chunks nearest to the vector, at most `topK` of them,
   * restricted to documents of the category when one is given.
   */
  type Db = (Vec, int, Option<string>) -> seq<Row>

  /** `1 / (1 + distance)`. */
  function Similarity(d: Distance): real {
    1.0 / (1.0 + d)
  }

  /**
   * Similarity lies in (0, 1], is 1 exactly at distance 0, and falls
   * strictly as distance grows, so nearest-first is most-similar-first.
   */
  lemma SimilarityOrder(d1: Distance, d2: Distance)
    ensures 0.0 < Similarity(d1) <= 1.0
    ensures d1 <= d2 ==> Similarity(d1) >= Similarity(d2)
    ensures d1 < d2 ==> Similarity(d1) > Similarity(d2)
    ensures Similarity(d1) == 1.0 <==> d1 == 0.0
  {
    var a, b := Similarity(d1), Similarity(d2);
    assert (1.0 + d1) * a == 1.0;
    assert (1.0 + d2) * b == 1.0;
    if d1 <= d2 {
      assert (1.0 + d1) * b <= (1.0 + d2) * b;
      CancelPositive(1.0 + d1, b, a);
    }
    if d1 < d2 {
      assert (1.0 + d1) * b < (1.0 + d2) * b;
      CancelPositive(1.0 + d1, b, a);
    }
  }

  /** A positive factor can be cancelled from both sides of a comparison. */
  lemma CancelPositive(c: real, x: real, y: real)
    requires c > 0.0
    ensures c * x <= c * y ==> x <= y
    ensures c * x < c * y ==> x < y
  {
    if x > y {
      assert c * x - c * y == c * (x - y);
    }
    if x >= y {
      assert c * x - c * y == c * (x - y);
    }
  }

  function ToResult(row: Row): SearchResult {
    SearchResult(row.id, row.documentId, row.chunkIndex, row.content, Similarity(row.distance))
  }

  function ToResults(rows: seq<Row>): (r: seq<SearchResult>)
    ensures |r| == |rows|
    ensures forall i | 0 <= i < |rows| :: r[i] == ToResult(rows[i])
  {
    seq(|rows|, i requires 0 <= i < |rows| => ToResult(rows[i]))
  }

  /** Rows nearest first. */
  predicate NearestFirst(rows: seq<Row>) {
    forall i, j | 0 <= i < j < |rows| :: rows[i].distance <= rows[j].distance
  }

  /**
   * Every result's similarity lies in (0, 1], and rows handed back nearest
   * first give results most similar first.
   */
  lemma ResultsMostSimilarFirst(rows: seq<Row>)
    ensures forall i | 0 <= i < |rows| :: 0.0 < ToResults(rows)[i].similarity <= 1.0
    ensures NearestFirst(rows) ==>
              forall i, j | 0 <= i < j < |rows| :: ToResults(rows)[i].similarity >= ToResults(rows)[j].similarity
  {
    var r := ToResults(rows);
    forall i | 0 <= i < |rows| ensures 0.0 < r[i].similarity <= 1.0 {
      SimilarityOrder(rows[i].distance, rows[i].distance);
    }
    if NearestFirst(rows) {
      forall i, j | 0 <= i < j < |rows| ensures r[i].similarity >= r[j].similarity {
        SimilarityOrder(rows[i].distance, rows[j].distance);
      }
    }
  }

  /** The category filter is applied only for a non-blank category. */
  function Filter(category: Option<string>): (f: Option<string>)
    ensures f.Some? <==> !NullOrBlank(category)
    ensures f.Some? ==> f == category
  {
    if category.Some? && !IsBlank(category.value) then category else None
  }

  /** A null or empty query vector. */
  predicate NoQuery(v: Option<Vec>) {
    v.None? || |v.value| == 0
  }

  /**
   * PostgreSQL's message for a `LIMIT` bound below zero: a search that has to
   * go to the database with a negative `topK` fails with it.
   */
  const NEGATIVE_LIMIT: string := "LIMIT must not be negative"

  /** A cache entry for `key` that `getCached` returns at `at`. */
  predicate Live(config: Config, cache: Cache, key: seq<Byte>, at: int) {
    config.cacheEnabled && key in cache && cache[key].expiresAt >= at
  }

  /**
   * `searchSimilar(queryEmbedding, topK, category)`. The cache is consulted
   * at `lookupAt` and refilled at `storeAt`; the result is the cached list,
   * or the database's rows converted to similarities. The cache is returned
   * even when the search fails, since an expired entry has already been
   * dropped by then.
   */
  function Search(config: Config, cache: Cache, v: Option<Vec>, topK: int, category: Option<string>,
                  lookupAt: int, storeAt: int, db: Db): (r: (Result<seq<SearchResult>, string>, Cache))
    ensures NoQuery(v) ==> r == (Success([]), cache)
    ensures !NoQuery(v) && CacheKey(v.value, topK, category).Failure? ==>
              r == (Failure(CacheKey(v.value, topK, category).error), cache)
    ensures !NoQuery(v) && CacheKey(v.value, topK, category).Success? ==>
              var key := CacheKey(v.value, topK, category).value;
              (r.0.Failure? <==> topK < 0 && !Live(config, cache, key, lookupAt))
    ensures !NoQuery(v) && !config.cacheEnabled && r.0.Success? ==>
              r == (Success(ToResults(db(v.value, topK, Filter(category)))), cache)
    ensures !config.cacheEnabled ==> r.1 == cache
  {
    if NoQuery(v) then (Success([]), cache)
    else
      match CacheKey(v.value, topK, category)
      case Failure(e) => (Failure(e), cache)
      case Success(key) => Lookup(config, cache, key, v.value, topK, Filter(category), lookupAt, storeAt, db)
  }

  /**
   * The cache-or-database step both overloads share once the key is known.
   * A miss queries the database, which refuses a negative `topK` before
   * anything is stored.
   */
  function Lookup(config: Config, cache: Cache, key: seq<Byte>, v: Vec, topK: int, filter: Option<string>,
                  lookupAt: int, storeAt: int, db: Db): (r: (Result<seq<SearchResult>, string>, Cache))
    ensures Live(config, cache, key, lookupAt) ==> r == (Success(cache[key].results), cache)
    ensures !Live(config, cache, key, lookupAt) ==> (r.0.Failure? <==> topK < 0)
    ensures !Live(config, cache, key, lookupAt) && r.0.Success? ==> r.0.value == ToResults(db(v, topK, filter))
    ensures !Live(config, cache, key, lookupAt) && config.cacheEnabled ==>
              r.1 == if r.0.Success? then PutCached(cache, key, r.0.value, storeAt, TtlMillis(config))
                     else cache - {key}
    ensures !config.cacheEnabled ==> r.1 == cache
  {
    var hit := if config.cacheEnabled then GetCached(cache, key, lookupAt) else (None, cache);
    if hit.0.Some? then (Success(hit.0.value), hit.1)
    else if topK < 0 then (Failure(NEGATIVE_LIMIT), hit.1)
    else
      var results := ToResults(db(v, topK, filter));
      if config.cacheEnabled then (Success(results), PutCached(hit.1, key, results, storeAt, TtlMillis(config)))
      else (Success(results), cache)
  }

  /** `searchSimilar(queryEmbedding, topK)`: no category, no join. */
  function SearchSimilar(config: Config, cache: Cache, v: Option<Vec>, topK: int,
                         lookupAt: int, storeAt: int, db: Db): (r: (Result<seq<SearchResult>, string>, Cache))
    ensures NoQuery(v) ==> r == (Success([]), cache)
    ensures !NoQuery(v) && !config.cacheEnabled ==> (r.0.Failure? <==> topK < 0)
  {
    if NoQuery(v) then (Success([]), cache)
    else
      var key := FloatsBytes(v.value) + (U32Bytes(topK) + Zeros(CATEGORY_RESERVE));
      Lookup(config, cache, key, v.value, topK, None, lookupAt, storeAt, db)
  }

  /** The two-argument search is the three-argument one with a null category (and cannot overflow). */
  lemma OverloadsAgree(config: Config, cache: Cache, v: Option<Vec>, topK: int,
                       lookupAt: int, storeAt: int, db: Db)
    ensures Search(config, cache, v, topK, None, lookupAt, storeAt, db)
            == SearchSimilar(config, cache, v, topK, lookupAt, storeAt, db)
  {
    if !NoQuery(v) {
      assert [] + Zeros(CATEGORY_RESERVE) == Zeros(CATEGORY_RESERVE);
    }
  }

  /**
   * A first search for a new key succeeds exactly when `topK` is not
   * negative; repeated before the entry it stored expires, it is answered
   * from the cache with the same list, and the database is not consulted
   * again.
   */
  lemma RepeatHitsCache(config: Config, cache: Cache, v: Option<Vec>, topK: int, category: Option<string>,
                        t1: int, t2: int, t3: int, db: Db, db': Db)
    requires config.cacheEnabled && !NoQuery(v)
    requires CacheKey(v.value, topK, category).Success?
    requires CacheKey(v.value, topK, category).value !in cache
    requires t3 <= t2 + TtlMillis(config)
    ensures var first := Search(config, cache, v, topK, category, t1, t2, db);
            first.0.Success? <==> topK >= 0
    ensures var first := Search(config, cache, v, topK, category, t1, t2, db);
            first.0.Success? ==> Search(config, first.1, v, topK, category, t3, t3, db') == first
  {
  }
}

=== FILE: wrappers.dfy ===
/** Failure-compatible wrappers standing in for Java's nullable references and exceptions. */
module Wrappers {

  /** A nullable Java reference: `None` is `null`. */
  datatype Option<+T> = None | Some(value: T) {

    function GetOr(default: T): T {
      match this
      case Some(v) => v
      case None => default
    }
  }

  /** The outcome of a call that may throw: `Failure` carries the exception's message. */
  datatype Result<+T, +E> = Success(value: T) | Failure(error: E) {

    predicate IsFailure() {
      Failure?
    }

    function PropagateFailure<U>(): Result<U, E>
      requires Failure?
    {
      Failure(error)
    }

    function Extract(): T
      requires Success?
    {
      value
    }
  }
}
